=== FILE: README.md ===
# json2pojo: the schema walk and the rendering decisions

json2pojo reads one example JSON document and writes one Java class per
object (or array of objects) it finds. This project models its core in Dafny.

The core has three parts:

- **The identifier normalisers.** `to_java_class_name`, `to_java_field_name` and
  `to_java_method_name` turn raw JSON keys into Java names. Ruby's `chop` drops
  the last character of array class names.
- **The schema walk.** `get_java_type`, `process_array` and `setup_data` form a
  mutual recursion over the parsed document. It fills four tables:
  - `@java_classes`: class key to parent, in insertion order;
  - `@java_lists`: list key to its owner;
  - `@field_info`: raw key to its `FieldDetails`;
  - `@java_fields`: class key to its list of fields.

  The walk raises when it is handed something that is not a Hash. The model
  returns `Failure(NotAnObject(key))` instead.
- **The rendering decisions.** These are the decisions `java_class_output` and
  `write_file` take for each registered class:
  - the class name, chopped for lists;
  - for every field, its declared type, Java field name and accessor suffix;
  - the `@JsonProperty` / `@JsonSerialize` annotations and the imports they
    pull in;
  - whether the class file is written.

Modules:

- `Json`: the document.
- `Names`: the normalisers.
- `Registry`: the four tables.
- `Walk`: the walk.
- `WalkSteps`, `WalkFrame`, `WalkFacts`, `WalkDetails`, `WalkShape`,
  `InferFacts`: properties of the walk.
- `Render`, `RenderFacts`: the decisions and their meaning.
- `AliasFinding`: the render as written, with its in-place `chop!`.
- `ChopFree`: documents on which that `chop!` changes nothing.
- `Examples`: the documents of the script's help text.

Three behaviours of the source are easy to misread:

- **Hyphens.** The `when '-'` branch of each normaliser is empty
  (json2pojo.rb:146, 174, 202). A hyphen is dropped, and the character after it
  is not capitalised (`Names.HyphenDoesNotStartWord`). Only `_` starts a new word.
- **Booleans.** `get_java_type` (json2pojo.rb:76-98) has no boolean branch. So
  booleans and null are declared "UNKNOWN" (`Examples.UnknownScalars`). An array
  nested in an array whose first element is a boolean or null makes the walk
  raise (`Examples.NestedListFails`).
- **Field order.** The help text lists the fields of its first example in
  reverse order (json2pojo.rb:394-396). `setup_data` appends each key to its
  parent's field list in document order (json2pojo.rb:129), because a Ruby Hash
  iterates in insertion order. The model follows the code
  (`Examples.FlatDocument`).

## Model

| member | source | states |
|---|---|---|
| Names.ToJavaClassName | json2pojo.rb:135-156 | the class name is no longer than the key, starts with the key's first character upper-cased, and is empty only for the empty key |
| Names.ToJavaFieldName | json2pojo.rb:159-189 | the field name is no longer than the key, and strictly shorter whenever the key holds a `_` or `-` |
| Names.ToJavaMethodName | json2pojo.rb:192-217 | the accessor suffix is no longer than the key |
| Names.ClassNameOfSnake | json2pojo.rb:135-156 | a key `w1_w2_…_wn` whose words are non-empty, hold no `_` and do not start with `-` becomes `W1W2…Wn`: every word capitalised, with its `-`s removed |
| Names.FieldNameOfSnake | json2pojo.rb:159-189 | such a key becomes lowerCamelCase: the first word as is, every later word capitalised, all with their `-`s removed |
| Names.MethodNameOfSnake | json2pojo.rb:192-217 | such a key gives the accessor suffix `W1W2…Wn`, as for the class name |
| Names.ClassNameOfWord | json2pojo.rb:135-156 | a key without separators becomes a class name by capitalising its first character |
| Names.FieldNameIdentityIff | json2pojo.rb:159-189 | the field name equals the key if and only if the key holds no `_` and no `-` (the test of line 259) |
| Names.MethodNameCapitalisesFieldName | json2pojo.rb:159-217 | for every key not starting with `-`, the accessor suffix is the field name with its first character upper-cased |
| Names.LeadingHyphenAccessor | json2pojo.rb:192-217 | for a key starting with `-` the two disagree: `-ab` gives accessor `ab`, not `Ab` |
| Names.HyphenDoesNotStartWord | json2pojo.rb:145-151 | `-` is dropped and the next character is not capitalised, in all three normalisers |
| Names.LeadingUnderscoreClassName | json2pojo.rb:139-151 | a leading `_` is kept in a class name (it is read in the "first" state), and the character after it is not capitalised |
| Names.HyphenAfterUnderscore | json2pojo.rb:139-151 | a `-` right after a `_` is read in the capitalising state and kept: `a_-b` gives class name `A-b` |
| Names.LeadingUnderscoreFieldName | json2pojo.rb:164-180 | a leading `_` is dropped from a field name and the next character is left lower-case (`leave_lowercase`) |
| Walk.TypeName | json2pojo.rb:84-93 | the type of an array is `List<…>` and never "UNKNOWN" |
| Walk.GetJavaType | json2pojo.rb:76-98 | `get_java_type` raises exactly when `TypeFails`; on success the type and write flag are those of the reference definitions `TypeName`/`WriteFlag`, the registry stays valid and keeps every field list, and a non-array value leaves the registry untouched |
| Walk.ProcessArray | json2pojo.rb:100-109 | `process_array` raises exactly when `MemberFails`; on success the registry stays valid and keeps every field list |
| Walk.ProcessValue | json2pojo.rb:119-127 | one member value raises exactly when `MemberFails`; the details name the member's key and its parent |
| Walk.ProcessMember | json2pojo.rb:114-130 | one loop iteration raises exactly when its value fails; the parent keeps a field list |
| Walk.SetupMembers | json2pojo.rb:114-130 | the member loop raises exactly when some remaining member fails |
| Walk.SetupData | json2pojo.rb:111-132 | `setup_data` raises exactly when `ObjectFails`; on success the parent owns a field list |
| Walk.Infer | json2pojo.rb:580-581 | the driver succeeds exactly when the document does not fail, and then the top-level class owns a field list |
| WalkFrame.GetJavaTypeFrame | json2pojo.rb:76-98 | `get_java_type(v, _, key)` only adds to the tables, and changes no entry outside the keys inside `v` and the field list of `key` |
| WalkFrame.ProcessArrayFrame | json2pojo.rb:100-109 | `process_array` changes only the array's key and the keys inside its first element; the array's key ends as a class and list of `parent` unless a nested key of the same name overwrote it |
| WalkFrame.ProcessValueFrame | json2pojo.rb:119-127 | one member value changes only its key and the keys inside it |
| WalkFrame.ProcessMemberFrame | json2pojo.rb:114-130 | one loop iteration changes only the member's key, the keys inside its value and the parent's field list |
| WalkFrame.SetupMembersFrame | json2pojo.rb:114-130 | the member loop changes only the keys of the remaining members and the parent's field list |
| WalkFrame.SetupDataFrame | json2pojo.rb:111-132 | `setup_data(hash, parent)` changes only the keys inside the hash and the field list of `parent` |
| WalkFrame.InferOrder | json2pojo.rb:580-582 | the top-level class is the first class in `@java_classes` order |
| WalkFacts.GetJavaTypeAdds | json2pojo.rb:76-98 | `get_java_type` on a non-object adds to each table exactly the keys of the nested objects it walks, plus the key itself as owner when it synthesises a class |
| WalkFacts.ProcessArrayAdds | json2pojo.rb:100-109 | `process_array` adds exactly the array's key (except to `@field_info`) and the keys its first element puts in that table |
| WalkFacts.ProcessValueAdds | json2pojo.rb:119-127 | one member value adds exactly its key, where its kind selects that table, and the keys inside it |
| WalkFacts.SetupMembersAdds | json2pojo.rb:114-130 | the member loop adds exactly the keys the remaining members select for the table |
| WalkFacts.SetupDataAdds | json2pojo.rb:111-132 | `setup_data` adds exactly the keys of the hash each table selects, plus the parent as owner |
| WalkFacts.InferTables | json2pojo.rb:111-132 | after a run, `@java_classes` holds exactly the top-level class and every key holding an object or array; `@java_lists` every key holding an array; `@field_info` every reached key; `@java_fields` the top-level class and every key owning an object |
| WalkFacts.KeysOfWithin | json2pojo.rb:111-132 | every table holds only keys of the document, and `@field_info` holds all of them |
| WalkDetails.ProcessArrayDetails | json2pojo.rb:100-109 | the details of an array key are the reference `MemberDetails`: type "Array", `array_type` from the first element (none for an object), and its write flag |
| WalkDetails.ProcessValueDetails | json2pojo.rb:115-127 | the details built for any member are the reference details, computed from the value alone |
| WalkDetails.ProcessMemberStores | json2pojo.rb:128-129 | one iteration stores the member's details under its key and appends the key to the parent's list as that list stands after the recursion |
| WalkDetails.SetupMembersKeeps | json2pojo.rb:114-130 | the rest of the loop leaves every key it does not reach unchanged in `@field_info`, `@java_classes` and `@java_lists` |
| WalkDetails.SetupMembersDetails | json2pojo.rb:114-130 | a member's details survive the rest of the loop unless a later member reaches the same key (last write wins) |
| WalkDetails.SetupMembersSplit | json2pojo.rb:114-130 | the loop from `j` equals the loop up to `i` followed by the loop from `i` |
| WalkDetails.SetupMembersFieldOrder | json2pojo.rb:113-130 | when the parent's name is not a key of the remaining members, the loop appends exactly those keys, in document order, to the parent's field list |
| WalkDetails.SetupDataFieldOrder | json2pojo.rb:111-132 | `setup_data` leaves the parent's field list holding the object's keys in document order, one entry each |
| WalkDetails.ObjectValueParent | json2pojo.rb:121-124 | an object-valued key that does not recur inside its own value is registered as a class of its parent, and its list entry is untouched |
| WalkDetails.ContainerParent | json2pojo.rb:119-127 | a key that is not yet a class or list and does not recur inside its own value becomes a class of its parent if and only if its value is an object or array, and a list of it if and only if an array |
| WalkDetails.InferFieldOrder | json2pojo.rb:580-581 | after a run the top-level class's fields are the document's top-level keys in order |
| WalkDetails.InferDetails | json2pojo.rb:114-130 | after a run a top-level key not reached again later holds its reference details |
| WalkShape.GetJavaTypeTrunc | json2pojo.rb:84 | `get_java_type` reads only element 0 of every array |
| WalkShape.ProcessArrayTrunc | json2pojo.rb:104-107 | `process_array` reads only element 0 of every array |
| WalkShape.SetupDataTrunc | json2pojo.rb:111-132 | `setup_data` gives the same outcome on the document with every array cut to its first element |
| WalkShape.InferIgnoresLaterElements | json2pojo.rb:84-107 | two documents that agree on the first element of every array give the same registry or the same failure |
| InferFacts.InferContainerParent | json2pojo.rb:119-124 | a top-level object or array key not reached again ends as a class of the top-level class, an array key also as its list |
| InferFacts.InferObjectFields | json2pojo.rb:111-132 | a top-level key owning an object, other than the top-level class and recurring neither inside its value nor later, owns exactly that object's keys, in document order |
| InferFacts.InferNestedDetails | json2pojo.rb:114-130 | one level down, a key not reached again keeps the reference details with the owning key as parent |
| Render.ProperClassName | json2pojo.rb:229-232 | the class name is a prefix of the key's class name; it is shorter if and only if chopping is on and the key names a list, and then by exactly one character |
| Render.AnnotatedField | json2pojo.rb:258-266 | `@JsonProperty` if and only if the key holds a `_` or `-`; `@JsonSerialize` if and only if the key is `_rev` or `_id` |
| Render.RenderField | json2pojo.rb:241-266 | the declared type is `List<array_type>`, or `List<chopped class name>` for a list of objects, when the field is a list of this class; `to_java_class_name(key)`, unchopped, for a key owning fields that is not a list of this class; `List<recorded type>`, chopped when chopping is on, for a list of this class with no `array_type` that owns no fields; the recorded type otherwise; the field name is `to_java_field_name(key)` |
| RenderFacts.AccessorCapitalisesField | json2pojo.rb:243-244 | for a key owning no fields and not starting with `-`, `getX` is the field name capitalised |
| RenderFacts.TopLevelWritten | json2pojo.rb:219-225 | when the top-level class name is not a key of the document, the top-level class is rendered first, under its own class name, and its file is written (`write_file(nil)` is true) |
| RenderFacts.MemberFileWritten | json2pojo.rb:219-225 | for a top-level key not reached again later in the document, an object member's class file is written, and an array whose first element is neither an array nor an object gets no file, an empty array included (line 308) |
| RenderFacts.TopFields | json2pojo.rb:240-241 | when the top-level class name is not a key of the document, the top-level class renders one field per top-level key, field `i` from key `i` |
| RenderFacts.TopScalarField | json2pojo.rb:242-244 | a top-level scalar is declared with its scalar type, field name and accessor from its key |
| RenderFacts.TopValueListField | json2pojo.rb:249-256 | with the top-level class name not a document key, and the key recurring neither inside its array nor later: a top-level array whose first element is not an object is declared `List<T>` for that element's type (`List<UNKNOWN>` for an empty array, whose `value[0]` is nil), and registered as a class; it gets no class file when its first element is not an array either |
| RenderFacts.TopObjectListField | json2pojo.rb:249-256 | under the same conditions, a top-level array of objects is declared `List<C>` for its element class `C`, whose file is written |
| RenderFacts.TopObjectField | json2pojo.rb:245-248 | under the same conditions, and with the key holding no array anywhere, a top-level object is declared with the class name of its key, whose file is written |
| RenderFacts.RenderedClasses | json2pojo.rb:582 | the classes rendered are exactly the top-level class and every key holding an object or array |
| RenderFacts.OwnedClass | json2pojo.rb:229-232 | for a top-level key owning fields that recurs neither inside its value nor later (and, for an object, holds no array anywhere), its class is named after the key, chopped when it holds an array, and is written |
| RenderFacts.OwnedFields | json2pojo.rb:240-241 | for such a key that is also not the top-level class name, that class renders one field per key of its object, in document order |
| RenderFacts.OwnedScalarField | json2pojo.rb:242-244 | a scalar one level down is declared with its scalar type and names from its key |
| AliasFinding.RenderFieldAsWritten | json2pojo.rb:241-257 | while the recorded type strings are intact, a field renders as in the pure render; the `chop!` shortens the shared type string exactly when it hits the recorded one |
| AliasFinding.AsWrittenAgrees | json2pojo.rb:241-257 | when no recorded type is chopped in place, the render as written equals the pure render |
| ChopFree.SetupDataCovered | json2pojo.rb:111-132 | `setup_data` keeps the invariant that every key whose details carry no `array_type` owns a field list or is reached with a scalar value somewhere in the document |
| ChopFree.NoChopWithoutScalarLists | json2pojo.rb:242-253 | when no key that holds an array anywhere in the document also holds a scalar anywhere, no field list holds a field whose recorded type the list branch chops in place |
| ChopFree.AsWrittenWithoutScalarLists | json2pojo.rb:242-253 | for such a document the render as written equals the pure render |
| AliasFinding.DocWalk | json2pojo.rb:111-132 | the walk of `{"a":[1],"b":{"a":2}}` succeeds and leaves `a` a list of the top-level class whose details, overwritten by the inner `a`, record type "Long" and no `array_type` |
| AliasFinding.AsWrittenDeclaresLon | json2pojo.rb:242-253 | on that document the render as written declares the one field of the third class, `b`, as "Lon" |
| AliasFinding.AliasedChopLeaks | json2pojo.rb:242-253 | on `{"a":[1],"b":{"a":2}}` the walk leaves `a` typed "Long", yet the render as written declares field `a` of class `b` as "Lon" |
| AliasFinding.PureDeclaresLong | json2pojo.rb:242-253 | on the same document the corrected render declares "Long" |
| Examples.FlatDocument | json2pojo.rb:368-423 | `{"foo":…,"baz":…,"xyz":…}` renders exactly one class, `Example`, which is written and has exactly those three fields, in document order |
| Examples.FlatAsWritten | json2pojo.rb:368-423 | for that document the render as written, with its in-place `chop!`, equals the pure render, so what FlatDocument states holds of the program's own output |
| Examples.FlatFoo | json2pojo.rb:368-420 | `"foo": "blah"` becomes `String foo` with accessor `Foo` |
| Examples.FlatBaz | json2pojo.rb:368-420 | `"baz": 1` becomes `Long baz` with accessor `Baz` |
| Examples.FlatXyz | json2pojo.rb:368-420 | `"xyz": 2.5` becomes `Double xyz` with accessor `Xyz` |
| Examples.FlatImports | json2pojo.rb:380-392 | no List or JsonProperty import in that class |
| Examples.UnknownScalars | json2pojo.rb:76-98 | a boolean or null member is declared "UNKNOWN" |
| Examples.IdField | json2pojo.rb:259-265 | `"_id"` becomes `String id` with accessor `Id`, `@JsonProperty` and `@JsonSerialize` |
| Examples.RatesClasses | json2pojo.rb:425-438 | `{"exchange_rates": {…}}` registers exactly the top-level class and `exchange_rates` |
| Examples.RatesTopField | json2pojo.rb:425-438 | the top-level class declares one field of the outer key's class, annotated when the key has separators |
| Examples.RatesClass | json2pojo.rb:438-481 | the outer key's class keeps its class name, is written, and declares three fields |
| Examples.RatesFields | json2pojo.rb:451-479 | the three rates become fields `AUD`, `USD`, `JPY`, each with its value's type and unchanged accessor |
| Examples.RatesAsWritten | json2pojo.rb:425-481 | for `{k: {"AUD":…,"USD":…,"JPY":…}}` the render as written equals the pure render |
| Examples.ExchangeRates | json2pojo.rb:425-481 | with the example's key: `ExchangeRates exchangeRates` under `@JsonProperty`, and `ExchangeRates` is written |
| Examples.NumbersField | json2pojo.rb:484-497 | an array of scalars is declared `List<T>` for its first element's type, and its class is registered but not written |
| Examples.NumbersAsWritten | json2pojo.rb:484-497 | for `{k: [x, …]}` with a scalar `x` the render as written equals the pure render |
| Examples.SimpleNumbers | json2pojo.rb:484-497 | `{"simple_numbers": [1.234, …]}` gives `List<Double> simpleNumbers` and no `SimpleNumbers` file |
| Examples.ListOfTopField | json2pojo.rb:499-511 | an array of objects is declared as a list of the element class, whose file is written |
| Examples.ListOfClass | json2pojo.rb:499-519 | the element class is named after the key (chopped when chopping is on), is written, and declares the first element's member |
| Examples.ListOfAsWritten | json2pojo.rb:499-533 | for `{k: [{f: v}, …]}` (the shape of the `simple_data` and `links` examples) the render as written equals the pure render |
| Examples.SimpleData | json2pojo.rb:513-519 | `{"simple_data": [{…}]}` gives `List<SimpleDat>` and class `SimpleDat`; with `-n` the class is `SimpleData` |
| Examples.Links | json2pojo.rb:521-533 | `{"links": [{…}]}` gives `List<Link>` and class `Link` |
| Examples.NestedListFails | json2pojo.rb:84-91 | `{"k": [[], …]}`, `{"k": [[true], …]}` and `{"k": [[null], …]}` make the walk raise, naming `k` |
| Examples.NestedNumberList | json2pojo.rb:84-93 | `{"k": [[7], …]}` is accepted and declared `List<List<Long>>` |

## Left out

- Command-line parsing and help: `parse_args` and `display_features_and_limitations`
  (json2pojo.rb:315-356, 358-555) are not modelled. The model takes `do_chop` (the
  `-n` flag) and the top-level class name as parameters.
- Configuration (json2pojo.rb:27-65): the package, header and annotation strings
  only feed the text layout.
- The text of the generated file (json2pojo.rb:267-298) is not modelled: the heredoc
  layout, the getter and setter bodies, and the package line. The model keeps
  only the decisions behind it, which are `FieldView` and `ClassView`.
- File and directory I/O, reading the example file and `JSON.parse`
  (json2pojo.rb:300-310, 563-578) are not modelled. The model starts from the
  parsed tree and reports `written` instead of writing a file.
- Floating-point values: only the tag of a float is kept, because the walk never
  looks at the value.
- Integers: `Fixnum` is modelled as the 62-bit signed range of a 64-bit
  interpreter. Larger integers (Bignum) resolve to "UNKNOWN".
- Ruby's `upcase` is modelled on ASCII letters only.
- Names.Chop: Ruby's `chop` removes both characters of a trailing `\r\n`, and the
  model removes one. The class-name scans copy `\r` and `\n` unchanged (lines
  135-156), so for a key ending in `\r\n` the `chop!` at lines 88 and 231 drops
  both characters where the model drops only the `\n`.
- Top-level documents that are not objects are not modelled: `Walk.Infer`
  requires an object. On a top-level array, `hash.each do |key,value|` (line 114)
  makes a non-array element the key with a nil value, and splits an array
  element into key and value, which may go on to raise further down. That path is
  not modelled.
- Names.ToJavaClassName: the word-wise rules (`Names.ClassNameOfSnake` and its
  field and accessor twins) cover keys whose `_`-separated pieces are non-empty
  and do not start with `-`. Keys with `__`, a leading or trailing `_`, or a piece
  starting with `-` are covered only by the single cases
  `Names.LeadingUnderscoreClassName`, `Names.LeadingUnderscoreFieldName`,
  `Names.LeadingHyphenAccessor` and `Names.HyphenAfterUnderscore`.
- Repeated keys: a `Json.JObj` may hold the same key twice, which a parsed Ruby
  Hash never does. The walk is modelled for any member list. The lemmas about a
  single key state their own condition that the key does not recur.
- WalkDetails.SetupMembersFieldOrder: stated only when the parent's name is not a
  key of the remaining members. Such a key holding an object, or an array whose
  first element is one, runs `setup_data` with the parent's own name (lines 105,
  124), which resets the parent's list (line 113) before the loop resumes, and the
  source promises no order for that case.
- WalkDetails.SetupDataFieldOrder: stated only when the parent's name is not a key
  inside the object. A nested key equal to the parent resets the parent's list in
  the middle of the loop (line 113), and the source promises nothing for that case.
- WalkDetails.InferFieldOrder: stated only when the top-level class name is not a
  key of the document, for the same reason.
- WalkDetails.InferDetails: stated only for keys that do not recur later in the
  document, because with repeated keys the last write to `@field_info` wins. The
  model computes that outcome but does not characterise it.
- RenderFacts.TopScalarField: stated for keys that are not also lists or owners
  elsewhere in the document. Such collisions change the declared type (line 245).
- RenderFacts.OwnedScalarField: stated under the same no-collision conditions as
  RenderFacts.TopScalarField.
- Render.RenderField: the field facts describe the corrected render, in which
  `chop!` does not write through to `@field_info`. The render as written is
  modelled separately (see Findings).

## Findings

| source | as written | input that shows it | evidently intended | confidence | as-written member | corrected member |
|---|---|---|---|---|---|---|
| json2pojo.rb:242-253 | `field_type = @field_info[field].type` aliases the recorded type string, and `field_type.chop!` then shortens `@field_info[field].type` in place for a list field with no `array_type` that owns no fields | `{"a":[1],"b":{"a":2}}` with chopping on: the inner `a` overwrites the details of the list `a`. Rendering class Example chops the shared "Long" to "Lon". Class `b`, rendered later, declares `private Lon a;` | chop a copy, so that every class declares its field `a` as `Long` | not executed | AliasFinding.AsWrittenDeclaresLon | AliasFinding.PureDeclaresLong |

=== FILE: alias_finding.dfy ===
/** `java_class_output` as written shares one Ruby string object between
    the local `field_type` and `@field_info[field].type` (json2pojo.rb:242),
    and then shortens it in place with `chop!` (json2pojo.rb:253) when the
    field is a list of this class with no `array_type` and the key owns no
    fields of its own. The shortened type is then seen by every class
    rendered later. This module models that render, proves it agrees with
    the pure render of module Render whenever no such in-place chop happens,
    and exhibits a document on which it does. */
module AliasFinding {
  import opened Wrappers
  import opened Json
  import opened Names
  import opened Registry
  import opened Walk
  import opened Render

  /** The type strings of `@field_info` as they currently stand. */
  function InfoTypes(reg: Registry): (m: map<string, string>)
    ensures m.Keys == reg.info.Keys
    ensures forall f :: f in m ==> m[f] == reg.info[f].javaType
  {
    map f | f in reg.info :: reg.info[f].javaType
  }

  /** `chop!` hits the recorded type string itself: `field_type` was not
      replaced by a class name, and the list branch chops it. */
  predicate ChopsRecorded(f: string, c: string, reg: Registry, doChop: bool)
    requires f in reg.info
  {
    f !in reg.fields && f in reg.lists && reg.lists[f] == c && reg.info[f].arrayType.None? && doChop
  }

  /** One field as written: the declared type starts from the current
      string `types[f]`, and an in-place chop shortens that string. */
  function RenderFieldAsWritten(f: string, c: string, reg: Registry, doChop: bool, types: map<string, string>)
    : (r: (FieldView, map<string, string>))
    requires f in reg.info && f in types
    ensures r.1.Keys == types.Keys
    ensures types[f] == reg.info[f].javaType ==> r.0 == RenderField(f, c, reg, doChop)
    ensures r.1 == (if ChopsRecorded(f, c, reg, doChop) then types[f := Chop(types[f])] else types)
  {
    var isList := f in reg.lists && reg.lists[f] == c;
    (AnnotatedField(DeclaredType(f, c, reg, doChop, types[f]), f, isList, Accessor(f, reg)),
     if ChopsRecorded(f, c, reg, doChop) then types[f := Chop(types[f])] else types)
  }

  /** The fields of one class in order, threading the type strings. */
  function RenderFieldsAsWritten(fs: seq<string>, c: string, reg: Registry, doChop: bool, types: map<string, string>)
    : (r: (seq<FieldView>, map<string, string>))
    requires forall i :: 0 <= i < |fs| ==> fs[i] in reg.info && fs[i] in types
    ensures |r.0| == |fs| && r.1.Keys == types.Keys
  {
    if |fs| == 0 then ([], types)
    else
      var (v, t1) := RenderFieldAsWritten(fs[0], c, reg, doChop, types);
      var (vs, t2) := RenderFieldsAsWritten(fs[1..], c, reg, doChop, t1);
      ([v] + vs, t2)
  }

  function RenderClassAsWritten(c: string, reg: Registry, doChop: bool, types: map<string, string>)
    : (r: (ClassView, map<string, string>))
    requires reg.Valid() && types.Keys == reg.info.Keys
    ensures r.1.Keys == types.Keys
  {
    var fs := FieldsOf(c, reg);
    var (vs, t) := RenderFieldsAsWritten(fs, c, reg, doChop, types);
    (Assemble(ProperClassName(c, reg, doChop), vs, WriteFile(c, reg)), t)
  }

  /** The classes from position `i` of the class order on. */
  function RenderFromAsWritten(i: nat, reg: Registry, doChop: bool, types: map<string, string>): (vs: seq<ClassView>)
    requires reg.Valid() && i <= |reg.classOrder| && types.Keys == reg.info.Keys
    decreases |reg.classOrder| - i
    ensures |vs| == |reg.classOrder| - i
  {
    if i == |reg.classOrder| then []
    else
      var (v, t) := RenderClassAsWritten(reg.classOrder[i], reg, doChop, types);
      [v] + RenderFromAsWritten(i + 1, reg, doChop, t)
  }

  /** One class of the render as written, and the type strings it hands on. */
  lemma FromStep(i: nat, reg: Registry, doChop: bool, types: map<string, string>)
    requires reg.Valid() && i < |reg.classOrder| && types.Keys == reg.info.Keys
    ensures var r := RenderClassAsWritten(reg.classOrder[i], reg, doChop, types);
            RenderFromAsWritten(i, reg, doChop, types) == [r.0] + RenderFromAsWritten(i + 1, reg, doChop, r.1)
  {}

  /** `@java_classes.each { … java_class_output … }` as written. */
  function RenderAllAsWritten(reg: Registry, doChop: bool): (vs: seq<ClassView>)
    requires reg.Valid()
    ensures |vs| == |reg.classOrder|
  {
    RenderFromAsWritten(0, reg, doChop, InfoTypes(reg))
  }

  // ---------------------------------------------------------------- agreement without the in-place chop

  /** No class field list holds a field whose recorded type is chopped in
      place. */
  ghost predicate NoRecordedChop(reg: Registry, doChop: bool)
    requires reg.Valid()
  {
    forall i :: 0 <= i < |reg.classOrder| ==> ClassKeepsTypes(reg.classOrder[i], reg, doChop)
  }

  /** Rendering class `c` chops no recorded type in place. */
  ghost predicate ClassKeepsTypes(c: string, reg: Registry, doChop: bool)
    requires reg.Valid()
  {
    forall j :: 0 <= j < |FieldsOf(c, reg)| ==> !ChopsRecorded(FieldsOf(c, reg)[j], c, reg, doChop)
  }

  /** The first field of a list whose type strings are untouched. */
  lemma FieldAgreeStep(fs: seq<string>, c: string, reg: Registry, doChop: bool)
    requires |fs| > 0 && forall i :: 0 <= i < |fs| ==> fs[i] in reg.info
    requires !ChopsRecorded(fs[0], c, reg, doChop)
    ensures var types := InfoTypes(reg);
            var q := RenderFieldsAsWritten(fs[1..], c, reg, doChop, types);
            RenderFieldsAsWritten(fs, c, reg, doChop, types) == ([RenderField(fs[0], c, reg, doChop)] + q.0, q.1)
  {
    var types := InfoTypes(reg);
    var p := RenderFieldAsWritten(fs[0], c, reg, doChop, types);
    assert p.1 == types;
  }

  lemma {:induction false} FieldsAgree(fs: seq<string>, c: string, reg: Registry, doChop: bool)
    requires forall i :: 0 <= i < |fs| ==> fs[i] in reg.info && !ChopsRecorded(fs[i], c, reg, doChop)
    ensures var r := RenderFieldsAsWritten(fs, c, reg, doChop, InfoTypes(reg));
            && r.1 == InfoTypes(reg)
            && forall i :: 0 <= i < |fs| ==> r.0[i] == RenderField(fs[i], c, reg, doChop)
  {
    if |fs| > 0 {
      var rest := fs[1..];
      forall i | 0 <= i < |rest| ensures rest[i] in reg.info && !ChopsRecorded(rest[i], c, reg, doChop) {
        assert rest[i] == fs[i + 1];
      }
      FieldAgreeStep(fs, c, reg, doChop);
      FieldsAgree(rest, c, reg, doChop);
      var r := RenderFieldsAsWritten(fs, c, reg, doChop, InfoTypes(reg));
      var q := RenderFieldsAsWritten(rest, c, reg, doChop, InfoTypes(reg));
      forall i | 0 <= i < |fs| ensures r.0[i] == RenderField(fs[i], c, reg, doChop) {
        if i > 0 {
          assert r.0[i] == q.0[i - 1] && fs[i] == rest[i - 1];
        }
      }
    }
  }

  /** One class: with the type strings untouched, the class renders as in
      the pure render and leaves them untouched. */
  lemma ClassAgrees(c: string, reg: Registry, doChop: bool)
    requires reg.Valid() && ClassKeepsTypes(c, reg, doChop)
    ensures RenderClassAsWritten(c, reg, doChop, InfoTypes(reg)) == (RenderClass(c, reg, doChop), InfoTypes(reg))
  {
    var fs := FieldsOf(c, reg);
    FieldsAgree(fs, c, reg, doChop);
    var r := RenderFieldsAsWritten(fs, c, reg, doChop, InfoTypes(reg));
    assert r.0 == seq(|fs|, i requires 0 <= i < |fs| => RenderField(fs[i], c, reg, doChop));
  }

  lemma FromAgreesStep(i: nat, reg: Registry, doChop: bool)
    requires reg.Valid() && i < |reg.classOrder| && ClassKeepsTypes(reg.classOrder[i], reg, doChop)
    ensures RenderFromAsWritten(i, reg, doChop, InfoTypes(reg))
            == [RenderClass(reg.classOrder[i], reg, doChop)] + RenderFromAsWritten(i + 1, reg, doChop, InfoTypes(reg))
  {
    ClassAgrees(reg.classOrder[i], reg, doChop);
    FromStep(i, reg, doChop, InfoTypes(reg));
  }

  lemma SliceCons(vs: seq<ClassView>, i: nat)
    requires i < |vs|
    ensures vs[i..] == [vs[i]] + vs[i + 1..]
  {}

  lemma {:induction false} FromAgrees(i: nat, reg: Registry, doChop: bool)
    requires reg.Valid() && i <= |reg.classOrder| && NoRecordedChop(reg, doChop)
    decreases |reg.classOrder| - i
    ensures RenderFromAsWritten(i, reg, doChop, InfoTypes(reg)) == RenderAll(reg, doChop)[i..]
  {
    if i < |reg.classOrder| {
      FromAgreesStep(i, reg, doChop);
      FromAgrees(i + 1, reg, doChop);
      SliceCons(RenderAll(reg, doChop), i);
    }
  }

  /** Without an in-place chop of a recorded type, the render as written is
      the pure render. */
  lemma AsWrittenAgrees(reg: Registry, doChop: bool)
    requires reg.Valid() && NoRecordedChop(reg, doChop)
    ensures RenderAllAsWritten(reg, doChop) == RenderAll(reg, doChop)
  {
    FromAgrees(0, reg, doChop);
    assert RenderAll(reg, doChop)[0..] == RenderAll(reg, doChop);
  }

  // ---------------------------------------------------------------- a document that shows it

  // {"a": [1], "b": {"a": 2}} under top-level class t, for any three
  // distinct names t, a and b: the outer "a" is a list of t, and the inner
  // "a" (a Long field of class b) overwrites its field details, so the list
  // has no `array_type` left and the key owns no fields.

  /** The three names are distinct. */
  predicate Apart(t: string, a: string, b: string) {
    t != a && t != b && a != b
  }

  function Inner(a: string): Json {
    JObj([Member(a, JInt(2))])
  }

  function Doc(a: string, b: string): Json {
    JObj([Member(a, JArr([JInt(1)])), Member(b, Inner(a))])
  }

  function OuterA(t: string, a: string): FieldDetails { FieldDetails(t, "Array", a, Some("Long"), false) }
  function InnerA(a: string, b: string): FieldDetails { FieldDetails(b, "Long", a, None, false) }
  function OuterB(t: string, b: string): FieldDetails { FieldDetails(t, "Hash", b, None, true) }

  // The registry after each step of the walk.
  function R1(t: string): Registry {
    Registry([t], map[t := TopLevelParent], map[t := []], map[], map[])
  }

  function R2(t: string, a: string): Registry {
    Registry([t, a], map[t := TopLevelParent, a := t], map[t := []], map[a := t], map[])
  }

  function R3(t: string, a: string): Registry {
    R2(t, a).(info := map[a := OuterA(t, a)], fields := map[t := [a]])
  }

  function R4(t: string, a: string, b: string): Registry {
    Registry([t, a, b], map[t := TopLevelParent, a := t, b := t], map[t := [a]], map[a := t], map[a := OuterA(t, a)])
  }

  function R5(t: string, a: string, b: string): Registry {
    R4(t, a, b).(fields := map[t := [a], b := []])
  }

  function R6(t: string, a: string, b: string): Registry {
    R4(t, a, b).(info := map[a := InnerA(a, b)], fields := map[t := [a], b := [a]])
  }

  /** The registry the whole walk leaves. */
  function Final(t: string, a: string, b: string): Registry {
    R4(t, a, b).(info := map[a := InnerA(a, b), b := OuterB(t, b)], fields := map[t := [a, b], b := [a]])
  }

  lemma ValidR1(t: string) ensures R1(t).Valid() && Empty.AddClass(t, TopLevelParent).(fields := map[t := []]) == R1(t) {}

  lemma ValidR3(t: string, a: string)
    requires t != a
    ensures R3(t, a).Valid()
  {
    assert forall k :: k in R3(t, a).classOrder <==> k == t || k == a;
  }

  lemma ValidR4(t: string, a: string, b: string)
    requires Apart(t, a, b)
    ensures R4(t, a, b).Valid() && R5(t, a, b).Valid()
  {
    assert forall k :: k in R4(t, a, b).classOrder <==> k == t || k == a || k == b;
  }

  lemma ValidFinal(t: string, a: string, b: string)
    requires Apart(t, a, b)
    ensures Final(t, a, b).Valid()
  {
    assert forall k :: k in Final(t, a, b).classOrder <==> k == t || k == a || k == b;
  }

  lemma ListA(t: string, a: string)
    requires t != a
    ensures R1(t).Valid() && R1(t).AddClass(a, t).(lists := R1(t).lists[a := t]) == R2(t, a)
  {
    ValidR1(t);
  }

  lemma OuterArray(t: string, a: string)
    requires t != a
    ensures R1(t).Valid()
    ensures ProcessArray(JArr([JInt(1)]), a, t, true, R1(t)) == Success(Processed(OuterA(t, a), R2(t, a)))
  {
    ListA(t, a);
    assert GetJavaType(JInt(1), a, true, R2(t, a)) == Success(Typed("Long", false, R2(t, a)));
  }

  lemma TablesAfterA(t: string, a: string)
    ensures R2(t, a).(info := R2(t, a).info[a := OuterA(t, a)], fields := R2(t, a).fields[t := R2(t, a).fields[t] + [a]])
            == R3(t, a)
  {
    assert R2(t, a).fields[t] + [a] == [a];
  }

  lemma OuterMemberA(t: string, a: string, b: string)
    requires Apart(t, a, b)
    ensures R1(t).Valid() && t in R1(t).fields
    ensures ProcessMember(Doc(a, b), 0, t, true, R1(t)) == Success(R3(t, a))
  {
    OuterArray(t, a);
    assert Doc(a, b).members[0] == Member(a, JArr([JInt(1)]));
    TablesAfterA(t, a);
  }

  lemma InnerTables(t: string, a: string, b: string)
    requires Apart(t, a, b)
    ensures R5(t, a, b).(info := R5(t, a, b).info[a := InnerA(a, b)],
                         fields := R5(t, a, b).fields[b := R5(t, a, b).fields[b] + [a]]) == R6(t, a, b)
  {
    assert R5(t, a, b).fields[b] + [a] == [a];
  }

  lemma InnerMember(t: string, a: string, b: string)
    requires Apart(t, a, b)
    ensures R5(t, a, b).Valid() && b in R5(t, a, b).fields
    ensures ProcessMember(Inner(a), 0, b, true, R5(t, a, b)) == Success(R6(t, a, b))
  {
    ValidR4(t, a, b);
    assert ProcessValue(JInt(2), a, b, true, R5(t, a, b)) == Success(Processed(InnerA(a, b), R5(t, a, b)));
    InnerTables(t, a, b);
  }

  lemma AddB(t: string, a: string, b: string)
    requires Apart(t, a, b)
    ensures R3(t, a).Valid() && R3(t, a).AddClass(b, t) == R4(t, a, b)
    ensures R4(t, a, b).(fields := R4(t, a, b).fields[b := []]) == R5(t, a, b)
  {
    ValidR3(t, a);
    assert R3(t, a).classOrder + [b] == R4(t, a, b).classOrder;
  }

  lemma InnerObject(t: string, a: string, b: string)
    requires Apart(t, a, b)
    ensures R3(t, a).Valid() && SetupData(Inner(a), b, true, R3(t, a).AddClass(b, t)) == Success(R6(t, a, b))
  {
    AddB(t, a, b);
    InnerMember(t, a, b);
    assert SetupMembers(Inner(a), 1, b, true, R6(t, a, b)) == Success(R6(t, a, b));
  }

  lemma FinalTables(t: string, a: string, b: string)
    requires Apart(t, a, b)
    ensures R6(t, a, b).(info := R6(t, a, b).info[b := OuterB(t, b)],
                         fields := R6(t, a, b).fields[t := R6(t, a, b).fields[t] + [b]]) == Final(t, a, b)
  {
    assert R6(t, a, b).fields[t] + [b] == [a, b];
  }

  lemma OuterMemberB(t: string, a: string, b: string)
    requires Apart(t, a, b)
    ensures R3(t, a).Valid() && t in R3(t, a).fields
    ensures ProcessMember(Doc(a, b), 1, t, true, R3(t, a)) == Success(Final(t, a, b))
  {
    InnerObject(t, a, b);
    assert Doc(a, b).members[1] == Member(b, Inner(a));
    FinalTables(t, a, b);
  }

  /** The walk of the document. */
  lemma DocWalk(t: string, a: string, b: string)
    requires Apart(t, a, b)
    ensures Infer(Doc(a, b), t, true) == Success(Final(t, a, b))
  {
    ValidR1(t);
    OuterMemberA(t, a, b);
    OuterMemberB(t, a, b);
    assert Infer(Doc(a, b), t, true) == SetupMembers(Doc(a, b), 0, t, true, R1(t));
    assert SetupMembers(Doc(a, b), 0, t, true, R1(t)) == SetupMembers(Doc(a, b), 1, t, true, R3(t, a));
    assert SetupMembers(Doc(a, b), 1, t, true, R3(t, a)) == SetupMembers(Doc(a, b), 2, t, true, Final(t, a, b));
  }

  /** The type strings after the top-level class was rendered: its list
      field a chopped "Long" in place. */
  function Chopped(t: string, a: string, b: string): map<string, string> {
    InfoTypes(Final(t, a, b))[a := "Lon"]
  }

  lemma ChopLong() ensures Chop("Long") == "Lon" {}

  /** Rendering field a of class t chops the recorded "Long". */
  lemma TopFieldA(t: string, a: string, b: string)
    requires Apart(t, a, b)
    ensures Final(t, a, b).Valid()
    ensures RenderFieldAsWritten(a, t, Final(t, a, b), true, InfoTypes(Final(t, a, b))).1 == Chopped(t, a, b)
  {
    ValidFinal(t, a, b);
    assert ChopsRecorded(a, t, Final(t, a, b), true);
    assert InfoTypes(Final(t, a, b))[a] == "Long";
    ChopLong();
  }

  lemma TopClassChops(t: string, a: string, b: string)
    requires Apart(t, a, b)
    ensures Final(t, a, b).Valid() && InfoTypes(Final(t, a, b)).Keys == Final(t, a, b).info.Keys
    ensures RenderClassAsWritten(t, Final(t, a, b), true, InfoTypes(Final(t, a, b))).1 == Chopped(t, a, b)
  {
    var reg := Final(t, a, b);
    TopFieldA(t, a, b);
    assert FieldsOf(t, reg) == [a, b];
    assert !ChopsRecorded(b, t, reg, true);
    assert [a, b][1..] == [b];
    assert RenderFieldsAsWritten([b], t, reg, true, Chopped(t, a, b)).1 == Chopped(t, a, b);
  }

  lemma LaterClassA(t: string, a: string, b: string)
    requires Apart(t, a, b)
    ensures Final(t, a, b).Valid() && Chopped(t, a, b).Keys == Final(t, a, b).info.Keys
    ensures RenderClassAsWritten(a, Final(t, a, b), true, Chopped(t, a, b)).1 == Chopped(t, a, b)
  {
    ValidFinal(t, a, b);
    assert FieldsOf(a, Final(t, a, b)) == [];
  }

  lemma LaterClassSeesChop(t: string, a: string, b: string)
    requires Apart(t, a, b)
    ensures Final(t, a, b).Valid() && Chopped(t, a, b).Keys == Final(t, a, b).info.Keys
    ensures var v := RenderClassAsWritten(b, Final(t, a, b), true, Chopped(t, a, b)).0;
            |v.fields| == 1 && v.fields[0].javaType == "Lon"
  {
    var reg := Final(t, a, b);
    ValidFinal(t, a, b);
    assert FieldsOf(b, reg) == [a];
    assert [a][1..] == [];
    assert !ChopsRecorded(a, b, reg, true);
    assert RenderFieldAsWritten(a, b, reg, true, Chopped(t, a, b)).0.javaType == "Lon";
  }

  lemma ThirdAfterTop(t: string, a: string, b: string)
    requires Apart(t, a, b)
    ensures Final(t, a, b).Valid() && Chopped(t, a, b).Keys == Final(t, a, b).info.Keys
    ensures RenderAllAsWritten(Final(t, a, b), true)[2] == RenderFromAsWritten(1, Final(t, a, b), true, Chopped(t, a, b))[1]
  {
    var reg := Final(t, a, b);
    TopClassChops(t, a, b);
    FromStep(0, reg, true, InfoTypes(reg));
  }

  lemma ThirdAfterA(t: string, a: string, b: string)
    requires Apart(t, a, b)
    ensures Final(t, a, b).Valid() && Chopped(t, a, b).Keys == Final(t, a, b).info.Keys
    ensures RenderFromAsWritten(1, Final(t, a, b), true, Chopped(t, a, b))[1]
            == RenderFromAsWritten(2, Final(t, a, b), true, Chopped(t, a, b))[0]
  {
    LaterClassA(t, a, b);
    FromStep(1, Final(t, a, b), true, Chopped(t, a, b));
  }

  lemma ThirdIsB(t: string, a: string, b: string)
    requires Apart(t, a, b)
    ensures Final(t, a, b).Valid() && Chopped(t, a, b).Keys == Final(t, a, b).info.Keys
    ensures RenderFromAsWritten(2, Final(t, a, b), true, Chopped(t, a, b))[0]
            == RenderClassAsWritten(b, Final(t, a, b), true, Chopped(t, a, b)).0
  {
    LaterClassA(t, a, b);
    FromStep(2, Final(t, a, b), true, Chopped(t, a, b));
  }

  /** The third class rendered as written is b, seen through the chopped
      type strings. */
  lemma AsWrittenThird(t: string, a: string, b: string)
    requires Apart(t, a, b)
    ensures Final(t, a, b).Valid()
    ensures RenderAllAsWritten(Final(t, a, b), true)[2] == RenderClassAsWritten(b, Final(t, a, b), true, Chopped(t, a, b)).0
  {
    ThirdAfterTop(t, a, b);
    ThirdAfterA(t, a, b);
    ThirdIsB(t, a, b);
  }

  lemma AsWrittenDeclaresLon(t: string, a: string, b: string)
    requires Apart(t, a, b)
    ensures Final(t, a, b).Valid()
    ensures var vs := RenderAllAsWritten(Final(t, a, b), true);
            |vs| == 3 && |vs[2].fields| == 1 && vs[2].fields[0].javaType == "Lon"
  {
    AsWrittenThird(t, a, b);
    LaterClassSeesChop(t, a, b);
  }

  lemma PureDeclaresLong(t: string, a: string, b: string)
    requires Apart(t, a, b)
    ensures Final(t, a, b).Valid() && Final(t, a, b).info[a].javaType == "Long"
    ensures var vs := RenderAll(Final(t, a, b), true);
            |vs| == 3 && |vs[2].fields| == 1 && vs[2].fields[0].javaType == "Long"
  {
    ValidFinal(t, a, b);
    assert FieldsOf(b, Final(t, a, b)) == [a];
  }

  /** On this document the render as written declares field a of class b
      with type "Lon", while its field details record "Long", which is what
      the pure render declares. */
  lemma AliasedChopLeaks(t: string, a: string, b: string)
    requires Apart(t, a, b)
    ensures Infer(Doc(a, b), t, true) == Success(Final(t, a, b)) && Final(t, a, b).Valid()
    ensures Final(t, a, b).info[a].javaType == "Long"
    ensures var vs := RenderAllAsWritten(Final(t, a, b), true);
            |vs| == 3 && |vs[2].fields| == 1 && vs[2].fields[0].javaType == "Lon"
    ensures var vs := RenderAll(Final(t, a, b), true);
            |vs| == 3 && |vs[2].fields| == 1 && vs[2].fields[0].javaType == "Long"
  {
    DocWalk(t, a, b);
    AsWrittenDeclaresLon(t, a, b);
    PureDeclaresLong(t, a, b);
  }
}

=== FILE: chop_free.dfy ===
/** When the in-place `chop!` of `java_class_output` cannot reach a recorded
    type: a list key whose field details end up without an `array_type` and
    outside `@java_fields` must have been stored last by a member holding a
    scalar, so a document whose list keys never hold a scalar renders as the
    pure render says. */
module ChopFree {
  import opened Wrappers
  import opened Json
  import opened Registry
  import opened Walk
  import opened WalkSteps
  import opened WalkFacts
  import opened WalkDetails
  import opened Render
  import opened AliasFinding

  /** The keys the walk reaches with a scalar value, inside `v`. */
  function ScalarKeys(v: Json): set<string>
    decreases v, 1
  {
    match v
    case JObj(_) => ScalarKeysFrom(v, 0)
    case JArr(es) => if |es| == 0 then {} else ScalarKeys(es[0])
    case _ => {}
  }

  function ScalarKeysFrom(obj: Json, i: nat): set<string>
    requires obj.JObj?
    decreases obj, 0, |obj.members| - i
  {
    if i >= |obj.members| then {}
    else (if IsScalar(obj.members[i].value) then {obj.members[i].key} else {})
         + ScalarKeys(obj.members[i].value) + ScalarKeysFrom(obj, i + 1)
  }

  /** Every key whose field details carry no `array_type` owns a field list
      or is one of `scalars`. */
  ghost predicate Covered(reg: Registry, scalars: set<string>) {
    Untyped(reg.info) <= reg.fields.Keys + scalars
  }

  /** The keys whose field details carry no `array_type`. */
  function Untyped(info: map<string, FieldDetails>): set<string> {
    set f | f in info && info[f].arrayType.None?
  }

  lemma CoveredGrow(reg: Registry, out: Registry, scalars: set<string>)
    requires Covered(reg, scalars) && out.info == reg.info && FieldsKept(reg, out)
    ensures Covered(out, scalars)
  {}

  // ---------------------------------------------------------------- the walk keeps the invariant

  lemma {:induction false} GetJavaTypeCovered(v: Json, key: string, doChop: bool, reg: Registry, scalars: set<string>)
    requires reg.Valid() && GetJavaType(v, key, doChop, reg).Success?
    requires Covered(reg, scalars) && ScalarKeys(v) <= scalars
    decreases v, 0, 1
    ensures Covered(GetJavaType(v, key, doChop, reg).value.reg, scalars)
  {
    if v.JArr? {
      var e := v.elems[0];
      if e.JArr? {
        NestedArrayStep(v, key, doChop, reg);
        GetJavaTypeCovered(e, key, doChop, reg, scalars);
      } else if e.JObj? {
        ObjectElementStep(v, key, doChop, reg);
        SetupDataCovered(e, key, doChop, reg, scalars);
      } else {
        ScalarTypeStep(v, key, doChop, reg);
      }
    }
  }

  lemma {:induction false} ProcessArrayCovered(arr: Json, key: string, parent: string, doChop: bool, reg: Registry, scalars: set<string>)
    requires arr.JArr? && reg.Valid() && ProcessArray(arr, key, parent, doChop, reg).Success?
    requires Covered(reg, scalars) && ScalarKeys(arr) <= scalars
    decreases arr, 0, 2
    ensures Covered(ProcessArray(arr, key, parent, doChop, reg).value.reg, scalars)
  {
    var reg1 := ListRegistered(reg, key, parent);
    CoveredGrow(reg, reg1, scalars);
    if |arr.elems| == 0 {
      ArrayEmptyStep(arr, key, parent, doChop, reg);
    } else if arr.elems[0].JObj? {
      ArrayObjectStep(arr, key, parent, doChop, reg);
      SetupDataCovered(arr.elems[0], key, doChop, reg1, scalars);
    } else {
      ArrayTypeStep(arr, key, parent, doChop, reg);
      GetJavaTypeCovered(arr.elems[0], key, doChop, reg1, scalars);
    }
  }

  lemma {:induction false} ProcessValueCovered(v: Json, key: string, parent: string, doChop: bool, reg: Registry, scalars: set<string>)
    requires reg.Valid() && ProcessValue(v, key, parent, doChop, reg).Success?
    requires Covered(reg, scalars) && ScalarKeys(v) <= scalars
    decreases v, 3, 0
    ensures Covered(ProcessValue(v, key, parent, doChop, reg).value.reg, scalars)
  {
    if v.JArr? {
      ValueArrayStep(v, key, parent, doChop, reg);
      ProcessArrayCovered(v, key, parent, doChop, reg, scalars);
    } else if v.JObj? {
      ValueObjectStep(v, key, parent, doChop, reg);
      CoveredGrow(reg, reg.AddClass(key, parent), scalars);
      SetupDataCovered(v, key, doChop, reg.AddClass(key, parent), scalars);
    } else {
      ValueScalarStep(v, key, parent, doChop, reg);
    }
  }

  /** After its value was walked, a member whose details carry no
      `array_type` holds a scalar or has registered its key as a parent. */
  lemma ValueOwnsOrScalar(v: Json, key: string, parent: string, doChop: bool, reg: Registry)
    requires reg.Valid() && ProcessValue(v, key, parent, doChop, reg).Success?
    requires MemberDetails(v, key, parent, doChop).arrayType.None?
    ensures IsScalar(v) || key in ProcessValue(v, key, parent, doChop, reg).value.reg.fields
  {
    if v.JArr? {
      ValueArrayStep(v, key, parent, doChop, reg);
      ArrayObjectStep(v, key, parent, doChop, reg);
    } else if v.JObj? {
      ValueObjectStep(v, key, parent, doChop, reg);
    }
  }

  lemma {:induction false} ProcessMemberCovered(obj: Json, i: nat, parent: string, doChop: bool, reg: Registry, scalars: set<string>)
    requires obj.JObj? && i < |obj.members| && reg.Valid() && parent in reg.fields
    requires ProcessMember(obj, i, parent, doChop, reg).Success?
    requires Covered(reg, scalars) && ScalarKeysFrom(obj, i) <= scalars
    decreases obj, 0, 1
    ensures Covered(ProcessMember(obj, i, parent, doChop, reg).value, scalars)
  {
    var m := obj.members[i];
    var p := ProcessValue(m.value, m.key, parent, doChop, reg).value;
    ProcessValueCovered(m.value, m.key, parent, doChop, reg, scalars);
    ProcessValueDetails(m.value, m.key, parent, doChop, reg);
    if p.details.arrayType.None? {
      ValueOwnsOrScalar(m.value, m.key, parent, doChop, reg);
    }
    var out := ProcessMember(obj, i, parent, doChop, reg).value;
    assert out.info == p.reg.info[m.key := p.details];
    assert out.fields.Keys == p.reg.fields.Keys;
  }

  lemma ScalarKeysFromShrinks(obj: Json, i: nat, scalars: set<string>)
    requires obj.JObj? && i < |obj.members| && ScalarKeysFrom(obj, i) <= scalars
    ensures ScalarKeysFrom(obj, i + 1) <= scalars
  {}

  lemma {:induction false} SetupMembersCovered(obj: Json, i: nat, parent: string, doChop: bool, reg: Registry, scalars: set<string>)
    requires obj.JObj? && i <= |obj.members| && reg.Valid() && parent in reg.fields
    requires SetupMembers(obj, i, parent, doChop, reg).Success?
    requires Covered(reg, scalars) && ScalarKeysFrom(obj, i) <= scalars
    decreases obj, 1, |obj.members| - i
    ensures Covered(SetupMembers(obj, i, parent, doChop, reg).value, scalars)
  {
    if i < |obj.members| {
      assert ProcessMember(obj, i, parent, doChop, reg).Success?
          && SetupMembers(obj, i, parent, doChop, reg)
             == SetupMembers(obj, i + 1, parent, doChop, ProcessMember(obj, i, parent, doChop, reg).value) by {
        LoopStep(obj, i, parent, doChop, reg);
      }
      var reg' := ProcessMember(obj, i, parent, doChop, reg).value;
      assert Covered(reg', scalars) by {
        ProcessMemberCovered(obj, i, parent, doChop, reg, scalars);
      }
      assert Covered(SetupMembers(obj, i + 1, parent, doChop, reg').value, scalars) by {
        ScalarKeysFromShrinks(obj, i, scalars);
        SetupMembersCovered(obj, i + 1, parent, doChop, reg', scalars);
      }
    } else {
      assert SetupMembers(obj, i, parent, doChop, reg) == Success(reg);
    }
  }

  lemma {:induction false} SetupDataCovered(obj: Json, parent: string, doChop: bool, reg: Registry, scalars: set<string>)
    requires obj.JObj? && reg.Valid() && SetupData(obj, parent, doChop, reg).Success?
    requires Covered(reg, scalars) && ScalarKeys(obj) <= scalars
    decreases obj, 2, 0
    ensures Covered(SetupData(obj, parent, doChop, reg).value, scalars)
  {
    var reg0 := reg.(fields := reg.fields[parent := []]);
    CoveredGrow(reg, reg0, scalars);
    SetupMembersCovered(obj, 0, parent, doChop, reg0, scalars);
  }

  // ---------------------------------------------------------------- no recorded type is chopped

  /** If no key that holds an array anywhere in the document also holds a
      scalar anywhere, no field list contains a field whose recorded type
      the list branch chops in place. */
  lemma NoChopWithoutScalarLists(root: Json, top: string, doChop: bool)
    requires root.JObj? && Infer(root, top, doChop).Success?
    requires forall k :: k in KeysOf(ListTable, root) ==> k !in ScalarKeys(root)
    ensures NoRecordedChop(Infer(root, top, doChop).value, doChop)
  {
    var reg0 := Empty.AddClass(top, TopLevelParent);
    SetupDataCovered(root, top, doChop, reg0, ScalarKeys(root));
    var reg := Infer(root, top, doChop).value;
    forall i | 0 <= i < |reg.classOrder| ensures ClassKeepsTypes(reg.classOrder[i], reg, doChop) {
      CoveredClassKeepsTypes(root, top, doChop, reg.classOrder[i]);
    }
  }

  lemma CoveredClassKeepsTypes(root: Json, top: string, doChop: bool, c: string)
    requires root.JObj? && Infer(root, top, doChop).Success?
    requires forall k :: k in KeysOf(ListTable, root) ==> k !in ScalarKeys(root)
    requires Covered(Infer(root, top, doChop).value, ScalarKeys(root))
    ensures ClassKeepsTypes(c, Infer(root, top, doChop).value, doChop)
  {
    var reg := Infer(root, top, doChop).value;
    var fs := FieldsOf(c, reg);
    forall j | 0 <= j < |fs| ensures fs[j] in reg.info && !ChopsRecorded(fs[j], c, reg, doChop) {
      var f := fs[j];
      assert c in reg.fields && f in reg.fields[c];
      assert f in reg.info;
      InferTables(f, root, top, doChop);
      assert reg.info[f].arrayType.None? ==> f in Untyped(reg.info);
      assert f in reg.lists ==> f !in ScalarKeys(root);
    }
  }

  /** So the program's own render agrees with the pure one. */
  lemma AsWrittenWithoutScalarLists(root: Json, top: string, doChop: bool)
    requires root.JObj? && Infer(root, top, doChop).Success?
    requires forall k :: k in KeysOf(ListTable, root) ==> k !in ScalarKeys(root)
    ensures var reg := Infer(root, top, doChop).value;
            RenderAllAsWritten(reg, doChop) == RenderAll(reg, doChop)
  {
    NoChopWithoutScalarLists(root, top, doChop);
    AsWrittenAgrees(Infer(root, top, doChop).value, doChop);
  }
}

=== FILE: examples.dfy ===
/** The worked examples of the script's help text (json2pojo.rb:368-533),
    each derived from the general theorems about the walk and the render. */
module Examples {
  import opened Wrappers
  import opened Json
  import opened Names
  import opened Registry
  import opened Walk
  import opened WalkFacts
  import opened Render
  import opened RenderFacts
  import opened InferFacts
  import opened AliasFinding
  import opened ChopFree

  const Top := "Example"

  /** A key without separators: field name as is, class name and accessor
      capitalised. */
  lemma PlainKey(k: string)
    requires |k| > 0 && NoSeparators(k)
    ensures ToJavaFieldName(k) == k
    ensures ToJavaMethodName(k) == Capitalise(k)
    ensures ToJavaClassName(k) == Capitalise(k)
  {
    FieldNameIdentityIff(k);
    MethodNameCapitalisesFieldName(k);
    ClassNameOfWord(k);
  }

  lemma TopName()
    ensures ToJavaClassName(Top) == "Example"
  {
    PlainKey(Top);
  }

  /** A snake_case key of two plain words: the class name and the accessor
      capitalise both words, the field name only the second. */
  lemma TwoWords(a: string, b: string)
    requires |a| > 0 && |b| > 0 && NoSeparators(a) && NoSeparators(b)
    ensures ToJavaClassName(a + "_" + b) == Capitalise(a) + Capitalise(b)
    ensures ToJavaFieldName(a + "_" + b) == a + Capitalise(b)
    ensures ToJavaMethodName(a + "_" + b) == Capitalise(a) + Capitalise(b)
  {
    var ws := [a, b];
    DehyphenPlain(a);
    DehyphenPlain(b);
    assert DehyphenAll(ws) == ws;
    assert SnakeJoin(ws) == a + "_" + b by { assert SnakeJoin(ws[1..]) == b; }
    assert CamelConcat(ws[1..]) == Capitalise(b) by { assert CamelConcat(ws[2..]) == ""; }
    assert CamelConcat(ws) == Capitalise(a) + Capitalise(b);
    ClassNameOfSnake(ws);
    FieldNameOfSnake(ws);
    MethodNameOfSnake(ws);
  }

  // ---------------------------------------------------------------- {"foo": "blah", "baz": 1, "xyz": 2.5}

  /** The first example, for any string and any Fixnum in place of "blah"
      and 1 (float values are not modelled). */
  function Flat(s: string, n: int): Json {
    JObj([Member("foo", JStr(s)), Member("baz", JInt(n)), Member("xyz", JFloat)])
  }

  lemma FlatKeys(s: string, n: int)
    ensures Keys(Flat(s, n)) == {"foo", "baz", "xyz"}
    ensures MembersKeys(Flat(s, n), 1) == {"baz", "xyz"} && MembersKeys(Flat(s, n), 2) == {"xyz"}
    ensures MembersKeys(Flat(s, n), 3) == {}
    ensures KeysOf(OwnerTable, Flat(s, n)) == {} && KeysOf(ListTable, Flat(s, n)) == {}
  {
    var doc := Flat(s, n);
    assert MembersKeys(doc, 3) == {};
    assert MembersKeys(doc, 2) == {"xyz"};
    assert MembersKeys(doc, 1) == {"baz", "xyz"};
    assert MembersKeys(doc, 0) == {"foo", "baz", "xyz"};
    assert KeysOfFrom(OwnerTable, doc, 3) == {} && KeysOfFrom(ListTable, doc, 3) == {};
    assert KeysOfFrom(OwnerTable, doc, 2) == {} && KeysOfFrom(ListTable, doc, 2) == {};
    assert KeysOfFrom(OwnerTable, doc, 1) == {} && KeysOfFrom(ListTable, doc, 1) == {};
    assert KeysOfFrom(OwnerTable, doc, 0) == {} && KeysOfFrom(ListTable, doc, 0) == {};
  }

  lemma FlatClassKeys(s: string, n: int)
    ensures KeysOf(ClassTable, Flat(s, n)) == {}
  {
    var doc := Flat(s, n);
    assert KeysOfFrom(ClassTable, doc, 3) == {} && KeysOfFrom(ClassTable, doc, 2) == {};
    assert KeysOfFrom(ClassTable, doc, 1) == {} && KeysOfFrom(ClassTable, doc, 0) == {};
  }

  lemma FlatRuns(s: string, n: int)
    ensures Infer(Flat(s, n), Top, true).Success?
  {
    var doc := Flat(s, n);
    assert !ObjectFails(doc, 3);
    assert !ObjectFails(doc, 2);
    assert !ObjectFails(doc, 1);
    assert !ObjectFails(doc, 0);
  }

  /** Field `i` of the flat document: a plain key holding a scalar. */
  lemma FlatField(s: string, n: int, i: nat, key: string, v: Json)
    requires i < 3 && Flat(s, n).members[i] == Member(key, v) && |key| > 0 && NoSeparators(key)
    ensures Infer(Flat(s, n), Top, true).Success?
    ensures var fs := RenderClass(Top, Infer(Flat(s, n), Top, true).value, true).fields;
            && i < |fs|
            && fs[i].javaType == ScalarTypeName(v) && !fs[i].isList
            && fs[i].javaField == key && fs[i].accessor == Capitalise(key)
            && !fs[i].jsonProperty
  {
    var doc := Flat(s, n);
    FlatRuns(s, n);
    FlatKeys(s, n);
    var reg := Infer(doc, Top, true).value;
    TopScalarField(doc, Top, true, i);
    TopFields(doc, Top, true, i);
    var fs := RenderClass(Top, reg, true).fields;
    assert fs[i] == RenderField(key, Top, reg, true);
    PlainKey(key);
  }

  lemma FlatSpellings()
    ensures NoSeparators("foo") && Capitalise("foo") == "Foo"
    ensures NoSeparators("baz") && Capitalise("baz") == "Baz"
    ensures NoSeparators("xyz") && Capitalise("xyz") == "Xyz"
  {}

  /** `"foo": "blah"` becomes `String foo` with accessor `getFoo`. */
  lemma FlatFoo(s: string, n: int)
    ensures Infer(Flat(s, n), Top, true).Success?
    ensures var fs := RenderClass(Top, Infer(Flat(s, n), Top, true).value, true).fields;
            && 0 < |fs| && fs[0].javaType == "String" && fs[0].javaField == "foo" && fs[0].accessor == "Foo"
            && !fs[0].jsonProperty && !fs[0].isList
  {
    FlatSpellings();
    assert ScalarTypeName(JStr(s)) == "String";
    FlatField(s, n, 0, "foo", JStr(s));
  }

  /** `"baz": 1` becomes `Long baz` with accessor `getBaz`; an integer
      outside the Fixnum range would have given "UNKNOWN". */
  lemma FlatBaz(s: string, n: int)
    ensures Infer(Flat(s, n), Top, true).Success?
    ensures var fs := RenderClass(Top, Infer(Flat(s, n), Top, true).value, true).fields;
            && 1 < |fs| && fs[1].javaType == (if IsFixnum(n) then "Long" else "UNKNOWN") && fs[1].javaField == "baz" && fs[1].accessor == "Baz"
            && !fs[1].jsonProperty && !fs[1].isList
  {
    FlatSpellings();
    FlatField(s, n, 1, "baz", JInt(n));
  }

  /** `"xyz": 2.5` becomes `Double xyz` with accessor `getXyz`. */
  lemma FlatXyz(s: string, n: int)
    ensures Infer(Flat(s, n), Top, true).Success?
    ensures var fs := RenderClass(Top, Infer(Flat(s, n), Top, true).value, true).fields;
            && 2 < |fs| && fs[2].javaType == "Double" && fs[2].javaField == "xyz" && fs[2].accessor == "Xyz"
            && !fs[2].jsonProperty && !fs[2].isList
  {
    FlatSpellings();
    FlatField(s, n, 2, "xyz", JFloat);
  }

  /** Three fields none of which is a list or needs `@JsonProperty`. */
  lemma ThreePlain(fs: seq<FieldView>)
    requires |fs| == 3 && !fs[0].jsonProperty && !fs[1].jsonProperty && !fs[2].jsonProperty
    requires !fs[0].isList && !fs[1].isList && !fs[2].isList
    ensures !exists i :: 0 <= i < |fs| && fs[i].jsonProperty
    ensures !exists i :: 0 <= i < |fs| && fs[i].isList
  {
  }

  /** No field of the first example needs `@JsonProperty` or a `List`
      import. */
  lemma FlatImports(s: string, n: int)
    ensures Infer(Flat(s, n), Top, true).Success?
    ensures var v := RenderClass(Top, Infer(Flat(s, n), Top, true).value, true);
            !v.propertyImport && !v.listImport
  {
    var doc := Flat(s, n);
    FlatRuns(s, n);
    FlatKeys(s, n);
    TopFields(doc, Top, true, 0);
    var reg := Infer(doc, Top, true).value;
    var v := RenderClass(Top, reg, true);
    FlatFoo(s, n);
    FlatBaz(s, n);
    FlatXyz(s, n);
    ThreePlain(v.fields);
  }

  /** The flat document registers the top-level class only. */
  lemma FlatOneClass(s: string, n: int)
    ensures Infer(Flat(s, n), Top, true).Success?
    ensures Infer(Flat(s, n), Top, true).value.classOrder == [Top]
  {
    var doc := Flat(s, n);
    FlatRuns(s, n);
    FlatClassKeys(s, n);
    var order := Infer(doc, Top, true).value.classOrder;
    RenderedClasses(doc, Top, true, Top);
    forall i | 0 <= i < |order| ensures order[i] == Top {
      RenderedClasses(doc, Top, true, order[i]);
    }
    if 1 < |order| {
      DistinctPair(order);
    }
  }

  /** The first two entries of a list without repeats differ. */
  lemma DistinctPair(s: seq<string>)
    requires 1 < |s| && forall i, j :: 0 <= i < j < |s| ==> s[i] != s[j]
    ensures s[0] != s[1]
  {}

  /** The first example renders one class, Example, which is written and
      declares exactly the three fields, in document order. */
  lemma FlatDocument(s: string, n: int)
    ensures Infer(Flat(s, n), Top, true).Success?
    ensures var reg := Infer(Flat(s, n), Top, true).value;
            var vs := RenderAll(reg, true);
            && |vs| == 1 && vs[0] == RenderClass(Top, reg, true)
            && vs[0].className == "Example" && vs[0].written && |vs[0].fields| == 3
  {
    var doc := Flat(s, n);
    FlatRuns(s, n);
    FlatKeys(s, n);
    TopName();
    FlatOneClass(s, n);
    TopLevelWritten(doc, Top, true);
    TopFields(doc, Top, true, 0);
  }

  // ---------------------------------------------------------------- one scalar member

  /** A document with one member `k`. */
  function Single(k: string, v: Json): Json {
    JObj([Member(k, v)])
  }

  lemma SingleFacts(k: string, v: Json, doChop: bool)
    requires IsScalar(v) && k != Top
    ensures Infer(Single(k, v), Top, doChop).Success?
    ensures var root := Single(k, v);
            && Top !in Keys(root) && MembersKeys(root, 1) == {}
            && KeysOf(OwnerTable, root) == {} && KeysOf(ListTable, root) == {}
  {
    var root := Single(k, v);
    assert !ObjectFails(root, 1) && !ObjectFails(root, 0);
    assert Keys(v) == {} && MembersKeys(root, 1) == {};
    assert Keys(root) == MembersKeys(root, 0) == {k};
    assert KeysOf(OwnerTable, v) == {} && KeysOf(ListTable, v) == {};
    assert KeysOfFrom(OwnerTable, root, 1) == {} && KeysOfFrom(ListTable, root, 1) == {};
    assert KeysOfFrom(OwnerTable, root, 0) == {} && KeysOfFrom(ListTable, root, 0) == {};
  }

  /** The only field is declared with the scalar's type, and its names and
      annotations follow from the key alone. */
  lemma SingleScalar(k: string, v: Json, doChop: bool)
    requires IsScalar(v) && k != Top
    ensures Infer(Single(k, v), Top, doChop).Success?
    ensures var fs := RenderClass(Top, Infer(Single(k, v), Top, doChop).value, doChop).fields;
            && |fs| == 1 && fs[0].javaType == ScalarTypeName(v) && !fs[0].isList
            && fs[0].javaField == ToJavaFieldName(k) && fs[0].accessor == ToJavaMethodName(k)
            && (fs[0].jsonProperty <==> !NoSeparators(k))
            && (fs[0].jsonSerialize <==> k == "_rev" || k == "_id")
  {
    SingleFacts(k, v, doChop);
    TopFields(Single(k, v), Top, doChop, 0);
    TopScalarField(Single(k, v), Top, doChop, 0);
  }

  /** A boolean or null value has no branch of its own in the type
      resolution: it is declared "UNKNOWN". */
  lemma UnknownScalars(k: string, b: bool, doChop: bool)
    requires k != Top
    ensures Infer(Single(k, JBool(b)), Top, doChop).Success?
    ensures Infer(Single(k, JNull), Top, doChop).Success?
    ensures var fs := RenderClass(Top, Infer(Single(k, JBool(b)), Top, doChop).value, doChop).fields;
            |fs| == 1 && fs[0].javaType == "UNKNOWN"
    ensures var fs := RenderClass(Top, Infer(Single(k, JNull), Top, doChop).value, doChop).fields;
            |fs| == 1 && fs[0].javaType == "UNKNOWN"
  {
    SingleScalar(k, JBool(b), doChop);
    SingleScalar(k, JNull, doChop);
  }

  lemma IdSpelling()
    ensures ToJavaFieldName("_id") == "id" && ToJavaMethodName("_id") == "Id"
  {
    assert "_id" == "_" + "id";
    assert NoSeparators("id") && Capitalise("id") == "Id";
    LeadingUnderscoreFieldName("id");
    PlainKey("id");
    MethodNameCapitalisesFieldName("_id");
  }

  lemma IdUnderscored()
    ensures !NoSeparators("_id") && "_id" != Top
  {
    assert IsSeparator("_id"[0]);
  }

  /** A CouchDB-style `"_id": "…"` becomes `String id` with accessor
      `getId`, annotated `@JsonProperty("_id")` and `@JsonSerialize`. */
  lemma IdField(s: string)
    ensures Infer(Single("_id", JStr(s)), Top, true).Success?
    ensures var fs := RenderClass(Top, Infer(Single("_id", JStr(s)), Top, true).value, true).fields;
            && |fs| == 1 && fs[0].javaType == "String"
            && fs[0].javaField == "id" && fs[0].accessor == "Id"
            && fs[0].jsonProperty && fs[0].jsonSerialize
  {
    IdUnderscored();
    IdSpelling();
    assert ScalarTypeName(JStr(s)) == "String";
    SingleScalar("_id", JStr(s), true);
  }

  // ---------------------------------------------------------------- {"exchange_rates": {"AUD": 1.234, "USD": 0.998, "JPY": 5.678}}

  /** The second example, for any outer key `k` and any scalars in place of
      the three rates. */
  function RatesObj(a: Json, u: Json, j: Json): Json {
    JObj([Member("AUD", a), Member("USD", u), Member("JPY", j)])
  }

  function Rates(k: string, a: Json, u: Json, j: Json): Json {
    JObj([Member(k, RatesObj(a, u, j))])
  }

  /** The outer key is none of the inner keys nor the top-level class. */
  predicate RatesKey(k: string) {
    k != Top && k != "AUD" && k != "USD" && k != "JPY"
  }

  lemma RatesObjMembers(a: Json, u: Json, j: Json)
    requires IsScalar(a) && IsScalar(u) && IsScalar(j)
    ensures Keys(RatesObj(a, u, j)) == {"AUD", "USD", "JPY"}
    ensures MembersKeys(RatesObj(a, u, j), 1) == {"USD", "JPY"} && MembersKeys(RatesObj(a, u, j), 2) == {"JPY"}
    ensures MembersKeys(RatesObj(a, u, j), 3) == {}
  {
    var o := RatesObj(a, u, j);
    assert MembersKeys(o, 3) == {};
    assert MembersKeys(o, 2) == {"JPY"};
    assert MembersKeys(o, 1) == {"USD", "JPY"};
    assert MembersKeys(o, 0) == {"AUD", "USD", "JPY"};
  }

  /** A scalar member adds its key to no table but the field details. */
  lemma ScalarMarksNothing(t: Table, key: string, v: Json)
    requires IsScalar(v) && t != InfoTable
    ensures Mark(t, key, v) == {} && KeysOf(t, v) == {}
  {}

  lemma RatesObjTables(a: Json, u: Json, j: Json, t: Table)
    requires IsScalar(a) && IsScalar(u) && IsScalar(j) && t != InfoTable
    ensures KeysOf(t, RatesObj(a, u, j)) == {}
  {
    var o := RatesObj(a, u, j);
    ScalarMarksNothing(t, "AUD", a);
    ScalarMarksNothing(t, "USD", u);
    ScalarMarksNothing(t, "JPY", j);
    assert KeysOfFrom(t, o, 3) == {};
    assert KeysOfFrom(t, o, 2) == {};
    assert KeysOfFrom(t, o, 1) == {};
    assert KeysOfFrom(t, o, 0) == {};
  }

  lemma RatesObjKeys(a: Json, u: Json, j: Json)
    requires IsScalar(a) && IsScalar(u) && IsScalar(j)
    ensures Keys(RatesObj(a, u, j)) == {"AUD", "USD", "JPY"}
    ensures MembersKeys(RatesObj(a, u, j), 1) == {"USD", "JPY"} && MembersKeys(RatesObj(a, u, j), 2) == {"JPY"}
    ensures MembersKeys(RatesObj(a, u, j), 3) == {}
    ensures KeysOf(OwnerTable, RatesObj(a, u, j)) == {} && KeysOf(ClassTable, RatesObj(a, u, j)) == {}
    ensures KeysOf(ListTable, RatesObj(a, u, j)) == {}
  {
    RatesObjMembers(a, u, j);
    RatesObjTables(a, u, j, OwnerTable);
    RatesObjTables(a, u, j, ClassTable);
    RatesObjTables(a, u, j, ListTable);
  }

  lemma RatesKeys(k: string, a: Json, u: Json, j: Json)
    requires IsScalar(a) && IsScalar(u) && IsScalar(j) && RatesKey(k)
    ensures var root := Rates(k, a, u, j);
            && Top !in Keys(root) && k !in Keys(RatesObj(a, u, j)) && MembersKeys(root, 1) == {}
            && KeysOf(OwnerTable, root) == {k} && KeysOf(ClassTable, root) == {k}
            && KeysOf(ListTable, root) == {}
  {
    var root := Rates(k, a, u, j);
    var o := RatesObj(a, u, j);
    RatesObjKeys(a, u, j);
    assert MembersKeys(root, 1) == {};
    assert Keys(root) == MembersKeys(root, 0) == {k} + Keys(o);
    assert KeysOfFrom(OwnerTable, root, 1) == {} && KeysOfFrom(ClassTable, root, 1) == {} && KeysOfFrom(ListTable, root, 1) == {};
    assert KeysOfFrom(OwnerTable, root, 0) == {k};
    assert KeysOfFrom(ClassTable, root, 0) == {k};
    assert KeysOfFrom(ListTable, root, 0) == {};
  }

  lemma RatesRuns(k: string, a: Json, u: Json, j: Json, doChop: bool)
    requires IsScalar(a) && IsScalar(u) && IsScalar(j)
    ensures Infer(Rates(k, a, u, j), Top, doChop).Success?
  {
    var o := RatesObj(a, u, j);
    assert !ObjectFails(o, 3);
    assert !ObjectFails(o, 2);
    assert !ObjectFails(o, 1);
    assert !ObjectFails(o, 0);
    assert !ObjectFails(Rates(k, a, u, j), 1);
    assert !ObjectFails(Rates(k, a, u, j), 0);
  }

  /** The classes are the top-level one and the outer key's. */
  lemma RatesClasses(k: string, a: Json, u: Json, j: Json, doChop: bool, c: string)
    requires IsScalar(a) && IsScalar(u) && IsScalar(j) && RatesKey(k)
    ensures Infer(Rates(k, a, u, j), Top, doChop).Success?
    ensures c in Infer(Rates(k, a, u, j), Top, doChop).value.classOrder <==> c == Top || c == k
  {
    RatesRuns(k, a, u, j, doChop);
    RatesKeys(k, a, u, j);
    RenderedClasses(Rates(k, a, u, j), Top, doChop, c);
  }

  /** The top-level class declares one field, of the outer key's class. */
  lemma RatesTopField(k: string, a: Json, u: Json, j: Json, doChop: bool)
    requires IsScalar(a) && IsScalar(u) && IsScalar(j) && RatesKey(k)
    ensures Infer(Rates(k, a, u, j), Top, doChop).Success?
    ensures var fs := RenderClass(Top, Infer(Rates(k, a, u, j), Top, doChop).value, doChop).fields;
            && |fs| == 1 && fs[0].javaType == ToJavaClassName(k) && !fs[0].isList
            && fs[0].javaField == ToJavaFieldName(k) && (fs[0].jsonProperty <==> !NoSeparators(k))
  {
    var root := Rates(k, a, u, j);
    RatesRuns(k, a, u, j, doChop);
    RatesKeys(k, a, u, j);
    TopFields(root, Top, doChop, 0);
    TopObjectField(root, Top, doChop, 0);
  }

  /** The outer key's class keeps the key's class name, is written, and
      declares the three rates. */
  lemma RatesClass(k: string, a: Json, u: Json, j: Json, doChop: bool)
    requires IsScalar(a) && IsScalar(u) && IsScalar(j) && RatesKey(k)
    ensures Infer(Rates(k, a, u, j), Top, doChop).Success?
    ensures var v := RenderClass(k, Infer(Rates(k, a, u, j), Top, doChop).value, doChop);
            v.className == ToJavaClassName(k) && v.written && |v.fields| == 3
  {
    var root := Rates(k, a, u, j);
    RatesRuns(k, a, u, j, doChop);
    RatesKeys(k, a, u, j);
    RatesObjKeys(a, u, j);
    OwnedClass(root, Top, doChop, 0);
    OwnedFields(root, Top, doChop, 0, 0);
  }

  /** Rate `i` keeps its key as field name and accessor suffix
      (`Double AUD`, `getAUD`) and needs no annotation. */
  lemma RatesField(k: string, a: Json, u: Json, j: Json, doChop: bool, i: nat, key: string, v: Json)
    requires IsScalar(a) && IsScalar(u) && IsScalar(j) && RatesKey(k)
    requires i < 3 && RatesObj(a, u, j).members[i] == Member(key, v)
    requires NoSeparators(key) && |key| > 0 && Capitalise(key) == key
    ensures Infer(Rates(k, a, u, j), Top, doChop).Success?
    ensures var fs := RenderClass(k, Infer(Rates(k, a, u, j), Top, doChop).value, doChop).fields;
            && i < |fs|
            && fs[i].javaType == ScalarTypeName(v) && fs[i].javaField == key && fs[i].accessor == key
            && !fs[i].jsonProperty
  {
    var root := Rates(k, a, u, j);
    RatesScalarPre(k, a, u, j, doChop, i);
    OwnedScalarField(root, Top, doChop, 0, i);
    OwnedFields(root, Top, doChop, 0, i);
    PlainKey(key);
  }

  /** What the walk needs to know about rate `i` of the document. */
  lemma RatesScalarPre(k: string, a: Json, u: Json, j: Json, doChop: bool, i: nat)
    requires IsScalar(a) && IsScalar(u) && IsScalar(j) && RatesKey(k) && i < 3
    ensures var root := Rates(k, a, u, j);
            && root.JObj? && Infer(root, Top, doChop).Success? && Top !in Keys(root) && 0 < |root.members|
            && var m := root.members[0];
            && HasOwnObject(m.value) && m.key != Top && m.key !in Keys(m.value) && m.key !in MembersKeys(root, 1)
            && i < |OwnObject(m.value).members|
            && var n := OwnObject(m.value).members[i];
            && !n.value.JArr? && !n.value.JObj? && n.key != m.key
            && n.key !in MembersKeys(OwnObject(m.value), i + 1) && n.key !in MembersKeys(root, 1)
            && n.key !in KeysOf(OwnerTable, root) && n.key !in KeysOf(ListTable, root)
  {
    RatesRuns(k, a, u, j, doChop);
    RatesKeys(k, a, u, j);
    RatesObjKeys(a, u, j);
  }

  lemma RatesInner()
    ensures NoSeparators("AUD") && Capitalise("AUD") == "AUD"
    ensures NoSeparators("USD") && Capitalise("USD") == "USD"
    ensures NoSeparators("JPY") && Capitalise("JPY") == "JPY"
  {}

  /** The three rate fields: `AUD`, `USD` and `JPY`, each with the type of
      its value (`Double` for the floats of the example). */
  lemma RatesFields(k: string, a: Json, u: Json, j: Json, doChop: bool)
    requires IsScalar(a) && IsScalar(u) && IsScalar(j) && RatesKey(k)
    ensures Infer(Rates(k, a, u, j), Top, doChop).Success?
    ensures var fs := RenderClass(k, Infer(Rates(k, a, u, j), Top, doChop).value, doChop).fields;
            && |fs| == 3
            && fs[0].javaType == ScalarTypeName(a) && fs[0].javaField == "AUD" && fs[0].accessor == "AUD"
            && fs[1].javaType == ScalarTypeName(u) && fs[1].javaField == "USD" && fs[1].accessor == "USD"
            && fs[2].javaType == ScalarTypeName(j) && fs[2].javaField == "JPY" && fs[2].accessor == "JPY"
  {
    RatesInner();
    RatesClass(k, a, u, j, doChop);
    RatesField(k, a, u, j, doChop, 0, "AUD", a);
    RatesField(k, a, u, j, doChop, 1, "USD", u);
    RatesField(k, a, u, j, doChop, 2, "JPY", j);
  }

  lemma RatesWords()
    ensures NoSeparators("exchange") && NoSeparators("rates")
  {}

  lemma RatesCapitals()
    ensures Capitalise("exchange") == "Exchange" && Capitalise("rates") == "Rates"
  {}

  lemma RatesJoin()
    ensures "exchange" + "_" + "rates" == "exchange_rates"
  {}

  lemma RatesCamel()
    ensures "Exchange" + "Rates" == "ExchangeRates" && "exchange" + "Rates" == "exchangeRates"
  {}

  lemma RatesSpelling()
    ensures ToJavaClassName("exchange_rates") == "ExchangeRates"
    ensures ToJavaFieldName("exchange_rates") == "exchangeRates"
    ensures !NoSeparators("exchange_rates") && RatesKey("exchange_rates")
  {
    RatesWords();
    RatesCapitals();
    RatesJoin();
    RatesCamel();
    TwoWords("exchange", "rates");
    assert IsSeparator("exchange_rates"[8]);
  }

  /** With the example's key: Example declares `ExchangeRates exchangeRates`
      under `@JsonProperty("exchange_rates")`, and ExchangeRates is written. */
  lemma ExchangeRates(a: Json, u: Json, j: Json)
    requires IsScalar(a) && IsScalar(u) && IsScalar(j)
    ensures Infer(Rates("exchange_rates", a, u, j), Top, true).Success?
    ensures var reg := Infer(Rates("exchange_rates", a, u, j), Top, true).value;
            var fs := RenderClass(Top, reg, true).fields;
            var v := RenderClass("exchange_rates", reg, true);
            && |fs| == 1 && fs[0].javaType == "ExchangeRates" && fs[0].javaField == "exchangeRates" && fs[0].jsonProperty
            && v.className == "ExchangeRates" && v.written
  {
    RatesSpelling();
    RatesTopField("exchange_rates", a, u, j, true);
    RatesClass("exchange_rates", a, u, j, true);
  }

  // ---------------------------------------------------------------- {"simple_numbers": [1.1, 2.2, 3.3]}

  /** An array of scalars under key `k`: only its first element `x` is
      looked at. */
  function Numbers(k: string, x: Json, rest: seq<Json>): Json {
    JObj([Member(k, JArr([x] + rest))])
  }

  lemma NumbersKeys(k: string, x: Json, rest: seq<Json>)
    requires IsScalar(x) && k != Top
    ensures var root := Numbers(k, x, rest);
            && Top !in Keys(root) && k !in Keys(root.members[0].value) && MembersKeys(root, 1) == {}
            && KeysOf(ClassTable, root) == {k}
  {
    var root := Numbers(k, x, rest);
    assert Keys(root.members[0].value) == {};
    assert MembersKeys(root, 1) == {};
    assert Keys(root) == MembersKeys(root, 0) == {k};
    assert KeysOf(ClassTable, root.members[0].value) == {};
    assert KeysOfFrom(ClassTable, root, 1) == {};
    assert KeysOfFrom(ClassTable, root, 0) == {k};
  }

  lemma NumbersRuns(k: string, x: Json, rest: seq<Json>, doChop: bool)
    requires IsScalar(x)
    ensures Infer(Numbers(k, x, rest), Top, doChop).Success?
  {
    var root := Numbers(k, x, rest);
    assert !MemberFails(root.members[0].value);
    assert !ObjectFails(root, 1);
    assert !ObjectFails(root, 0);
  }

  /** The top-level class declares `List<T>` for the scalar type `T` of the
      first element, and the list's class is registered but not written. */
  lemma NumbersField(k: string, x: Json, rest: seq<Json>, doChop: bool)
    requires IsScalar(x) && k != Top
    ensures Infer(Numbers(k, x, rest), Top, doChop).Success?
    ensures var reg := Infer(Numbers(k, x, rest), Top, doChop).value;
            var fs := RenderClass(Top, reg, doChop).fields;
            && |fs| == 1 && fs[0].javaType == "List<" + ScalarTypeName(x) + ">" && fs[0].isList
            && fs[0].javaField == ToJavaFieldName(k) && k in reg.classes && !WriteFile(k, reg)
  {
    var root := Numbers(k, x, rest);
    NumbersRuns(k, x, rest, doChop);
    NumbersKeys(k, x, rest);
    RenderedClasses(root, Top, doChop, k);
    TopFields(root, Top, doChop, 0);
    TopValueListField(root, Top, doChop, 0);
  }

  /** The registered classes are the top-level one and the list's. */
  lemma NumbersClasses(k: string, x: Json, rest: seq<Json>, doChop: bool, c: string)
    requires IsScalar(x) && k != Top
    ensures Infer(Numbers(k, x, rest), Top, doChop).Success?
    ensures c in Infer(Numbers(k, x, rest), Top, doChop).value.classOrder <==> c == Top || c == k
  {
    NumbersRuns(k, x, rest, doChop);
    NumbersKeys(k, x, rest);
    RenderedClasses(Numbers(k, x, rest), Top, doChop, c);
  }

  lemma NumbersSpelling()
    ensures ToJavaFieldName("simple_numbers") == "simpleNumbers" && "simple_numbers" != Top
  {
    NumbersWords();
    NumbersJoin();
    TwoWords("simple", "numbers");
  }

  lemma NumbersWords()
    ensures NoSeparators("simple") && NoSeparators("numbers") && Capitalise("numbers") == "Numbers"
  {}

  lemma NumbersJoin()
    ensures "simple" + "_" + "numbers" == "simple_numbers" && "simple" + "Numbers" == "simpleNumbers"
  {}

  /** Spelling of the list types of the examples. */
  lemma ListTypes()
    ensures ScalarTypeName(JFloat) == "Double" && "List<" + "Double" + ">" == "List<Double>"
    ensures "List<" + "SimpleDat" + ">" == "List<SimpleDat>"
    ensures "List<" + "Link" + ">" == "List<Link>"
  {}

  /** With the example's key and floats: `List<Double> simpleNumbers`, and
      no file for `SimpleNumbers`. */
  lemma SimpleNumbers(rest: seq<Json>)
    ensures Infer(Numbers("simple_numbers", JFloat, rest), Top, true).Success?
    ensures var reg := Infer(Numbers("simple_numbers", JFloat, rest), Top, true).value;
            var fs := RenderClass(Top, reg, true).fields;
            && |fs| == 1 && fs[0].javaType == "List<Double>" && fs[0].javaField == "simpleNumbers"
            && !WriteFile("simple_numbers", reg)
  {
    NumbersSpelling();
    ListTypes();
    NumbersField("simple_numbers", JFloat, rest, true);
  }

  // ---------------------------------------------------------------- {"simple_data": [{"id": 7}, …]}

  /** An array of objects under key `k`, whose first element has one scalar
      member `f`. */
  function ListOf(k: string, f: string, v: Json, rest: seq<Json>): Json {
    JObj([Member(k, JArr([JObj([Member(f, v)])] + rest))])
  }

  predicate ListOfKeys(k: string, f: string) {
    k != Top && f != Top && k != f
  }

  lemma ListOfTables(k: string, f: string, v: Json, rest: seq<Json>)
    requires IsScalar(v) && ListOfKeys(k, f)
    ensures var root := ListOf(k, f, v, rest);
            && Top !in Keys(root) && k !in Keys(root.members[0].value) && MembersKeys(root, 1) == {}
            && KeysOf(OwnerTable, root) == {k} && KeysOf(ListTable, root) == {k} && KeysOf(ClassTable, root) == {k}
  {
    var root := ListOf(k, f, v, rest);
    var o := JObj([Member(f, v)]);
    assert MembersKeys(o, 1) == {};
    assert Keys(o) == MembersKeys(o, 0) == {f};
    assert MembersKeys(root, 1) == {};
    assert Keys(root) == MembersKeys(root, 0) == {k, f};
    forall t | t != InfoTable ensures KeysOf(t, root) == {k} {
      assert KeysOfFrom(t, o, 1) == {};
      assert KeysOfFrom(t, o, 0) == {};
      assert KeysOfFrom(t, root, 1) == {};
      assert KeysOf(t, root.members[0].value) == {} && Selects(t, root.members[0].value);
      assert KeysOfFrom(t, root, 0) == {k};
    }
  }

  lemma ListOfRuns(k: string, f: string, v: Json, rest: seq<Json>, doChop: bool)
    requires IsScalar(v)
    ensures Infer(ListOf(k, f, v, rest), Top, doChop).Success?
  {
    var root := ListOf(k, f, v, rest);
    var o := JObj([Member(f, v)]);
    assert !ObjectFails(o, 1);
    assert !ObjectFails(o, 0);
    assert !ObjectFails(root, 1);
    assert !ObjectFails(root, 0);
  }

  /** Everything the lemmas about the inner field need, in one place. */
  lemma ListOfPre(k: string, f: string, v: Json, rest: seq<Json>, doChop: bool)
    requires IsScalar(v) && ListOfKeys(k, f)
    ensures var root := ListOf(k, f, v, rest);
            && root.JObj? && Infer(root, Top, doChop).Success? && Top !in Keys(root) && 0 < |root.members|
            && var m := root.members[0];
            && HasOwnObject(m.value) && m.key != Top && m.key !in Keys(m.value) && m.key !in MembersKeys(root, 1)
            && 0 < |OwnObject(m.value).members|
            && var n := OwnObject(m.value).members[0];
            && !n.value.JArr? && !n.value.JObj? && n.key != m.key
            && n.key !in MembersKeys(OwnObject(m.value), 1) && n.key !in MembersKeys(root, 1)
            && n.key !in KeysOf(OwnerTable, root) && n.key !in KeysOf(ListTable, root)
  {
    ListOfRuns(k, f, v, rest, doChop);
    ListOfTables(k, f, v, rest);
    assert MembersKeys(JObj([Member(f, v)]), 1) == {};
  }

  /** The top-level class declares a list of the element class, whose file
      is written. */
  lemma ListOfTopField(k: string, f: string, v: Json, rest: seq<Json>, doChop: bool)
    requires IsScalar(v) && ListOfKeys(k, f)
    ensures Infer(ListOf(k, f, v, rest), Top, doChop).Success?
    ensures var reg := Infer(ListOf(k, f, v, rest), Top, doChop).value;
            var fs := RenderClass(Top, reg, doChop).fields;
            && |fs| == 1 && fs[0].isList && fs[0].javaField == ToJavaFieldName(k)
            && fs[0].javaType == "List<" + RenderClass(k, reg, doChop).className + ">"
            && WriteFile(k, reg)
  {
    var root := ListOf(k, f, v, rest);
    ListOfRuns(k, f, v, rest, doChop);
    ListOfTables(k, f, v, rest);
    TopFields(root, Top, doChop, 0);
    TopObjectListField(root, Top, doChop, 0);
  }

  /** The element class is named after the key, chopped when chopping is on,
      is written, and declares the member of the first element. */
  lemma ListOfClass(k: string, f: string, v: Json, rest: seq<Json>, doChop: bool)
    requires IsScalar(v) && ListOfKeys(k, f)
    ensures Infer(ListOf(k, f, v, rest), Top, doChop).Success?
    ensures var c := RenderClass(k, Infer(ListOf(k, f, v, rest), Top, doChop).value, doChop);
            && c.className == ChopIf(doChop, ToJavaClassName(k)) && c.written
            && |c.fields| == 1 && c.fields[0].javaType == ScalarTypeName(v) && !c.fields[0].isList
            && c.fields[0].javaField == ToJavaFieldName(f) && c.fields[0].accessor == ToJavaMethodName(f)
  {
    var root := ListOf(k, f, v, rest);
    ListOfPre(k, f, v, rest, doChop);
    OwnedClass(root, Top, doChop, 0);
    OwnedFields(root, Top, doChop, 0, 0);
    OwnedScalarField(root, Top, doChop, 0, 0);
  }

  lemma SimpleDataSpelling()
    ensures ToJavaClassName("simple_data") == "SimpleData" && Chop("SimpleData") == "SimpleDat"
    ensures ToJavaFieldName("simple_data") == "simpleData"
  {
    assert NoSeparators("simple") && NoSeparators("data");
    assert Capitalise("simple") == "Simple" && Capitalise("data") == "Data";
    assert "simple" + "_" + "data" == "simple_data";
    assert "Simple" + "Data" == "SimpleData" && "simple" + "Data" == "simpleData";
    TwoWords("simple", "data");
  }

  /** With the example's key: `List<SimpleDat> simpleData`, and the element
      class is `SimpleDat`; with `-n` it keeps its full name `SimpleData`. */
  lemma SimpleData(f: string, v: Json, rest: seq<Json>)
    requires IsScalar(v) && f != Top && f != "simple_data"
    ensures Infer(ListOf("simple_data", f, v, rest), Top, true).Success?
    ensures Infer(ListOf("simple_data", f, v, rest), Top, false).Success?
    ensures var reg := Infer(ListOf("simple_data", f, v, rest), Top, true).value;
            var fs := RenderClass(Top, reg, true).fields;
            && |fs| == 1 && fs[0].javaType == "List<SimpleDat>" && fs[0].javaField == "simpleData"
            && RenderClass("simple_data", reg, true).className == "SimpleDat"
    ensures RenderClass("simple_data", Infer(ListOf("simple_data", f, v, rest), Top, false).value, false).className
            == "SimpleData"
  {
    assert "simple_data" != Top;
    SimpleDataSpelling();
    ListTypes();
    ListOfTopField("simple_data", f, v, rest, true);
    ListOfClass("simple_data", f, v, rest, true);
    ListOfClass("simple_data", f, v, rest, false);
  }

  lemma LinksSpelling()
    ensures ToJavaClassName("links") == "Links" && Chop("Links") == "Link" && "links" != Top
  {
    assert NoSeparators("links") && Capitalise("links") == "Links";
    ClassNameOfWord("links");
  }

  /** `"links": [{…}]` declares `List<Link>`: the chop turns the plural into
      a singular. */
  lemma Links(f: string, v: Json, rest: seq<Json>)
    requires IsScalar(v) && f != Top && f != "links"
    ensures Infer(ListOf("links", f, v, rest), Top, true).Success?
    ensures var reg := Infer(ListOf("links", f, v, rest), Top, true).value;
            && |RenderClass(Top, reg, true).fields| == 1
            && RenderClass(Top, reg, true).fields[0].javaType == "List<Link>"
            && RenderClass("links", reg, true).className == "Link"
  {
    LinksSpelling();
    ListTypes();
    ListOfTopField("links", f, v, rest, true);
    ListOfClass("links", f, v, rest, true);
  }

  // ---------------------------------------------------------------- documents the walk rejects

  /** An array that is empty or starts with a boolean or null: inside
      another array, `get_java_type` finds no type and no object to walk. */
  predicate UntypedInnerArray(inner: Json) {
    inner.JArr? && (|inner.elems| == 0 || inner.elems[0].JBool? || inner.elems[0].JNull?)
  }

  /** `get_java_type(inner)` raises for any registry. */
  lemma UntypedInnerArrayFails(inner: Json, k: string, doChop: bool, reg: Registry)
    requires UntypedInnerArray(inner) && reg.Valid()
    ensures GetJavaType(inner, k, doChop, reg) == Failure(NotAnObject(k))
  {
    if |inner.elems| > 0 {
      assert GetJavaType(inner.elems[0], k, doChop, reg).value.javaType == Unknown;
    }
  }

  /** The walk of `{"k": [inner, …]}` under any parent raises, naming `k`. */
  lemma NestedListWalk(k: string, inner: Json, rest: seq<Json>, parent: string, doChop: bool, reg: Registry)
    requires UntypedInnerArray(inner) && reg.Valid() && parent in reg.fields
    ensures SetupMembers(JObj([Member(k, JArr([inner] + rest))]), 0, parent, doChop, reg)
            == Failure(NotAnObject(k))
  {
    var arr := JArr([inner] + rest);
    var root := JObj([Member(k, arr)]);
    UntypedInnerArrayFails(inner, k, doChop, reg.AddClass(k, parent).(lists := reg.lists[k := parent]));
    assert ProcessArray(arr, k, parent, doChop, reg) == Failure(NotAnObject(k));
    assert ProcessValue(arr, k, parent, doChop, reg) == Failure(NotAnObject(k));
    assert ProcessMember(root, 0, parent, doChop, reg) == Failure(NotAnObject(k));
  }

  /** `{"k": [[], …]}`, `{"k": [[true], …]}` and `{"k": [[null], …]}`: the
      nested array yields "UNKNOWN" with nothing to walk, so
      `setup_data` is handed `nil` or a boolean and raises. */
  lemma NestedListFails(k: string, inner: Json, rest: seq<Json>, doChop: bool)
    requires UntypedInnerArray(inner)
    ensures Infer(JObj([Member(k, JArr([inner] + rest))]), Top, doChop) == Failure(NotAnObject(k))
  {
    var reg := Empty.AddClass(Top, TopLevelParent);
    NestedListWalk(k, inner, rest, Top, doChop, reg.(fields := reg.fields[Top := []]));
  }

  lemma LongList(n: int, k: string, doChop: bool)
    requires IsFixnum(n)
    ensures TypeName(JArr([JInt(n)]), k, doChop) == "List<Long>"
    ensures "List<" + "List<Long>" + ">" == "List<List<Long>>"
  {}

  /** The same document with a (Fixnum) number in place of the boolean is
      accepted: `[[7]]` is a `List<List<Long>>`. */
  lemma NestedNumberList(k: string, n: int, rest: seq<Json>, doChop: bool)
    requires k != Top && IsFixnum(n)
    ensures Infer(JObj([Member(k, JArr([JArr([JInt(n)])] + rest))]), Top, doChop).Success?
    ensures var fs := RenderClass(Top, Infer(JObj([Member(k, JArr([JArr([JInt(n)])] + rest))]), Top, doChop).value, doChop).fields;
            |fs| == 1 && fs[0].javaType == "List<List<Long>>" && fs[0].isList
  {
    var inner := JArr([JInt(n)]);
    var root := JObj([Member(k, JArr([inner] + rest))]);
    assert ScalarTypeName(inner.elems[0]) == "Long";
    assert !TypeFails(inner);
    assert !ObjectFails(root, 1);
    assert !ObjectFails(root, 0);
    assert Keys(inner) == {};
    assert Keys(root.members[0].value) == {};
    assert MembersKeys(root, 1) == {};
    assert Keys(root) == MembersKeys(root, 0) == {k};
    TopFields(root, Top, doChop, 0);
    TopValueListField(root, Top, doChop, 0);
    LongList(n, k, doChop);
  }

  // ---------------------------------------------------------------- the render as written

  /** None of the documents above reaches its list key with a scalar, so the
      program's own render, with its in-place `chop!`, produces the views the
      lemmas above describe. */
  lemma FlatAsWritten(s: string, n: int)
    ensures Infer(Flat(s, n), Top, true).Success?
    ensures var reg := Infer(Flat(s, n), Top, true).value;
            RenderAllAsWritten(reg, true) == RenderAll(reg, true)
  {
    FlatRuns(s, n);
    FlatKeys(s, n);
    AsWrittenWithoutScalarLists(Flat(s, n), Top, true);
  }

  lemma RatesAsWritten(k: string, a: Json, u: Json, j: Json, doChop: bool)
    requires IsScalar(a) && IsScalar(u) && IsScalar(j) && RatesKey(k)
    ensures Infer(Rates(k, a, u, j), Top, doChop).Success?
    ensures var reg := Infer(Rates(k, a, u, j), Top, doChop).value;
            RenderAllAsWritten(reg, doChop) == RenderAll(reg, doChop)
  {
    RatesRuns(k, a, u, j, doChop);
    RatesKeys(k, a, u, j);
    AsWrittenWithoutScalarLists(Rates(k, a, u, j), Top, doChop);
  }

  lemma NumbersScalarKeys(k: string, x: Json, rest: seq<Json>)
    requires IsScalar(x)
    ensures ScalarKeys(Numbers(k, x, rest)) == {}
  {
    var root := Numbers(k, x, rest);
    assert ScalarKeys(root.members[0].value) == {};
    assert ScalarKeysFrom(root, 1) == {};
  }

  lemma NumbersAsWritten(k: string, x: Json, rest: seq<Json>, doChop: bool)
    requires IsScalar(x) && k != Top
    ensures Infer(Numbers(k, x, rest), Top, doChop).Success?
    ensures var reg := Infer(Numbers(k, x, rest), Top, doChop).value;
            RenderAllAsWritten(reg, doChop) == RenderAll(reg, doChop)
  {
    NumbersRuns(k, x, rest, doChop);
    NumbersScalarKeys(k, x, rest);
    AsWrittenWithoutScalarLists(Numbers(k, x, rest), Top, doChop);
  }

  lemma ListOfScalarKeys(k: string, f: string, v: Json, rest: seq<Json>)
    requires IsScalar(v)
    ensures ScalarKeys(ListOf(k, f, v, rest)) == {f}
  {
    var root := ListOf(k, f, v, rest);
    var o := JObj([Member(f, v)]);
    assert ScalarKeysFrom(o, 1) == {};
    assert ScalarKeys(v) == {};
    assert ScalarKeysFrom(o, 0) == {f};
    assert ScalarKeys(o) == {f};
    assert ScalarKeys(root.members[0].value) == {f};
    assert ScalarKeysFrom(root, 1) == {};
  }

  lemma ListOfAsWritten(k: string, f: string, v: Json, rest: seq<Json>, doChop: bool)
    requires IsScalar(v) && ListOfKeys(k, f)
    ensures Infer(ListOf(k, f, v, rest), Top, doChop).Success?
    ensures var reg := Infer(ListOf(k, f, v, rest), Top, doChop).value;
            RenderAllAsWritten(reg, doChop) == RenderAll(reg, doChop)
  {
    ListOfRuns(k, f, v, rest, doChop);
    ListOfTables(k, f, v, rest);
    ListOfScalarKeys(k, f, v, rest);
    AsWrittenWithoutScalarLists(ListOf(k, f, v, rest), Top, doChop);
  }
}

=== FILE: infer_facts.dfy ===
/** What a whole run leaves for the members of the top-level object: the
    parent of a container key, the field list of an object-valued key, and
    the details of the keys one level down. Each holds for a key that does
    not recur later in the document, so that no later write replaces it. */
module InferFacts {
  import opened Wrappers
  import opened Json
  import opened Registry
  import opened Walk
  import opened WalkSteps
  import opened WalkFrame
  import opened WalkDetails

  /** The registry just before the top-level member `i` is handled. */
  lemma InferAt(root: Json, top: string, doChop: bool, i: nat) returns (reg: Registry)
    requires root.JObj? && Infer(root, top, doChop).Success? && i < |root.members|
    ensures reg.Valid() && top in reg.fields
    ensures SetupMembers(root, i, top, doChop, reg).Success?
    ensures Infer(root, top, doChop) == SetupMembers(root, i, top, doChop, reg)
  {
    var reg0 := Empty.AddClass(top, TopLevelParent);
    var reg1 := reg0.(fields := reg0.fields[top := []]);
    ResetFieldsFrame(reg0, top);
    assert Infer(root, top, doChop) == SetupMembers(root, 0, top, doChop, reg1);
    SetupMembersSplit(root, 0, i, top, doChop, reg1);
    reg := RunMembers(root, 0, i, top, doChop, reg1).value;
  }

  /** The registry after member `i` was handled, before the rest. */
  lemma InferAfter(root: Json, top: string, doChop: bool, i: nat) returns (pre: Registry, p: Processed, post: Registry)
    requires root.JObj? && Infer(root, top, doChop).Success? && i < |root.members|
    ensures pre.Valid() && top in pre.fields
    ensures ProcessValue(root.members[i].value, root.members[i].key, top, doChop, pre) == Success(p)
    ensures p.reg.Valid() && top in p.reg.fields
    ensures post == p.reg.(info := p.reg.info[root.members[i].key := p.details],
                           fields := p.reg.fields[top := p.reg.fields[top] + [root.members[i].key]])
    ensures post.Valid() && top in post.fields
    ensures SetupMembers(root, i + 1, top, doChop, post).Success?
    ensures Infer(root, top, doChop) == SetupMembers(root, i + 1, top, doChop, post)
  {
    pre := InferAt(root, top, doChop, i);
    MemberStep(root, i, top, doChop, pre);
    var m := root.members[i];
    p := ProcessValue(m.value, m.key, top, doChop, pre).value;
    post := ProcessMember(root, i, top, doChop, pre).value;
  }

  /** A top-level key holding an object or an array ends as a class of the
      top-level class, and an array key also as a list of it. */
  lemma InferContainerParent(root: Json, top: string, doChop: bool, i: nat)
    requires root.JObj? && Infer(root, top, doChop).Success? && i < |root.members|
    requires var m := root.members[i]; m.key !in Keys(m.value) && m.key !in MembersKeys(root, i + 1)
    ensures var m := root.members[i];
            var reg := Infer(root, top, doChop).value;
            && ((m.value.JObj? || m.value.JArr?) ==> m.key in reg.classes && reg.classes[m.key] == top)
            && (m.value.JArr? ==> m.key in reg.lists && reg.lists[m.key] == top)
  {
    var m := root.members[i];
    var pre, p, post := InferAfter(root, top, doChop, i);
    if m.value.JArr? {
      ValueArrayStep(m.value, m.key, top, doChop, pre);
      ProcessArrayFrame(m.value, m.key, top, doChop, pre);
    } else if m.value.JObj? {
      ObjectValueParent(m.value, m.key, top, doChop, pre);
    }
    SetupMembersKeeps(m.key, root, i + 1, top, doChop, post);
  }

  /** A container value whose key owns fields: an object, or an array
      whose first element is an object. */
  predicate HasOwnObject(v: Json) {
    v.JObj? || (v.JArr? && |v.elems| > 0 && v.elems[0].JObj?)
  }

  /** The object `setup_data` walks for such a value, with the value's key
      as parent. */
  function OwnObject(v: Json): (o: Json)
    requires HasOwnObject(v)
    ensures o.JObj? && Keys(o) == Keys(v)
  {
    if v.JObj? then v else v.elems[0]
  }

  /** Handling such a value registers its key, then runs `setup_data` on
      its object with the key as parent. */
  lemma OwnedSetup(v: Json, key: string, parent: string, doChop: bool, pre: Registry) returns (reg1: Registry)
    requires HasOwnObject(v) && pre.Valid() && ProcessValue(v, key, parent, doChop, pre).Success?
    ensures reg1.Valid() && SetupData(OwnObject(v), key, doChop, reg1).Success?
    ensures ProcessValue(v, key, parent, doChop, pre).value.reg == SetupData(OwnObject(v), key, doChop, reg1).value
  {
    if v.JObj? {
      ValueObjectStep(v, key, parent, doChop, pre);
      reg1 := pre.AddClass(key, parent);
    } else {
      ValueArrayStep(v, key, parent, doChop, pre);
      ArrayObjectStep(v, key, parent, doChop, pre);
      reg1 := ListRegistered(pre, key, parent);
    }
  }

  /** A top-level key that owns fields and is not the top-level class name
      owns exactly the keys of its object, in document order. */
  lemma InferObjectFields(root: Json, top: string, doChop: bool, i: nat)
    requires root.JObj? && Infer(root, top, doChop).Success? && i < |root.members|
    requires var m := root.members[i];
             HasOwnObject(m.value) && m.key != top && m.key !in Keys(m.value) && m.key !in MembersKeys(root, i + 1)
    ensures var m := root.members[i];
            var reg := Infer(root, top, doChop).value;
            m.key in reg.fields && reg.fields[m.key] == MemberKeys(OwnObject(m.value).members)
  {
    var m := root.members[i];
    var o := OwnObject(m.value);
    var pre, p, post := InferAfter(root, top, doChop, i);
    var reg1 := OwnedSetup(m.value, m.key, top, doChop, pre);
    SetupDataFieldOrder(o, m.key, doChop, reg1);
    assert m.key in post.fields && post.fields[m.key] == MemberKeys(o.members);
    SetupMembersFrame(root, i + 1, top, doChop, post);
  }

  /** One level down: member `j` of the object a top-level key owns, when
      its key recurs nowhere later, keeps the details built for it. */
  lemma InferNestedDetails(root: Json, top: string, doChop: bool, i: nat, j: nat)
    requires root.JObj? && Infer(root, top, doChop).Success? && i < |root.members|
    requires var m := root.members[i];
             && HasOwnObject(m.value) && j < |OwnObject(m.value).members|
             && var n := OwnObject(m.value).members[j];
             && n.key != m.key && n.key !in MembersKeys(OwnObject(m.value), j + 1) && n.key !in MembersKeys(root, i + 1)
    ensures var m := root.members[i];
            var n := OwnObject(m.value).members[j];
            var reg := Infer(root, top, doChop).value;
            n.key in reg.info && reg.info[n.key] == MemberDetails(n.value, n.key, m.key, doChop)
  {
    var m := root.members[i];
    var n := OwnObject(m.value).members[j];
    var pre, p, post := InferAfter(root, top, doChop, i);
    OwnedDetails(m.value, m.key, top, doChop, pre, j);
    SetupMembersKeeps(n.key, root, i + 1, top, doChop, post);
  }

  /** Handling a value that owns fields leaves, for member `j` of its
      object whose key does not recur later in that object, the details
      built for it. */
  lemma OwnedDetails(v: Json, key: string, parent: string, doChop: bool, pre: Registry, j: nat)
    requires HasOwnObject(v) && pre.Valid() && ProcessValue(v, key, parent, doChop, pre).Success?
    requires j < |OwnObject(v).members|
    requires OwnObject(v).members[j].key !in MembersKeys(OwnObject(v), j + 1)
    ensures var n := OwnObject(v).members[j];
            var reg := ProcessValue(v, key, parent, doChop, pre).value.reg;
            n.key in reg.info && reg.info[n.key] == MemberDetails(n.value, n.key, key, doChop)
  {
    var o := OwnObject(v);
    var reg1 := OwnedSetup(v, key, parent, doChop, pre);
    var reg2 := reg1.(fields := reg1.fields[key := []]);
    ResetFieldsFrame(reg1, key);
    assert SetupData(o, key, doChop, reg1) == SetupMembers(o, 0, key, doChop, reg2);
    SetupMembersSplit(o, 0, j, key, doChop, reg2);
    SetupMembersDetails(o, j, key, doChop, RunMembers(o, 0, j, key, doChop, reg2).value);
  }
}

=== FILE: json.dfy ===
/** The parsed JSON tree the generator walks (what `JSON.parse` hands back). */
module Json {

  /** Floats carry only their tag: the generator never looks at their value. */
  datatype Json =
    | JInt(n: int)
    | JFloat
    | JStr(s: string)
    | JBool(b: bool)
    | JNull
    | JArr(elems: seq<Json>)
    | JObj(members: seq<Member>)

  /** One key/value pair of an object, in document order. */
  datatype Member = Member(key: string, value: Json)

  /** The first element of an array, as Ruby's `value[0]` gives it: `nil`,
      the same value as JSON null, for an empty array. */
  function FirstElement(v: Json): (e: Json)
    requires v.JArr?
    ensures |v.elems| > 0 ==> e == v.elems[0]
    ensures |v.elems| == 0 ==> e == JNull
  {
    if |v.elems| == 0 then JNull else v.elems[0]
  }

  /** A value the walk types directly, without recursing into it. */
  predicate IsScalar(v: Json) {
    !v.JArr? && !v.JObj?
  }

  /** Ruby's `Fixnum` on a 64-bit interpreter: a 62-bit signed integer.
      Larger integers are `Bignum` and are not `Fixnum`. */
  predicate IsFixnum(n: int) {
    -0x4000_0000_0000_0000 <= n < 0x4000_0000_0000_0000
  }

  /** The keys of an object, in document order. */
  function MemberKeys(ms: seq<Member>): (ks: seq<string>)
    ensures |ks| == |ms|
    ensures forall i :: 0 <= i < |ms| ==> ks[i] == ms[i].key
  {
    if |ms| == 0 then [] else [ms[0].key] + MemberKeys(ms[1..])
  }

  /** Every key the schema walk can reach inside `v`: all keys of objects,
      descending into object values and into the FIRST element of arrays only. */
  function Keys(v: Json): set<string>
    decreases v, 1
  {
    match v
    case JObj(ms) => MembersKeys(v, 0)
    case JArr(es) => if |es| == 0 then {} else Keys(es[0])
    case _ => {}
  }

  /** Reachable keys of the members of `obj` from index `i` on. */
  function MembersKeys(obj: Json, i: nat): set<string>
    requires obj.JObj?
    decreases obj, 0, |obj.members| - i
  {
    if i >= |obj.members| then {}
    else {obj.members[i].key} + Keys(obj.members[i].value) + MembersKeys(obj, i + 1)
  }
}

=== FILE: names.dfy ===
/** The identifier normalisers: each is a left-to-right scan over the
    characters of a raw JSON key with a little state, written here as a
    recursive function whose extra arguments are that state. */
module Names {

  /** `String#upcase` restricted to ASCII letters. */
  function Upcase(c: char): char {
    if 'a' <= c <= 'z' then (c as int - 32) as char else c
  }

  /** Upper-cases the first character only. */
  function Capitalise(s: string): string {
    if |s| == 0 then s else [Upcase(s[0])] + s[1..]
  }

  /** Ruby's `String#chop`: drop the last character (of a non-empty string). */
  function Chop(s: string): (r: string)
    ensures |s| > 0 ==> |r| == |s| - 1 && r == s[..|s| - 1]
    ensures |s| == 0 ==> r == s
  {
    if |s| == 0 then s else s[..|s| - 1]
  }

  /** Chop when the `do_chop` flag is set (it is, unless `-n` is given). */
  function ChopIf(doChop: bool, s: string): string {
    if doChop then Chop(s) else s
  }

  predicate IsSeparator(c: char) {
    c == '_' || c == '-'
  }

  predicate NoSeparators(s: string) {
    forall i :: 0 <= i < |s| ==> !IsSeparator(s[i])
  }

  // ---------------------------------------------------------------- class names

  /** The scan of `to_java_class_name`: a character is upper-cased and kept
      when it is the first one or follows a `_` that set `separator`;
      otherwise `-` is dropped, `_` is dropped and sets `separator`, and
      anything else is kept. */
  function ClassNameScan(s: string, separator: bool, first: bool): (r: string)
    ensures |r| <= |s|
    ensures |s| > 0 && (separator || first) ==> |r| > 0 && r[0] == Upcase(s[0])
  {
    if |s| == 0 then ""
    else if separator || first then [Upcase(s[0])] + ClassNameScan(s[1..], false, false)
    else if s[0] == '-' then ClassNameScan(s[1..], false, false)
    else if s[0] == '_' then ClassNameScan(s[1..], true, false)
    else [s[0]] + ClassNameScan(s[1..], false, false)
  }

  function ToJavaClassName(key: string): (r: string)
    ensures |r| <= |key|
    ensures |key| > 0 ==> |r| > 0 && r[0] == Upcase(key[0])
    ensures |key| == 0 ==> r == ""
  {
    ClassNameScan(key, false, true)
  }

  // ---------------------------------------------------------------- field names

  /** The scan of `to_java_field_name`. `leave` (leave_lowercase) records
      that the `_` which set `separator` was at position 0, in which case the
      next character is kept as it is instead of being upper-cased. */
  function FieldNameScan(s: string, separator: bool, first: bool, leave: bool): (r: string)
    ensures |r| <= |s|
    ensures !separator && (exists i :: 0 <= i < |s| && IsSeparator(s[i])) ==> |r| < |s|
  {
    if |s| == 0 then ""
    else if separator then
      [if leave then s[0] else Upcase(s[0])] + FieldNameScan(s[1..], false, false, leave)
    else if s[0] == '-' then FieldNameScan(s[1..], false, false, leave)
    else if s[0] == '_' then FieldNameScan(s[1..], true, false, first)
    else
      var r := [s[0]] + FieldNameScan(s[1..], false, false, leave);
      assert (exists i :: 0 <= i < |s| && IsSeparator(s[i])) ==>
        exists i :: 0 <= i < |s[1..]| && IsSeparator(s[1..][i]) by {
        if exists i :: 0 <= i < |s| && IsSeparator(s[i]) {
          var i :| 0 <= i < |s| && IsSeparator(s[i]);
          assert s[1..][i - 1] == s[i];
        }
      }
      r
  }

  function ToJavaFieldName(key: string): (r: string)
    ensures |r| <= |key|
    ensures !NoSeparators(key) ==> |r| < |key|
  {
    FieldNameScan(key, false, true, false)
  }

  // ---------------------------------------------------------------- accessor names

  /** The scan of `to_java_method_name`: like the field-name scan, but the
      character after a `_` is always upper-cased, and so is the first
      character when it is not a separator. */
  function MethodNameScan(s: string, separator: bool, first: bool): (r: string)
    ensures |r| <= |s|
  {
    if |s| == 0 then ""
    else if separator then [Upcase(s[0])] + MethodNameScan(s[1..], false, false)
    else if s[0] == '-' then MethodNameScan(s[1..], false, false)
    else if s[0] == '_' then MethodNameScan(s[1..], true, false)
    else [if first then Upcase(s[0]) else s[0]] + MethodNameScan(s[1..], false, false)
  }

  function ToJavaMethodName(key: string): (r: string)
    ensures |r| <= |key|
  {
    MethodNameScan(key, false, true)
  }

  // ---------------------------------------------------------------- scan lemmas

  /** In the plain state a run of non-separator characters is copied verbatim. */
  lemma {:induction false} ClassScanPlain(w: string, t: string)
    requires NoSeparators(w)
    ensures ClassNameScan(w + t, false, false) == w + ClassNameScan(t, false, false)
  {
    if |w| > 0 {
      assert (w + t)[1..] == w[1..] + t;
      ClassScanPlain(w[1..], t);
    } else {
      assert w + t == t;
    }
  }

  lemma {:induction false} FieldScanPlain(w: string, t: string, leave: bool)
    requires NoSeparators(w)
    ensures FieldNameScan(w + t, false, false, leave) == w + FieldNameScan(t, false, false, leave)
  {
    if |w| > 0 {
      assert (w + t)[1..] == w[1..] + t;
      FieldScanPlain(w[1..], t, leave);
    } else {
      assert w + t == t;
    }
  }

  /** Past position 0 the `leave_lowercase` flag is dead until the next `_`
      overwrites it, so it cannot change the outcome. */
  lemma {:induction false} FieldScanLeaveIrrelevant(s: string, l1: bool, l2: bool)
    ensures FieldNameScan(s, false, false, l1) == FieldNameScan(s, false, false, l2)
  {
    if |s| > 0 && s[0] != '_' {
      FieldScanLeaveIrrelevant(s[1..], l1, l2);
    }
  }

  /** Once past position 0, the field and accessor scans agree, except right
      after a leading `_` (where the field keeps the character lower-case). */
  lemma {:induction false} FieldMethodScansAgree(s: string, separator: bool, leave: bool)
    requires !(separator && leave)
    ensures FieldNameScan(s, separator, false, leave) == MethodNameScan(s, separator, false)
  {
    if |s| > 0 {
      if separator {
        FieldMethodScansAgree(s[1..], false, leave);
      } else if s[0] == '_' {
        FieldMethodScansAgree(s[1..], true, false);
      } else {
        FieldMethodScansAgree(s[1..], false, leave);
      }
    }
  }

  // ---------------------------------------------------------------- properties

  /** The accessor suffix is the field name with its first character
      upper-cased, for every key that does not start with `-`. */
  lemma MethodNameCapitalisesFieldName(key: string)
    requires |key| == 0 || key[0] != '-'
    ensures ToJavaMethodName(key) == Capitalise(ToJavaFieldName(key))
  {
    if |key| > 0 {
      if key[0] == '_' {
        var t := key[1..];
        assert ToJavaFieldName(key) == FieldNameScan(t, true, false, true);
        assert ToJavaMethodName(key) == MethodNameScan(t, true, false);
        if |t| > 0 {
          FieldScanLeaveIrrelevant(t[1..], true, false);
          FieldMethodScansAgree(t[1..], false, false);
          assert FieldNameScan(t, true, false, true) == [t[0]] + FieldNameScan(t[1..], false, false, true);
          assert MethodNameScan(t, true, false) == [Upcase(t[0])] + MethodNameScan(t[1..], false, false);
        }
      } else {
        FieldMethodScansAgree(key[1..], false, false);
        assert ToJavaFieldName(key) == [key[0]] + FieldNameScan(key[1..], false, false, false);
      }
    }
  }

  /** A key starting with `-` is where the two differ: the `-` is dropped
      and the accessor does not capitalise what follows it. */
  lemma LeadingHyphenAccessor()
    ensures ToJavaMethodName("-ab") == "ab"
    ensures Capitalise(ToJavaFieldName("-ab")) == "Ab"
  {
    assert "-ab"[1..] == "ab";
    assert "ab"[1..] == "b";
  }

  /** The field name equals the key exactly when the key holds no `_` and
      no `-`; this is when no `@JsonProperty` annotation is emitted. */
  lemma FieldNameIdentityIff(key: string)
    ensures ToJavaFieldName(key) == key <==> NoSeparators(key)
  {
    if NoSeparators(key) && |key| > 0 {
      FieldScanPlain(key[1..], "", false);
      assert key[1..] + "" == key[1..];
      assert ToJavaFieldName(key) == [key[0]] + FieldNameScan(key[1..], false, false, false);
    }
  }

  /** A key without separators becomes a class name by capitalising it. */
  lemma ClassNameOfWord(w: string)
    requires NoSeparators(w)
    ensures ToJavaClassName(w) == Capitalise(w)
  {
    if |w| > 0 {
      ClassScanPlain(w[1..], "");
      assert w[1..] + "" == w[1..];
    }
  }

  /** `_` is dropped only when it does not itself follow a separating `_`: a
      leading `_` survives into the class name (the first character is always
      kept), and the character after it is not capitalised. */
  lemma LeadingUnderscoreClassName(s: string)
    requires |s| > 0 && !IsSeparator(s[0])
    ensures ToJavaClassName("_" + s) == "_" + [s[0]] + ToJavaClassName(s)[1..]
  {
    assert ("_" + s)[1..] == s;
    assert ToJavaClassName("_" + s) == "_" + ClassNameScan(s, false, false);
    assert ClassNameScan(s, false, false) == [s[0]] + ClassNameScan(s[1..], false, false);
    assert ToJavaClassName(s) == [Upcase(s[0])] + ClassNameScan(s[1..], false, false);
  }

  /** A leading `_` is dropped from a field name and the next character is
      kept as it is. */
  lemma LeadingUnderscoreFieldName(s: string)
    requires |s| == 0 || !IsSeparator(s[0])
    ensures ToJavaFieldName("_" + s) == ToJavaFieldName(s)
  {
    assert ("_" + s)[1..] == s;
    assert ToJavaFieldName("_" + s) == FieldNameScan(s, true, false, true);
    if |s| > 0 {
      FieldScanLeaveIrrelevant(s[1..], true, false);
      assert FieldNameScan(s, true, false, true) == [s[0]] + FieldNameScan(s[1..], false, false, true);
      assert ToJavaFieldName(s) == [s[0]] + FieldNameScan(s[1..], false, false, false);
    }
  }

  /** `-` is dropped but does not start a new word (its `when` clause is empty). */
  lemma HyphenDoesNotStartWord(a: string, b: string)
    requires |a| > 0 && NoSeparators(a) && NoSeparators(b)
    ensures ToJavaClassName(a + "-" + b) == Capitalise(a) + b
    ensures ToJavaFieldName(a + "-" + b) == a + b
    ensures ToJavaMethodName(a + "-" + b) == Capitalise(a) + b
  {
    var s := a + "-" + b;
    assert s[1..] == a[1..] + ("-" + b);
    ClassScanPlain(a[1..], "-" + b);
    ClassScanPlain(b, "");
    FieldScanPlain(a[1..], "-" + b, false);
    FieldScanPlain(b, "", false);
    assert ("-" + b)[1..] == b;
    assert b + "" == b;
    assert ToJavaClassName(s) == [Upcase(a[0])] + a[1..] + b;
    assert ToJavaFieldName(s) == [a[0]] + a[1..] + b;
    assert [a[0]] + a[1..] == a;
    MethodNameCapitalisesFieldName(s);
  }

  // ---------------------------------------------------------------- keys made of `_`-separated words

  predicate NoUnderscore(s: string) {
    forall i :: 0 <= i < |s| ==> s[i] != '_'
  }

  /** `s` with every `-` removed. */
  function Dehyphen(s: string): (r: string)
    ensures |r| <= |s|
    ensures |s| > 0 && s[0] != '-' ==> |r| > 0 && r[0] == s[0]
  {
    if |s| == 0 then ""
    else if s[0] == '-' then Dehyphen(s[1..])
    else [s[0]] + Dehyphen(s[1..])
  }

  function DehyphenAll(ws: seq<string>): (r: seq<string>)
    ensures |r| == |ws| && forall i :: 0 <= i < |ws| ==> r[i] == Dehyphen(ws[i])
  {
    seq(|ws|, i requires 0 <= i < |ws| => Dehyphen(ws[i]))
  }

  lemma {:induction false} DehyphenPlain(w: string)
    requires NoSeparators(w)
    ensures Dehyphen(w) == w
  {
    if |w| > 0 {
      DehyphenPlain(w[1..]);
      assert [w[0]] + w[1..] == w;
    }
  }

  /** The pieces of a key between its `_`s: non-empty, without `_`, and not
      starting with `-` (a `-` inside a piece is allowed). */
  predicate IsWords(ws: seq<string>) {
    |ws| > 0 && forall i :: 0 <= i < |ws| ==> |ws[i]| > 0 && ws[i][0] != '-' && NoUnderscore(ws[i])
  }

  lemma WordsTail(ws: seq<string>)
    requires IsWords(ws) && |ws| > 1
    ensures IsWords(ws[1..])
  {
    forall i | 0 <= i < |ws[1..]| ensures |ws[1..][i]| > 0 && ws[1..][i][0] != '-' && NoUnderscore(ws[1..][i]) {
      assert ws[1..][i] == ws[i + 1];
    }
  }

  /** `w1_w2_..._wn` */
  function SnakeJoin(ws: seq<string>): string
    requires |ws| > 0
  {
    if |ws| == 1 then ws[0] else ws[0] + "_" + SnakeJoin(ws[1..])
  }

  /** `W1W2...Wn`, every word capitalised. */
  function CamelConcat(ws: seq<string>): string {
    if |ws| == 0 then "" else Capitalise(ws[0]) + CamelConcat(ws[1..])
  }

  lemma CamelDehyphenCons(ws: seq<string>)
    requires |ws| > 0
    ensures CamelConcat(DehyphenAll(ws)) == Capitalise(Dehyphen(ws[0])) + CamelConcat(DehyphenAll(ws[1..]))
  {
    assert DehyphenAll(ws)[1..] == DehyphenAll(ws[1..]);
  }

  /** In the plain state a run without `_` is copied with its `-`s dropped. */
  lemma {:induction false} ClassScanPiece(w: string, t: string)
    requires NoUnderscore(w)
    ensures ClassNameScan(w + t, false, false) == Dehyphen(w) + ClassNameScan(t, false, false)
  {
    if |w| > 0 {
      assert (w + t)[1..] == w[1..] + t;
      ClassScanPiece(w[1..], t);
    } else {
      assert w + t == t;
    }
  }

  lemma {:induction false} FieldScanPiece(w: string, t: string, leave: bool)
    requires NoUnderscore(w)
    ensures FieldNameScan(w + t, false, false, leave) == Dehyphen(w) + FieldNameScan(t, false, false, leave)
  {
    if |w| > 0 {
      assert (w + t)[1..] == w[1..] + t;
      FieldScanPiece(w[1..], t, leave);
    } else {
      assert w + t == t;
    }
  }

  lemma ConcatAssoc(a: string, b: string, c: string)
    ensures a + (b + c) == (a + b) + c
  {}

  lemma DehyphenCapitalised(w: string)
    requires |w| > 0 && w[0] != '-'
    ensures Capitalise(Dehyphen(w)) == [Upcase(w[0])] + Dehyphen(w[1..])
  {
    assert Dehyphen(w) == [w[0]] + Dehyphen(w[1..]);
    assert ([w[0]] + Dehyphen(w[1..]))[1..] == Dehyphen(w[1..]);
  }

  /** One word at the start of a class-name scan in a capitalising state. */
  lemma ClassScanWord(w: string, tail: string, separator: bool, first: bool)
    requires |w| > 0 && w[0] != '-' && NoUnderscore(w) && (separator || first)
    ensures ClassNameScan(w + tail, separator, first) == Capitalise(Dehyphen(w)) + ClassNameScan(tail, false, false)
  {
    var s := w + tail;
    assert s[0] == w[0] && s[1..] == w[1..] + tail;
    ClassScanPiece(w[1..], tail);
    DehyphenCapitalised(w);
  }

  /** The first word and its `_` of a key. */
  lemma ClassScanCons(ws: seq<string>, separator: bool, first: bool)
    requires IsWords(ws) && |ws| > 1 && (separator || first)
    ensures ClassNameScan(SnakeJoin(ws), separator, first)
            == Capitalise(Dehyphen(ws[0])) + ClassNameScan(SnakeJoin(ws[1..]), true, false)
  {
    var rest := SnakeJoin(ws[1..]);
    assert SnakeJoin(ws) == ws[0] + ("_" + rest);
    ClassScanWord(ws[0], "_" + rest, separator, first);
    assert ("_" + rest)[0] == '_' && ("_" + rest)[1..] == rest;
  }

  lemma {:induction false} ClassScanSnake(ws: seq<string>, separator: bool, first: bool)
    requires IsWords(ws) && (separator || first)
    ensures ClassNameScan(SnakeJoin(ws), separator, first) == CamelConcat(DehyphenAll(ws))
  {
    CamelDehyphenCons(ws);
    if |ws| == 1 {
      ClassScanWord(ws[0], "", separator, first);
      assert ws[0] + "" == ws[0];
    } else {
      ClassScanCons(ws, separator, first);
      WordsTail(ws);
      ClassScanSnake(ws[1..], true, false);
    }
  }

  /** One word at the start of a field-name scan that begins in the
      separator state. */
  lemma FieldScanWord(w: string, tail: string)
    requires |w| > 0 && w[0] != '-' && NoUnderscore(w)
    ensures FieldNameScan(w + tail, true, false, false) == Capitalise(Dehyphen(w)) + FieldNameScan(tail, false, false, false)
  {
    var s := w + tail;
    assert s[0] == w[0] && s[1..] == w[1..] + tail;
    var rest := FieldNameScan(w[1..] + tail, false, false, false);
    assert FieldNameScan(s, true, false, false) == [Upcase(w[0])] + rest;
    FieldScanPiece(w[1..], tail, false);
    DehyphenCapitalised(w);
    ConcatAssoc([Upcase(w[0])], Dehyphen(w[1..]), FieldNameScan(tail, false, false, false));
  }

  /** The first word and its `_` of a key, in the separator state. */
  lemma FieldScanCons(ws: seq<string>)
    requires IsWords(ws) && |ws| > 1
    ensures FieldNameScan(SnakeJoin(ws), true, false, false)
            == Capitalise(Dehyphen(ws[0])) + FieldNameScan(SnakeJoin(ws[1..]), true, false, false)
  {
    var rest := SnakeJoin(ws[1..]);
    assert SnakeJoin(ws) == ws[0] + ("_" + rest);
    FieldScanWord(ws[0], "_" + rest);
    assert ("_" + rest)[0] == '_' && ("_" + rest)[1..] == rest;
    assert FieldNameScan("_" + rest, false, false, false) == FieldNameScan(rest, true, false, false);
  }

  lemma {:induction false} FieldScanSnake(ws: seq<string>)
    requires IsWords(ws)
    ensures FieldNameScan(SnakeJoin(ws), true, false, false) == CamelConcat(DehyphenAll(ws))
  {
    CamelDehyphenCons(ws);
    if |ws| == 1 {
      FieldScanWord(ws[0], "");
      assert ws[0] + "" == ws[0];
    } else {
      FieldScanCons(ws);
      WordsTail(ws);
      FieldScanSnake(ws[1..]);
    }
  }

  /** A key `w1_w2_..._wn` becomes the class name `W1W2...Wn`: every word
      capitalised, and every `-` inside a word dropped. */
  lemma {:induction false} ClassNameOfSnake(ws: seq<string>)
    requires IsWords(ws)
    ensures ToJavaClassName(SnakeJoin(ws)) == CamelConcat(DehyphenAll(ws))
  {
    ClassScanSnake(ws, false, true);
  }

  lemma FieldScanFirstWord(w: string, tail: string)
    requires |w| > 0 && w[0] != '-' && NoUnderscore(w)
    ensures ToJavaFieldName(w + tail) == Dehyphen(w) + FieldNameScan(tail, false, false, false)
  {
    var s := w + tail;
    assert s[0] == w[0] && s[1..] == w[1..] + tail;
    var t := FieldNameScan(tail, false, false, false);
    assert ToJavaFieldName(s) == [w[0]] + FieldNameScan(w[1..] + tail, false, false, false);
    FieldScanPiece(w[1..], tail, false);
    assert Dehyphen(w) == [w[0]] + Dehyphen(w[1..]);
    ConcatAssoc([w[0]], Dehyphen(w[1..]), t);
  }

  /** A key `w1_w2_..._wn` becomes a lowerCamelCase field name: the first
      word as it is and every later word capitalised, all without `-`. */
  lemma {:induction false} FieldNameOfSnake(ws: seq<string>)
    requires IsWords(ws)
    ensures ToJavaFieldName(SnakeJoin(ws)) == Dehyphen(ws[0]) + CamelConcat(DehyphenAll(ws[1..]))
  {
    var w := ws[0];
    if |ws| == 1 {
      FieldScanFirstWord(w, "");
      assert w + "" == w;
    } else {
      var rest := SnakeJoin(ws[1..]);
      assert SnakeJoin(ws) == w + ("_" + rest);
      FieldScanFirstWord(w, "_" + rest);
      assert ("_" + rest)[1..] == rest;
      assert FieldNameScan("_" + rest, false, false, false) == FieldNameScan(rest, true, false, false);
      WordsTail(ws);
      FieldScanSnake(ws[1..]);
    }
  }

  lemma CapitaliseConcat(a: string, b: string)
    requires |a| > 0
    ensures Capitalise(a + b) == Capitalise(a) + b
  {
    assert (a + b)[0] == a[0] && (a + b)[1..] == a[1..] + b;
  }

  /** A key `w1_w2_..._wn` gives the accessor suffix `W1W2...Wn`. */
  lemma {:induction false} MethodNameOfSnake(ws: seq<string>)
    requires IsWords(ws)
    ensures ToJavaMethodName(SnakeJoin(ws)) == CamelConcat(DehyphenAll(ws))
  {
    var s := SnakeJoin(ws);
    assert s[0] == ws[0][0] by {
      if |ws| > 1 {
        assert s == ws[0] + ("_" + SnakeJoin(ws[1..]));
      }
    }
    FieldNameOfSnake(ws);
    MethodNameCapitalisesFieldName(s);
    CamelDehyphenCons(ws);
    CapitaliseConcat(Dehyphen(ws[0]), CamelConcat(DehyphenAll(ws[1..])));
  }

  /** A `-` that starts a word is read in the capitalising state: it is kept
      and the letter after it stays lower-case. */
  lemma HyphenAfterUnderscore()
    ensures ToJavaClassName("a_-b") == "A-b"
  {
    assert "a_-b"[1..] == "_-b";
    assert "_-b"[1..] == "-b";
    assert "-b"[1..] == "b";
  }
}

=== FILE: registry.dfy ===
/** The four tables the schema walk fills (`@java_classes`, `@java_fields`,
    `@java_lists`, `@field_info`), threaded through the walk as one value. */
module Registry {
  import opened Wrappers

  /** What `FieldDetails` records about one raw key. `javaType` is "Hash",
      "Array" or the resolved scalar type; `arrayType` is unset (`nil`) unless
      the key held an array whose first element is not an object. */
  datatype FieldDetails = FieldDetails(
    parent: string,
    javaType: string,
    fieldName: string,
    arrayType: Option<string>,
    writeClassFile: bool)

  /** `classes` maps a class key to its parent; since a Ruby Hash iterates in
      insertion order and re-assigning a key keeps its place, that order is
      kept separately in `classOrder`. */
  datatype Registry = Registry(
    classOrder: seq<string>,
    classes: map<string, string>,
    fields: map<string, seq<string>>,
    lists: map<string, string>,
    info: map<string, FieldDetails>)
  {
    /** `@java_classes[c] = p` */
    function AddClass(c: string, p: string): (r: Registry)
      requires OrderMatches()
      ensures r.OrderMatches()
      ensures r.classes == classes[c := p]
      ensures |classOrder| <= |r.classOrder| && r.classOrder[..|classOrder|] == classOrder
      ensures c in classes ==> r.classOrder == classOrder
      ensures c !in classes ==> r.classOrder[|classOrder|..] == [c]
      ensures r.fields == fields && r.lists == lists && r.info == info
    {
      var order := if c in classes then classOrder else classOrder + [c];
      assert forall k :: k in order <==> k in classOrder || k == c;
      this.(classOrder := order, classes := classes[c := p])
    }

    /** `classOrder` lists every class key exactly once. */
    ghost predicate OrderMatches() {
      && (forall i, j :: 0 <= i < j < |classOrder| ==> classOrder[i] != classOrder[j])
      && (forall k :: k in classOrder <==> k in classes)
    }

    /** Every key in a field list has field details: `java_class_output`
        looks up `@field_info[field]` for each of them. */
    ghost predicate FieldsHaveInfo() {
      forall c, f :: c in fields && f in fields[c] ==> f in info
    }

    ghost predicate Valid() {
      OrderMatches() && FieldsHaveInfo()
    }
  }

  /** The parent recorded for the top-level class. */
  const TopLevelParent: string := "TOP_LEVEL_CLASS"

  const Empty: Registry := Registry([], map[], map[], map[], map[])

  /** No field list disappears between `before` and `after`. */
  ghost predicate FieldsKept(before: Registry, after: Registry) {
    forall k :: k in before.fields ==> k in after.fields
  }

  /** `after` extends `before`: no table loses a key and the class order
      only grows at its end. */
  ghost predicate Extends(before: Registry, after: Registry) {
    && before.classes.Keys <= after.classes.Keys
    && before.fields.Keys <= after.fields.Keys
    && before.lists.Keys <= after.lists.Keys
    && before.info.Keys <= after.info.Keys
    && |before.classOrder| <= |after.classOrder|
    && after.classOrder[..|before.classOrder|] == before.classOrder
  }

  /** Outside the keys in `ks` (and, for field lists, outside `ks` and
      `owners`) nothing changed between `before` and `after`. */
  ghost predicate UnchangedOutside(before: Registry, after: Registry, ks: set<string>, owners: set<string>) {
    && (forall k :: k !in ks ==> (k in after.classes <==> k in before.classes))
    && (forall k :: k !in ks && k in before.classes ==> after.classes[k] == before.classes[k])
    && (forall k :: k !in ks ==> (k in after.lists <==> k in before.lists))
    && (forall k :: k !in ks && k in before.lists ==> after.lists[k] == before.lists[k])
    && (forall k :: k !in ks ==> (k in after.info <==> k in before.info))
    && (forall k :: k !in ks && k in before.info ==> after.info[k] == before.info[k])
    && (forall k :: k !in ks && k !in owners ==> (k in after.fields <==> k in before.fields))
    && (forall k :: k !in ks && k !in owners && k in before.fields ==> after.fields[k] == before.fields[k])
  }

  lemma UnchangedTrans(a: Registry, b: Registry, c: Registry,
                       ks1: set<string>, o1: set<string>, ks2: set<string>, o2: set<string>)
    requires Extends(a, b) && Extends(b, c)
    requires UnchangedOutside(a, b, ks1, o1) && UnchangedOutside(b, c, ks2, o2)
    ensures Extends(a, c)
    ensures UnchangedOutside(a, c, ks1 + ks2, o1 + o2)
  {
    assert c.classOrder[..|a.classOrder|] == c.classOrder[..|b.classOrder|][..|a.classOrder|];
  }

  lemma UnchangedWeaken(a: Registry, b: Registry, ks: set<string>, o: set<string>,
                        ks': set<string>, o': set<string>)
    requires UnchangedOutside(a, b, ks, o) && ks <= ks' && o <= o'
    ensures UnchangedOutside(a, b, ks', o')
  {
  }

  /** Owners inside the changed keys add nothing to the frame. */
  lemma UnchangedAbsorb(a: Registry, b: Registry, ks: set<string>, o: set<string>)
    requires UnchangedOutside(a, b, ks, o) && o <= ks
    ensures UnchangedOutside(a, b, ks, {})
  {
  }

  lemma UnchangedRefl(a: Registry)
    ensures Extends(a, a) && UnchangedOutside(a, a, {}, {})
  {
    assert a.classOrder[..|a.classOrder|] == a.classOrder;
  }

  /** Registering `key` as a class (and optionally as a list) of `parent`
      touches nothing but `key`. */
  lemma AddClassFrame(reg: Registry, key: string, parent: string, asList: bool)
    requires reg.Valid()
    ensures var r := reg.AddClass(key, parent);
            var r' := if asList then r.(lists := reg.lists[key := parent]) else r;
            && r'.Valid() && Extends(reg, r') && UnchangedOutside(reg, r', {key}, {})
            && key in r'.classes && r'.classes[key] == parent
            && (asList ==> key in r'.lists && r'.lists[key] == parent)
  {
  }

  /** Resetting the field list of `parent` touches nothing but `parent`. */
  lemma ResetFieldsFrame(reg: Registry, parent: string)
    requires reg.Valid()
    ensures var r := reg.(fields := reg.fields[parent := []]);
            && r.Valid() && Extends(reg, r) && UnchangedOutside(reg, r, {}, {parent})
            && parent in r.fields
  {
    var r := reg.(fields := reg.fields[parent := []]);
    assert r.classOrder[..|reg.classOrder|] == reg.classOrder;
  }

  /** Storing the details of `key` and appending `key` to the field list of
      `parent` touches nothing but `key` and `parent`. */
  lemma StoreFrame(reg: Registry, key: string, d: FieldDetails, parent: string)
    requires parent in reg.fields
    ensures var r := reg.(info := reg.info[key := d], fields := reg.fields[parent := reg.fields[parent] + [key]]);
            Extends(reg, r) && UnchangedOutside(reg, r, {key}, {parent})
  {
    var r := reg.(info := reg.info[key := d], fields := reg.fields[parent := reg.fields[parent] + [key]]);
    assert r.classOrder[..|reg.classOrder|] == reg.classOrder;
  }
}

=== FILE: render.dfy ===
/** The decisions `java_class_output` takes for one class: its Java name,
    and for each field the declared type, field name, accessor suffix and
    annotations, plus whether the class file is written at all. The text
    layout of the generated file is not modelled. */
module Render {
  import opened Wrappers
  import opened Names
  import opened Registry

  /** One `private <type> <name>;` declaration and its accessors. */
  datatype FieldView = FieldView(
    javaType: string,     // the declared type
    javaField: string,    // the Java field name
    accessor: string,     // the suffix of `get…` / `set…`
    isList: bool,         // wrapped in `List<…>`
    jsonProperty: bool,   // annotated `@JsonProperty("<raw key>")`
    jsonSerialize: bool)  // annotated `@JsonSerialize(include = NON_EMPTY)`

  /** One generated class. */
  datatype ClassView = ClassView(
    className: string,
    fields: seq<FieldView>,
    listImport: bool,
    propertyImport: bool,
    serializeImport: bool,
    written: bool)

  /** The class name of key `c`: the key as a class name, with its last
      character chopped when `c` names a list and chopping is on. */
  function ProperClassName(c: string, reg: Registry, doChop: bool): (r: string)
    ensures |c| > 0 ==> (|r| < |ToJavaClassName(c)| <==> doChop && c in reg.lists)
    ensures |c| > 0 && doChop && c in reg.lists ==> |r| == |ToJavaClassName(c)| - 1
    ensures r <= ToJavaClassName(c)
  {
    ChopIf(doChop && c in reg.lists, ToJavaClassName(c))
  }

  /** The declared type of field `f` in class `c`, starting from the type
      `recorded` in its field details: a key that owns fields names its own
      class instead, and a list owned by `c` is wrapped in `List<…>` around
      its `array_type`, or around the (chopped) class name when it has none. */
  function DeclaredType(f: string, c: string, reg: Registry, doChop: bool, recorded: string): string
    requires f in reg.info
  {
    var base := if f in reg.fields then ToJavaClassName(f) else recorded;
    if f in reg.lists && reg.lists[f] == c then
      "List<" + (match reg.info[f].arrayType
                 case Some(at) => at
                 case None => ChopIf(doChop, base)) + ">"
    else base
  }

  /** The annotation decisions for raw key `f`: `@JsonProperty` exactly when
      the Java field name differs from the key, which is when the key holds a
      `_` or a `-`, and `@JsonSerialize` on top of it for `_rev` and `_id`. */
  function AnnotatedField(javaType: string, f: string, isList: bool, accessor: string): (v: FieldView)
    ensures v.javaField == ToJavaFieldName(f) && v.javaType == javaType && v.isList == isList
    ensures v.accessor == accessor
    ensures v.jsonProperty <==> !NoSeparators(f)
    ensures v.jsonSerialize <==> f == "_rev" || f == "_id"
  {
    var javaField := ToJavaFieldName(f);
    FieldNameIdentityIff(f);
    var property := javaField != f;
    assert f == "_rev" || f == "_id" ==> !NoSeparators(f) by {
      if f == "_rev" || f == "_id" { assert IsSeparator(f[0]); }
    }
    FieldView(javaType, javaField, accessor, isList, property, property && (f == "_rev" || f == "_id"))
  }

  /** The accessor suffix of `f`: from the raw key, or from the class name
      when `f` owns fields. */
  function Accessor(f: string, reg: Registry): string {
    if f in reg.fields then ToJavaMethodName(ToJavaClassName(f)) else ToJavaMethodName(f)
  }

  /** One field of class `c`, read from the registry as the walk left it.
      A list owned by `c` is declared as a list of its `array_type`, or, for
      a list of objects, of the class generated for its elements; a key
      owning fields is declared with the name of its class; any other field
      with the type recorded in its details. */
  function RenderField(f: string, c: string, reg: Registry, doChop: bool): (v: FieldView)
    requires f in reg.info
    ensures v.javaField == ToJavaFieldName(f)
    ensures v.isList <==> f in reg.lists && reg.lists[f] == c
    ensures v.jsonProperty <==> !NoSeparators(f)
    ensures v.jsonSerialize <==> f == "_rev" || f == "_id"
    ensures v.isList && reg.info[f].arrayType.Some? ==> v.javaType == "List<" + reg.info[f].arrayType.value + ">"
    ensures v.isList && reg.info[f].arrayType.None? && f in reg.fields
            ==> v.javaType == "List<" + ProperClassName(f, reg, doChop) + ">"
    ensures !v.isList && f in reg.fields && f !in reg.lists ==> v.javaType == ProperClassName(f, reg, doChop)
    ensures !v.isList && f in reg.fields ==> v.javaType == ToJavaClassName(f)
    ensures v.isList && reg.info[f].arrayType.None? && f !in reg.fields
            ==> v.javaType == "List<" + ChopIf(doChop, reg.info[f].javaType) + ">"
    ensures !v.isList && f !in reg.fields ==> v.javaType == reg.info[f].javaType
  {
    var isList := f in reg.lists && reg.lists[f] == c;
    AnnotatedField(DeclaredType(f, c, reg, doChop, reg.info[f].javaType), f, isList, Accessor(f, reg))
  }

  /** `write_file(@field_info[c]) == true`: a key without field details (the
      top-level class) is written; otherwise its write flag decides. */
  predicate WriteFile(c: string, reg: Registry) {
    c !in reg.info || reg.info[c].writeClassFile
  }

  /** The imports follow from the fields. */
  function Assemble(name: string, fields: seq<FieldView>, written: bool): (v: ClassView)
    ensures v.fields == fields && v.className == name && v.written == written
    ensures v.listImport <==> exists i :: 0 <= i < |fields| && fields[i].isList
    ensures v.propertyImport <==> exists i :: 0 <= i < |fields| && fields[i].jsonProperty
    ensures v.serializeImport <==> exists i :: 0 <= i < |fields| && fields[i].jsonSerialize
  {
    ClassView(name, fields,
      exists i :: 0 <= i < |fields| && fields[i].isList,
      exists i :: 0 <= i < |fields| && fields[i].jsonProperty,
      exists i :: 0 <= i < |fields| && fields[i].jsonSerialize,
      written)
  }

  /** The field list of `c`, empty when `c` owns none. */
  function FieldsOf(c: string, reg: Registry): seq<string> {
    if c in reg.fields then reg.fields[c] else []
  }

  /** `java_class_output(c, _)` */
  function RenderClass(c: string, reg: Registry, doChop: bool): (v: ClassView)
    requires reg.Valid()
    ensures |v.fields| == |FieldsOf(c, reg)|
    ensures forall i :: 0 <= i < |v.fields| ==> v.fields[i] == RenderField(FieldsOf(c, reg)[i], c, reg, doChop)
    ensures v.listImport <==> exists i :: 0 <= i < |v.fields| && v.fields[i].isList
    ensures v.propertyImport <==> exists i :: 0 <= i < |v.fields| && v.fields[i].jsonProperty
    ensures v.serializeImport <==> exists i :: 0 <= i < |v.fields| && v.fields[i].jsonSerialize
  {
    var fs := FieldsOf(c, reg);
    Assemble(ProperClassName(c, reg, doChop),
             seq(|fs|, i requires 0 <= i < |fs| => RenderField(fs[i], c, reg, doChop)),
             WriteFile(c, reg))
  }

  /** `@java_classes.each { … java_class_output … }`: every class, in the
      order its key was first registered. */
  function RenderAll(reg: Registry, doChop: bool): (vs: seq<ClassView>)
    requires reg.Valid()
    ensures |vs| == |reg.classOrder|
    ensures forall i :: 0 <= i < |vs| ==> vs[i] == RenderClass(reg.classOrder[i], reg, doChop)
  {
    seq(|reg.classOrder|, i requires 0 <= i < |reg.classOrder| => RenderClass(reg.classOrder[i], reg, doChop))
  }
}

=== FILE: render_facts.dfy ===
/** What the rendering decisions mean, and how they follow from the walk. */
module RenderFacts {
  import opened Wrappers
  import opened Json
  import opened Names
  import opened Registry
  import opened Walk
  import opened WalkFrame
  import opened WalkFacts
  import opened WalkDetails
  import opened InferFacts
  import opened Render

  // ---------------------------------------------------------------- accessors

  /** For a key that owns no fields and does not start with `-`, the
      accessor suffix is the Java field name with its first letter
      upper-cased. */
  lemma AccessorCapitalisesField(f: string, c: string, reg: Registry, doChop: bool)
    requires f in reg.info && f !in reg.fields && (|f| == 0 || f[0] != '-')
    ensures RenderField(f, c, reg, doChop).accessor == Capitalise(RenderField(f, c, reg, doChop).javaField)
  {
    MethodNameCapitalisesFieldName(f);
  }

  // ---------------------------------------------------------------- which files are written

  /** The top-level class is rendered first, under its own class name, and
      its file is written, unless some key of the document has the same
      name. */
  lemma TopLevelWritten(root: Json, top: string, doChop: bool)
    requires root.JObj? && Infer(root, top, doChop).Success?
    requires top !in Keys(root)
    ensures var reg := Infer(root, top, doChop).value;
            var vs := RenderAll(reg, doChop);
            && |vs| > 0 && vs[0] == RenderClass(top, reg, doChop)
            && vs[0].className == ToJavaClassName(top) && vs[0].written
  {
    var reg := Infer(root, top, doChop).value;
    InferOrder(root, top, doChop);
    InferTables(top, root, top, doChop);
    KeysOfWithin(ListTable, top, root);
    KeysOfWithin(InfoTable, top, root);
  }

  /** A top-level key holding an array of values (not objects) gets no
      class file, whatever its first element resolves to; a top-level key
      holding an object gets one. Both hold for the key's last occurrence
      in the document walk. */
  lemma MemberFileWritten(root: Json, top: string, doChop: bool, i: nat)
    requires root.JObj? && Infer(root, top, doChop).Success?
    requires i < |root.members| && root.members[i].key !in MembersKeys(root, i + 1)
    ensures var m := root.members[i];
            var reg := Infer(root, top, doChop).value;
            && (m.value.JObj? ==> WriteFile(m.key, reg))
            && (m.value.JArr? && !FirstElement(m.value).JArr? && !FirstElement(m.value).JObj?
                ==> !WriteFile(m.key, reg))
  {
    InferDetails(root, top, doChop, i);
  }

  // ---------------------------------------------------------------- fields of the top-level class

  /** A member whose value `Selects` table `t` puts its key in that table's
      key set. */
  lemma {:induction false} MemberMarked(t: Table, obj: Json, j: nat, i: nat)
    requires obj.JObj? && j <= i < |obj.members| && Selects(t, obj.members[i].value)
    decreases i - j
    ensures obj.members[i].key in KeysOfFrom(t, obj, j)
  {
    if j < i {
      MemberMarked(t, obj, j + 1, i);
    }
  }

  /** The top-level class renders one field per top-level key, in document
      order; field `i` is field `i` of the document. */
  lemma TopFields(root: Json, top: string, doChop: bool, i: nat)
    requires root.JObj? && Infer(root, top, doChop).Success? && top !in Keys(root) && i < |root.members|
    ensures var reg := Infer(root, top, doChop).value;
            var v := RenderClass(top, reg, doChop);
            && root.members[i].key in reg.info
            && |v.fields| == |root.members|
            && v.fields[i] == RenderField(root.members[i].key, top, reg, doChop)
  {
    InferFieldOrder(root, top, doChop);
  }

  /** A top-level scalar member, whose key is not reused for a list or an
      owner of fields, is declared with its scalar type. */
  lemma TopScalarField(root: Json, top: string, doChop: bool, i: nat)
    requires root.JObj? && Infer(root, top, doChop).Success? && top !in Keys(root) && i < |root.members|
    requires var m := root.members[i];
             && !m.value.JArr? && !m.value.JObj? && m.key !in MembersKeys(root, i + 1)
             && m.key !in KeysOf(OwnerTable, root) && m.key !in KeysOf(ListTable, root)
    ensures var m := root.members[i];
            var fs := RenderClass(top, Infer(root, top, doChop).value, doChop).fields;
            && i < |fs|
            && fs[i].javaType == ScalarTypeName(m.value) && !fs[i].isList
            && fs[i].javaField == ToJavaFieldName(m.key) && fs[i].accessor == ToJavaMethodName(m.key)
  {
    var m := root.members[i];
    TopFields(root, top, doChop, i);
    InferDetails(root, top, doChop, i);
    InferTables(m.key, root, top, doChop);
    KeysOfWithin(InfoTable, m.key, root);
    var reg := Infer(root, top, doChop).value;
    assert m.key != top && m.key !in reg.fields && m.key !in reg.lists;
  }

  /** A top-level array of values is declared as a list of its first
      element's type (`UNKNOWN` for an empty array), and no class file is
      written for it. */
  lemma TopValueListField(root: Json, top: string, doChop: bool, i: nat)
    requires root.JObj? && Infer(root, top, doChop).Success? && top !in Keys(root) && i < |root.members|
    requires var m := root.members[i];
             && m.value.JArr? && !FirstElement(m.value).JObj?
             && m.key !in Keys(m.value) && m.key !in MembersKeys(root, i + 1)
    ensures var m := root.members[i];
            var reg := Infer(root, top, doChop).value;
            var fs := RenderClass(top, reg, doChop).fields;
            && i < |fs|
            && fs[i].javaType == "List<" + TypeName(FirstElement(m.value), m.key, doChop) + ">" && fs[i].isList
            && fs[i].javaField == ToJavaFieldName(m.key)
            && m.key in reg.classes && (!FirstElement(m.value).JArr? ==> !WriteFile(m.key, reg))
  {
    TopFields(root, top, doChop, i);
    InferDetails(root, top, doChop, i);
    InferContainerParent(root, top, doChop, i);
  }

  /** A top-level array of objects is declared as a list of the class
      generated for its elements, and that class file is written. */
  lemma TopObjectListField(root: Json, top: string, doChop: bool, i: nat)
    requires root.JObj? && Infer(root, top, doChop).Success? && top !in Keys(root) && i < |root.members|
    requires var m := root.members[i];
             && m.value.JArr? && |m.value.elems| > 0 && m.value.elems[0].JObj?
             && m.key !in Keys(m.value) && m.key !in MembersKeys(root, i + 1)
    ensures var m := root.members[i];
            var reg := Infer(root, top, doChop).value;
            var fs := RenderClass(top, reg, doChop).fields;
            && i < |fs|
            && fs[i].javaType == "List<" + ProperClassName(m.key, reg, doChop) + ">" && fs[i].isList
            && fs[i].javaField == ToJavaFieldName(m.key)
            && m.key in reg.classes && WriteFile(m.key, reg)
  {
    var m := root.members[i];
    TopFields(root, top, doChop, i);
    InferDetails(root, top, doChop, i);
    InferContainerParent(root, top, doChop, i);
    MemberMarked(OwnerTable, root, 0, i);
    InferTables(m.key, root, top, doChop);
  }

  /** A top-level object is declared with the name of the class generated
      for it, and that class file is written. */
  lemma TopObjectField(root: Json, top: string, doChop: bool, i: nat)
    requires root.JObj? && Infer(root, top, doChop).Success? && top !in Keys(root) && i < |root.members|
    requires var m := root.members[i];
             && m.value.JObj? && m.key !in Keys(m.value) && m.key !in MembersKeys(root, i + 1)
             && m.key !in KeysOf(ListTable, root)
    ensures var m := root.members[i];
            var reg := Infer(root, top, doChop).value;
            var fs := RenderClass(top, reg, doChop).fields;
            && i < |fs|
            && fs[i].javaType == ToJavaClassName(m.key) && !fs[i].isList
            && fs[i].javaField == ToJavaFieldName(m.key)
            && m.key in reg.classes && WriteFile(m.key, reg)
  {
    var m := root.members[i];
    TopFields(root, top, doChop, i);
    InferDetails(root, top, doChop, i);
    InferContainerParent(root, top, doChop, i);
    MemberMarked(OwnerTable, root, 0, i);
    InferTables(m.key, root, top, doChop);
  }

  // ---------------------------------------------------------------- classes one level down

  /** The classes rendered are the top-level class and every key that
      holds an object or an array somewhere in the document. */
  lemma RenderedClasses(root: Json, top: string, doChop: bool, c: string)
    requires root.JObj? && Infer(root, top, doChop).Success?
    ensures var reg := Infer(root, top, doChop).value;
            c in reg.classOrder <==> c == top || c in KeysOf(ClassTable, root)
  {
    InferTables(c, root, top, doChop);
  }

  /** The class of a top-level key that owns fields is named after the key,
      chopped when the key holds an array and chopping is on, and its file
      is written. */
  lemma OwnedClass(root: Json, top: string, doChop: bool, i: nat)
    requires root.JObj? && Infer(root, top, doChop).Success? && i < |root.members|
    requires var m := root.members[i];
             && HasOwnObject(m.value) && m.key !in Keys(m.value) && m.key !in MembersKeys(root, i + 1)
             && (m.value.JObj? ==> m.key !in KeysOf(ListTable, root))
    ensures var m := root.members[i];
            var reg := Infer(root, top, doChop).value;
            var v := RenderClass(m.key, reg, doChop);
            && v.className == ChopIf(doChop && m.value.JArr?, ToJavaClassName(m.key))
            && v.written
  {
    var m := root.members[i];
    InferDetails(root, top, doChop, i);
    InferContainerParent(root, top, doChop, i);
    InferTables(m.key, root, top, doChop);
  }

  /** The class of a top-level key that owns fields renders one field per
      key of its object, in document order. */
  lemma OwnedFields(root: Json, top: string, doChop: bool, i: nat, j: nat)
    requires root.JObj? && Infer(root, top, doChop).Success? && i < |root.members|
    requires var m := root.members[i];
             && HasOwnObject(m.value) && m.key != top && m.key !in Keys(m.value) && m.key !in MembersKeys(root, i + 1)
             && j < |OwnObject(m.value).members|
    ensures var m := root.members[i];
            var o := OwnObject(m.value);
            var reg := Infer(root, top, doChop).value;
            var v := RenderClass(m.key, reg, doChop);
            && o.members[j].key in reg.info
            && |v.fields| == |o.members|
            && v.fields[j] == RenderField(o.members[j].key, m.key, reg, doChop)
  {
    var m := root.members[i];
    var reg := Infer(root, top, doChop).value;
    InferObjectFields(root, top, doChop, i);
    MemberKeysFrom(OwnObject(m.value).members, 0);
    assert OwnObject(m.value).members[j].key in reg.fields[m.key];
  }

  /** A scalar one level down, whose key is not reused for a list or an
      owner of fields, is declared with its scalar type. */
  lemma OwnedScalarField(root: Json, top: string, doChop: bool, i: nat, j: nat)
    requires root.JObj? && Infer(root, top, doChop).Success? && top !in Keys(root) && i < |root.members|
    requires var m := root.members[i];
             && HasOwnObject(m.value) && m.key !in Keys(m.value) && m.key !in MembersKeys(root, i + 1)
             && j < |OwnObject(m.value).members|
             && var n := OwnObject(m.value).members[j];
             && !n.value.JArr? && !n.value.JObj? && n.key != m.key
             && n.key !in MembersKeys(OwnObject(m.value), j + 1) && n.key !in MembersKeys(root, i + 1)
             && n.key !in KeysOf(OwnerTable, root) && n.key !in KeysOf(ListTable, root)
    ensures var m := root.members[i];
            var n := OwnObject(m.value).members[j];
            var fs := RenderClass(m.key, Infer(root, top, doChop).value, doChop).fields;
            && j < |fs|
            && fs[j].javaType == ScalarTypeName(n.value) && !fs[j].isList
            && fs[j].javaField == ToJavaFieldName(n.key) && fs[j].accessor == ToJavaMethodName(n.key)
  {
    var m := root.members[i];
    var n := OwnObject(m.value).members[j];
    var reg := Infer(root, top, doChop).value;
    MemberMarked(InfoTable, root, 0, i);
    KeysOfWithin(InfoTable, m.key, root);
    OwnedFields(root, top, doChop, i, j);
    InferNestedDetails(root, top, doChop, i, j);
    InferTables(n.key, root, top, doChop);
    KeysOfWithin(InfoTable, n.key, root);
    assert n.key != top && n.key !in reg.fields && n.key !in reg.lists;
  }
}

=== FILE: walk.dfy ===
/** The schema-inference walk: `get_java_type`, `process_array` and
    `setup_data`, a mutual recursion over the JSON tree that threads the
    registry through every call. */
module Walk {
  import opened Wrappers
  import opened Json
  import opened Names
  import opened Registry

  /** `setup_data` was handed something that is not a Hash (`nil`, `true`,
      `false` or a Bignum), so `hash.each` raises; `key` names the field. */
  datatype Error = NotAnObject(key: string)

  const Unknown: string := "UNKNOWN"

  /** The type `get_java_type` gives a value that is not an array. There is
      no boolean branch, so booleans, null and objects fall to "UNKNOWN". */
  function ScalarTypeName(v: Json): string {
    match v
    case JInt(n) => if IsFixnum(n) then "Long" else Unknown
    case JFloat => "Double"
    case JStr(_) => "String"
    case _ => Unknown
  }

  // ---------------------------------------------------------------- reference definitions

  /** The type string of `v`, computed from the value alone. */
  function TypeName(v: Json, key: string, doChop: bool): (t: string)
    ensures v.JArr? ==> |t| >= 6 && t[..5] == "List<" && t[|t| - 1] == '>'
    ensures t != Unknown <== v.JArr?
  {
    match v
    case JArr(es) =>
      var inner := if |es| == 0 then Unknown else TypeName(es[0], key, doChop);
      var elem := if inner == Unknown then ChopIf(doChop, ToJavaClassName(key)) else inner;
      var t := "List<" + elem + ">";
      assert t[0] == 'L' && Unknown[0] == 'U';
      t
    case _ => ScalarTypeName(v)
  }

  /** The `write_class_file` flag left behind by `get_java_type(v)`: true
      exactly when some nested array level had to synthesise a class. */
  function WriteFlag(v: Json): bool {
    match v
    case JArr(es) =>
      if |es| == 0 then true
      else if es[0].JArr? then WriteFlag(es[0])
      else ScalarTypeName(es[0]) == Unknown
    case _ => false
  }

  /** `get_java_type(v)` raises: the innermost array level has no first
      element, or one that resolves to "UNKNOWN" without being an object, or
      an object whose walk raises. */
  predicate TypeFails(v: Json)
    decreases v, 0, 0
  {
    match v
    case JArr(es) =>
      if |es| == 0 then true
      else if es[0].JArr? then TypeFails(es[0])
      else if ScalarTypeName(es[0]) != Unknown then false
      else if es[0].JObj? then ObjectFails(es[0], 0)
      else true
    case _ => false
  }

  /** Walking the members of `obj` from index `i` on raises. */
  predicate ObjectFails(obj: Json, i: nat)
    requires obj.JObj?
    decreases obj, 1, |obj.members| - i
  {
    if i >= |obj.members| then false
    else MemberFails(obj.members[i].value) || ObjectFails(obj, i + 1)
  }

  /** Handling one member value raises. */
  predicate MemberFails(v: Json)
    decreases v, 2, 0
  {
    match v
    case JArr(es) =>
      |es| > 0 && (if es[0].JObj? then ObjectFails(es[0], 0) else TypeFails(es[0]))
    case JObj(_) => ObjectFails(v, 0)
    case _ => false
  }

  /** The tables whose key set the walk extends: `@java_classes`,
      `@java_lists`, `@field_info` and `@java_fields`. */
  datatype Table = ClassTable | ListTable | InfoTable | OwnerTable

  /** The key set of one table. */
  function Dom(reg: Registry, t: Table): set<string> {
    match t
    case ClassTable => reg.classes.Keys
    case ListTable => reg.lists.Keys
    case InfoTable => reg.info.Keys
    case OwnerTable => reg.fields.Keys
  }

  /** The innermost first element of `v` (through nested arrays) is an
      object, so the walk calls `setup_data` on it with the key as parent. */
  predicate OwnsFields(v: Json) {
    match v
    case JObj(_) => true
    case JArr(es) => |es| > 0 && OwnsFields(es[0])
    case _ => false
  }

  /** Which member values put their key in which table: `@java_classes`
      gets every object or array value, `@java_lists` every array value,
      `@field_info` every key, and `@java_fields` every key that ends up as
      a parent. */
  predicate Selects(t: Table, v: Json) {
    match t
    case ClassTable => v.JObj? || v.JArr?
    case ListTable => v.JArr?
    case InfoTable => true
    case OwnerTable => OwnsFields(v)
  }

  function Mark(t: Table, key: string, v: Json): set<string> {
    if Selects(t, v) then {key} else {}
  }

  /** The keys inside `v` that the walk adds to table `t`. */
  function KeysOf(t: Table, v: Json): set<string>
    decreases v, 1
  {
    match v
    case JObj(_) => KeysOfFrom(t, v, 0)
    case JArr(es) => if |es| == 0 then {} else KeysOf(t, es[0])
    case _ => {}
  }

  function KeysOfFrom(t: Table, obj: Json, i: nat): set<string>
    requires obj.JObj?
    decreases obj, 0, |obj.members| - i
  {
    if i >= |obj.members| then {}
    else Mark(t, obj.members[i].key, obj.members[i].value)
         + KeysOf(t, obj.members[i].value) + KeysOfFrom(t, obj, i + 1)
  }

  // ---------------------------------------------------------------- the walk

  /** Result of `get_java_type`: the type string, the `write_class_file`
      flag it leaves on the field details, and the registry. */
  datatype Typed = Typed(javaType: string, write: bool, reg: Registry)

  /** Details built for one member, with the registry after its recursion. */
  datatype Processed = Processed(details: FieldDetails, reg: Registry)

  /** `get_java_type(value, field_details, key)` */
  function GetJavaType(v: Json, key: string, doChop: bool, reg: Registry): (r: Result<Typed, Error>)
    requires reg.Valid()
    decreases v, 0, 0
    ensures r.Success? <==> !TypeFails(v)
    ensures r.Success? ==> r.value.javaType == TypeName(v, key, doChop) && r.value.write == WriteFlag(v)
    ensures r.Success? ==> r.value.reg.Valid() && FieldsKept(reg, r.value.reg)
    ensures !v.JArr? ==> r == Success(Typed(ScalarTypeName(v), false, reg))
  {
    match v
    case JArr(es) =>
      var inner :-
        if |es| == 0 then Success(Typed(ScalarTypeName(JNull), false, reg))
        else GetJavaType(es[0], key, doChop, reg);
      if inner.javaType == Unknown then
        var name := ChopIf(doChop, ToJavaClassName(key));
        if |es| > 0 && es[0].JObj? then
          var reg' :- SetupData(es[0], key, doChop, inner.reg);
          Success(Typed("List<" + name + ">", true, reg'))
        else
          Failure(NotAnObject(key))
      else
        Success(Typed("List<" + inner.javaType + ">", inner.write, inner.reg))
    case _ => Success(Typed(ScalarTypeName(v), false, reg))
  }

  /** `process_array(value, field_details, key, parent)`: registers `key` as
      a class and as a list owned by `parent`, then looks at element 0 only. */
  function ProcessArray(arr: Json, key: string, parent: string, doChop: bool, reg: Registry): (r: Result<Processed, Error>)
    requires arr.JArr? && reg.Valid()
    decreases arr, 0, 0
    ensures r.Success? <==> !MemberFails(arr)
    ensures r.Success? ==> r.value.reg.Valid() && FieldsKept(reg, r.value.reg)
  {
    var es := arr.elems;
    var reg1 := reg.AddClass(key, parent).(lists := reg.lists[key := parent]);
    if |es| > 0 && es[0].JObj? then
      var reg2 :- SetupData(es[0], key, doChop, reg1);
      Success(Processed(FieldDetails(parent, "Array", key, None, true), reg2))
    else
      var t :-
        if |es| == 0 then Success(Typed(ScalarTypeName(JNull), false, reg1))
        else GetJavaType(es[0], key, doChop, reg1);
      Success(Processed(FieldDetails(parent, "Array", key, Some(t.javaType), t.write), t.reg))
  }

  /** The branch of the `hash.each` loop of `setup_data` that handles one
      member value: an array, an object (registered as a class of its own,
      then walked), or anything else (resolved by `get_java_type`). */
  function ProcessValue(v: Json, key: string, parent: string, doChop: bool, reg: Registry): (r: Result<Processed, Error>)
    requires reg.Valid()
    decreases v, 3, 0
    ensures r.Success? <==> !MemberFails(v)
    ensures r.Success? ==> r.value.reg.Valid() && FieldsKept(reg, r.value.reg)
    ensures r.Success? ==> r.value.details.parent == parent && r.value.details.fieldName == key
  {
    match v
    case JArr(_) => ProcessArray(v, key, parent, doChop, reg)
    case JObj(_) =>
      var reg' :- SetupData(v, key, doChop, reg.AddClass(key, parent));
      Success(Processed(FieldDetails(parent, "Hash", key, None, true), reg'))
    case _ =>
      var t := GetJavaType(v, key, doChop, reg).value;
      Success(Processed(FieldDetails(parent, t.javaType, key, None, t.write), t.reg))
  }

  /** One iteration of the `hash.each` loop of `setup_data`. The field
      details are stored, and the key appended to the parent's field list,
      only after the recursion has returned. */
  function ProcessMember(obj: Json, i: nat, parent: string, doChop: bool, reg: Registry): (r: Result<Registry, Error>)
    requires obj.JObj? && i < |obj.members| && reg.Valid() && parent in reg.fields
    decreases obj, 0, 0
    ensures r.Success? <==> !MemberFails(obj.members[i].value)
    ensures r.Success? ==> r.value.Valid() && FieldsKept(reg, r.value) && parent in r.value.fields
  {
    var m := obj.members[i];
    var p :- ProcessValue(m.value, m.key, parent, doChop, reg);
    Success(p.reg.(info := p.reg.info[m.key := p.details],
                   fields := p.reg.fields[parent := p.reg.fields[parent] + [m.key]]))
  }

  /** The `hash.each` loop of `setup_data`, from member `i` on. */
  function SetupMembers(obj: Json, i: nat, parent: string, doChop: bool, reg: Registry): (r: Result<Registry, Error>)
    requires obj.JObj? && i <= |obj.members| && reg.Valid() && parent in reg.fields
    decreases obj, 1, |obj.members| - i
    ensures r.Success? <==> !ObjectFails(obj, i)
    ensures r.Success? ==> r.value.Valid() && FieldsKept(reg, r.value) && parent in r.value.fields
  {
    if i == |obj.members| then Success(reg)
    else
      var reg' :- ProcessMember(obj, i, parent, doChop, reg);
      SetupMembers(obj, i + 1, parent, doChop, reg')
  }

  /** `setup_data(hash, parent)`: resets the parent's field list, then
      handles every member in document order. */
  function SetupData(obj: Json, parent: string, doChop: bool, reg: Registry): (r: Result<Registry, Error>)
    requires obj.JObj? && reg.Valid()
    decreases obj, 2, 0
    ensures r.Success? <==> !ObjectFails(obj, 0)
    ensures r.Success? ==> r.value.Valid() && FieldsKept(reg, r.value) && parent in r.value.fields
  {
    SetupMembers(obj, 0, parent, doChop, reg.(fields := reg.fields[parent := []]))
  }

  /** The driver: register the top-level class, then walk the document. */
  function Infer(root: Json, top: string, doChop: bool): (r: Result<Registry, Error>)
    requires root.JObj?
    ensures r.Success? <==> !ObjectFails(root, 0)
    ensures r.Success? ==> r.value.Valid() && top in r.value.fields
  {
    SetupData(root, top, doChop, Empty.AddClass(top, TopLevelParent))
  }
}

=== FILE: walk_details.dfy ===
/** What the walk records for each key: the field details, the parent of a
    container key, and the field list of a class. */
module WalkDetails {
  import opened Wrappers
  import opened Json
  import opened Registry
  import opened Walk
  import opened WalkSteps
  import opened WalkFrame

  /** The details `setup_data` builds for a member whose value is `v`,
      computed from the value alone. */
  function MemberDetails(v: Json, key: string, parent: string, doChop: bool): FieldDetails {
    match v
    case JArr(es) =>
      var e := FirstElement(v);
      if e.JObj? then FieldDetails(parent, "Array", key, None, true)
      else FieldDetails(parent, "Array", key, Some(TypeName(e, key, doChop)), WriteFlag(e))
    case JObj(_) => FieldDetails(parent, "Hash", key, None, true)
    case _ => FieldDetails(parent, ScalarTypeName(v), key, None, false)
  }

  // ---------------------------------------------------------------- the details of one member

  lemma ArrayObjectDetails(arr: Json, key: string, parent: string, doChop: bool, reg: Registry)
    requires arr.JArr? && |arr.elems| > 0 && arr.elems[0].JObj? && reg.Valid()
    requires ProcessArray(arr, key, parent, doChop, reg).Success?
    ensures ProcessArray(arr, key, parent, doChop, reg).value.details == FieldDetails(parent, "Array", key, None, true)
  {}

  lemma ArrayTypedDetails(arr: Json, key: string, parent: string, doChop: bool, reg: Registry)
    requires arr.JArr? && |arr.elems| > 0 && !arr.elems[0].JObj? && reg.Valid()
    requires ProcessArray(arr, key, parent, doChop, reg).Success?
    ensures ListRegistered(reg, key, parent).Valid()
    ensures GetJavaType(arr.elems[0], key, doChop, ListRegistered(reg, key, parent)).Success?
    ensures var t := GetJavaType(arr.elems[0], key, doChop, ListRegistered(reg, key, parent)).value;
            ProcessArray(arr, key, parent, doChop, reg).value.details
              == FieldDetails(parent, "Array", key, Some(t.javaType), t.write)
  {
    AddClassFrame(reg, key, parent, true);
  }

  lemma ArrayEmptyDetails(arr: Json, key: string, parent: string, doChop: bool, reg: Registry)
    requires arr.JArr? && |arr.elems| == 0 && reg.Valid()
    ensures ProcessArray(arr, key, parent, doChop, reg).Success?
    ensures ProcessArray(arr, key, parent, doChop, reg).value.details == FieldDetails(parent, "Array", key, Some(Unknown), false)
  {}

  /** `process_array` leaves the details of the array's own key as the
      reference says. */
  lemma ProcessArrayDetails(arr: Json, key: string, parent: string, doChop: bool, reg: Registry)
    requires arr.JArr? && reg.Valid() && ProcessArray(arr, key, parent, doChop, reg).Success?
    ensures ProcessArray(arr, key, parent, doChop, reg).value.details == MemberDetails(arr, key, parent, doChop)
  {
    if |arr.elems| == 0 {
      ArrayEmptyDetails(arr, key, parent, doChop, reg);
    } else if arr.elems[0].JObj? {
      ArrayObjectDetails(arr, key, parent, doChop, reg);
    } else {
      ArrayTypedDetails(arr, key, parent, doChop, reg);
    }
  }

  /** The details built for one member are the reference details: the
      type, `array_type` and write flag depend on the value alone. */
  lemma ProcessValueDetails(v: Json, key: string, parent: string, doChop: bool, reg: Registry)
    requires reg.Valid() && ProcessValue(v, key, parent, doChop, reg).Success?
    ensures ProcessValue(v, key, parent, doChop, reg).value.details == MemberDetails(v, key, parent, doChop)
  {
    if v.JArr? {
      ValueArrayStep(v, key, parent, doChop, reg);
      ProcessArrayDetails(v, key, parent, doChop, reg);
    }
  }

  /** One step of `hash.each`: the details are stored under the member's
      key AFTER its value was walked, so they replace whatever an inner
      field with the same key stored, and the key is appended to the
      parent's field list as that list stands after the walk. */
  lemma ProcessMemberStores(obj: Json, i: nat, parent: string, doChop: bool, reg: Registry)
    requires obj.JObj? && i < |obj.members| && reg.Valid() && parent in reg.fields
    requires ProcessMember(obj, i, parent, doChop, reg).Success?
    ensures var m := obj.members[i];
            var p := ProcessValue(m.value, m.key, parent, doChop, reg).value;
            var r := ProcessMember(obj, i, parent, doChop, reg).value;
            && m.key in r.info && r.info[m.key] == MemberDetails(m.value, m.key, parent, doChop)
            && parent in p.reg.fields && r.fields[parent] == p.reg.fields[parent] + [m.key]
  {
    var m := obj.members[i];
    ProcessValueDetails(m.value, m.key, parent, doChop, reg);
  }

  // ---------------------------------------------------------------- the final details of a key

  /** Later members leave alone every key they do not reach. */
  lemma SetupMembersKeeps(k: string, obj: Json, i: nat, parent: string, doChop: bool, reg: Registry)
    requires obj.JObj? && i <= |obj.members| && reg.Valid() && parent in reg.fields
    requires SetupMembers(obj, i, parent, doChop, reg).Success?
    requires k !in MembersKeys(obj, i)
    ensures var r := SetupMembers(obj, i, parent, doChop, reg).value;
            && (k in r.info <==> k in reg.info)
            && (k in reg.info ==> r.info[k] == reg.info[k])
            && (k in r.classes <==> k in reg.classes)
            && (k in reg.classes ==> r.classes[k] == reg.classes[k])
            && (k in r.lists <==> k in reg.lists)
            && (k in reg.lists ==> r.lists[k] == reg.lists[k])
  {
    SetupMembersFrame(obj, i, parent, doChop, reg);
  }

  /** The details of member `i` survive the rest of the loop unless a later
      member reaches the same key: the last write wins. */
  lemma {:induction false} SetupMembersDetails(obj: Json, i: nat, parent: string, doChop: bool, reg: Registry)
    requires obj.JObj? && i < |obj.members| && reg.Valid() && parent in reg.fields
    requires SetupMembers(obj, i, parent, doChop, reg).Success?
    requires obj.members[i].key !in MembersKeys(obj, i + 1)
    ensures var m := obj.members[i];
            var r := SetupMembers(obj, i, parent, doChop, reg).value;
            m.key in r.info && r.info[m.key] == MemberDetails(m.value, m.key, parent, doChop)
  {
    var m := obj.members[i];
    MemberStep(obj, i, parent, doChop, reg);
    var reg' := ProcessMember(obj, i, parent, doChop, reg).value;
    ProcessMemberStores(obj, i, parent, doChop, reg);
    SetupMembersKeeps(m.key, obj, i + 1, parent, doChop, reg');
  }

  // ---------------------------------------------------------------- field lists

  lemma MemberKeysFrom(ms: seq<Member>, i: nat)
    requires i < |ms|
    ensures MemberKeys(ms[i..]) == [ms[i].key] + MemberKeys(ms[i + 1..])
  {
    assert ms[i..][1..] == ms[i + 1..];
  }

  /** One member: its walk does not touch the parent's list (the parent is
      not among the keys it reaches), then its key is appended. */
  lemma MemberAppends(obj: Json, i: nat, parent: string, doChop: bool, reg: Registry)
    requires obj.JObj? && i < |obj.members| && reg.Valid() && parent in reg.fields
    requires ProcessMember(obj, i, parent, doChop, reg).Success?
    requires parent != obj.members[i].key && parent !in Keys(obj.members[i].value)
    ensures ProcessMember(obj, i, parent, doChop, reg).value.fields[parent] == reg.fields[parent] + [obj.members[i].key]
  {
    var m := obj.members[i];
    ProcessMemberStores(obj, i, parent, doChop, reg);
    ProcessValueFrame(m.value, m.key, parent, doChop, reg);
    assert parent !in {m.key} + Keys(m.value);
  }

  lemma MembersKeysCons(k: string, obj: Json, i: nat)
    requires obj.JObj? && i < |obj.members|
    ensures k in MembersKeys(obj, i)
            <==> k == obj.members[i].key || k in Keys(obj.members[i].value) || k in MembersKeys(obj, i + 1)
  {}

  lemma AppendAssoc(a: seq<string>, k: string, ms: seq<Member>, i: nat)
    requires i < |ms|
    ensures a + MemberKeys(ms[i..]) == (a + [k]) + MemberKeys(ms[i + 1..]) <== k == ms[i].key
  {
    MemberKeysFrom(ms, i);
  }

  /** From member `i` on, `hash.each` appends exactly the remaining keys,
      in document order, provided no walked key equals the parent. */
  lemma {:induction false} SetupMembersFieldOrder(obj: Json, i: nat, parent: string, doChop: bool, reg: Registry)
    requires obj.JObj? && i <= |obj.members| && reg.Valid() && parent in reg.fields
    requires SetupMembers(obj, i, parent, doChop, reg).Success?
    requires parent !in MembersKeys(obj, i)
    decreases |obj.members| - i
    ensures var r := SetupMembers(obj, i, parent, doChop, reg).value;
            r.fields[parent] == reg.fields[parent] + MemberKeys(obj.members[i..])
  {
    if i == |obj.members| {
      assert SetupMembers(obj, i, parent, doChop, reg).value == reg;
      assert obj.members[i..] == [];
    } else {
      MemberStep(obj, i, parent, doChop, reg);
      MembersKeysCons(parent, obj, i);
      var reg' := ProcessMember(obj, i, parent, doChop, reg).value;
      MemberAppends(obj, i, parent, doChop, reg);
      SetupMembersFieldOrder(obj, i + 1, parent, doChop, reg');
      AppendAssoc(reg.fields[parent], obj.members[i].key, obj.members, i);
    }
  }

  /** `setup_data(hash, parent)` leaves the parent's field list holding the
      object's keys in document order, one entry each. */
  lemma SetupDataFieldOrder(obj: Json, parent: string, doChop: bool, reg: Registry)
    requires obj.JObj? && reg.Valid() && SetupData(obj, parent, doChop, reg).Success?
    requires parent !in Keys(obj)
    ensures parent in SetupData(obj, parent, doChop, reg).value.fields
    ensures SetupData(obj, parent, doChop, reg).value.fields[parent] == MemberKeys(obj.members)
  {
    var reg0 := reg.(fields := reg.fields[parent := []]);
    ResetFieldsFrame(reg, parent);
    assert SetupData(obj, parent, doChop, reg) == SetupMembers(obj, 0, parent, doChop, reg0);
    SetupMembersFieldOrder(obj, 0, parent, doChop, reg0);
    assert obj.members[0..] == obj.members;
  }

  // ---------------------------------------------------------------- parents of container keys

  /** An object-valued key is registered as a class of `parent` before its
      own walk, which does not overwrite it unless the key recurs inside. */
  lemma ObjectValueParent(v: Json, key: string, parent: string, doChop: bool, reg: Registry)
    requires v.JObj? && reg.Valid() && ProcessValue(v, key, parent, doChop, reg).Success?
    requires key !in Keys(v)
    ensures var r := ProcessValue(v, key, parent, doChop, reg).value.reg;
            && key in r.classes && r.classes[key] == parent
            && (key in r.lists <==> key in reg.lists)
  {
    ValueObjectStep(v, key, parent, doChop, reg);
    AddClassFrame(reg, key, parent, false);
    SetupDataFrame(v, key, doChop, reg.AddClass(key, parent));
  }

  /** A container key (object or array) ends as a class of `parent`, and an
      array key also as a list of `parent`; a scalar key is neither. */
  lemma ContainerParent(v: Json, key: string, parent: string, doChop: bool, reg: Registry)
    requires reg.Valid() && ProcessValue(v, key, parent, doChop, reg).Success?
    requires key !in Keys(v) && key !in reg.classes && key !in reg.lists
    ensures var r := ProcessValue(v, key, parent, doChop, reg).value.reg;
            && (key in r.classes <==> v.JObj? || v.JArr?)
            && ((v.JObj? || v.JArr?) ==> r.classes[key] == parent)
            && (key in r.lists <==> v.JArr?)
            && (v.JArr? ==> r.lists[key] == parent)
  {
    if v.JArr? {
      ValueArrayStep(v, key, parent, doChop, reg);
      ProcessArrayFrame(v, key, parent, doChop, reg);
    } else if v.JObj? {
      ObjectValueParent(v, key, parent, doChop, reg);
    } else {
      ValueScalarStep(v, key, parent, doChop, reg);
    }
  }

  // ---------------------------------------------------------------- the driver

  /** After the whole run, the top-level class's field list holds the
      document's top-level keys in document order, provided the top-level
      class name is not itself a key of the document. */
  lemma InferFieldOrder(root: Json, top: string, doChop: bool)
    requires root.JObj? && Infer(root, top, doChop).Success?
    requires top !in Keys(root)
    ensures Infer(root, top, doChop).value.fields[top] == MemberKeys(root.members)
  {
    var reg0 := Empty.AddClass(top, TopLevelParent);
    SetupDataFieldOrder(root, top, doChop, reg0);
  }

  /** The registry after members `j` up to (not including) `i` of `obj`. */
  function RunMembers(obj: Json, j: nat, i: nat, parent: string, doChop: bool, reg: Registry): (r: Result<Registry, Error>)
    requires obj.JObj? && j <= i <= |obj.members| && reg.Valid() && parent in reg.fields
    decreases i - j
    ensures r.Success? ==> r.value.Valid() && parent in r.value.fields
  {
    if j == i then Success(reg)
    else
      var reg' :- ProcessMember(obj, j, parent, doChop, reg);
      RunMembers(obj, j + 1, i, parent, doChop, reg')
  }

  lemma RunStep(obj: Json, j: nat, i: nat, parent: string, doChop: bool, reg: Registry)
    requires obj.JObj? && j < i <= |obj.members| && reg.Valid() && parent in reg.fields
    requires ProcessMember(obj, j, parent, doChop, reg).Success?
    ensures RunMembers(obj, j, i, parent, doChop, reg)
            == RunMembers(obj, j + 1, i, parent, doChop, ProcessMember(obj, j, parent, doChop, reg).value)
  {}

  /** One iteration of a successful loop. */
  lemma LoopStep(obj: Json, j: nat, parent: string, doChop: bool, reg: Registry)
    requires obj.JObj? && j < |obj.members| && reg.Valid() && parent in reg.fields
    requires SetupMembers(obj, j, parent, doChop, reg).Success?
    ensures ProcessMember(obj, j, parent, doChop, reg).Success?
    ensures SetupMembers(obj, j, parent, doChop, reg)
            == SetupMembers(obj, j + 1, parent, doChop, ProcessMember(obj, j, parent, doChop, reg).value)
  {}

  /** The loop from `j` is the loop up to `i` followed by the loop from `i`. */
  lemma {:induction false} SetupMembersSplit(obj: Json, j: nat, i: nat, parent: string, doChop: bool, reg: Registry)
    requires obj.JObj? && j <= i <= |obj.members| && reg.Valid() && parent in reg.fields
    requires SetupMembers(obj, j, parent, doChop, reg).Success?
    decreases i - j
    ensures RunMembers(obj, j, i, parent, doChop, reg).Success?
    ensures SetupMembers(obj, j, parent, doChop, reg)
            == SetupMembers(obj, i, parent, doChop, RunMembers(obj, j, i, parent, doChop, reg).value)
  {
    if j < i {
      LoopStep(obj, j, parent, doChop, reg);
      RunStep(obj, j, i, parent, doChop, reg);
      var reg' := ProcessMember(obj, j, parent, doChop, reg).value;
      SetupMembersSplit(obj, j + 1, i, parent, doChop, reg');
      var run := RunMembers(obj, j + 1, i, parent, doChop, reg');
      assert RunMembers(obj, j, i, parent, doChop, reg) == run;
      assert SetupMembers(obj, j + 1, parent, doChop, reg') == SetupMembers(obj, i, parent, doChop, run.value);
    } else {
      RunNone(obj, i, parent, doChop, reg);
    }
  }

  /** A run over no member leaves the registry as it is. */
  lemma RunNone(obj: Json, i: nat, parent: string, doChop: bool, reg: Registry)
    requires obj.JObj? && i <= |obj.members| && reg.Valid() && parent in reg.fields
    ensures RunMembers(obj, i, i, parent, doChop, reg) == Success(reg)
  {}

  /** After the whole run, a top-level key that no later member reaches
      holds the reference details: the last write wins. */
  lemma InferDetails(root: Json, top: string, doChop: bool, i: nat)
    requires root.JObj? && Infer(root, top, doChop).Success?
    requires i < |root.members| && root.members[i].key !in MembersKeys(root, i + 1)
    ensures var m := root.members[i];
            var r := Infer(root, top, doChop).value;
            m.key in r.info && r.info[m.key] == MemberDetails(m.value, m.key, top, doChop)
  {
    var reg0 := Empty.AddClass(top, TopLevelParent);
    var reg1 := reg0.(fields := reg0.fields[top := []]);
    ResetFieldsFrame(reg0, top);
    assert Infer(root, top, doChop) == SetupMembers(root, 0, top, doChop, reg1);
    SetupMembersSplit(root, 0, i, top, doChop, reg1);
    SetupMembersDetails(root, i, top, doChop, RunMembers(root, 0, i, top, doChop, reg1).value);
  }
}

=== FILE: walk_facts.dfy ===
/** Properties of the schema walk that relate several calls. */
module WalkFacts {
  import opened Wrappers
  import opened Json
  import opened Names
  import opened Registry
  import opened Walk
  import opened WalkSteps

  // ---------------------------------------------------------------- table domains

  /** What `get_java_type(v, _, key)` adds to table `t`, beyond the keys
      inside `v`: `key` becomes a parent when a nested array synthesises a
      class for its first element. */
  function TypeMark(t: Table, key: string, v: Json): set<string> {
    if t == OwnerTable && OwnsFields(v) then {key} else {}
  }

  // ---------------------------------------------------------------- table domains

  /** `get_java_type` on anything but an object (which it does not walk)
      adds exactly the keys of the reachable nested objects. */
  lemma {:induction false} GetJavaTypeAdds(t: Table, k: string, v: Json, key: string, doChop: bool, reg: Registry)
    requires reg.Valid() && !v.JObj? && GetJavaType(v, key, doChop, reg).Success?
    decreases v, 0, 1
    ensures k in Dom(GetJavaType(v, key, doChop, reg).value.reg, t) <==> k in Dom(reg, t) + TypeMark(t, key, v) + KeysOf(t, v)
  {
    if v.JArr? {
      var e := v.elems[0];
      if e.JArr? {
        NestedArrayAdds(t, k, v, key, doChop, reg);
      } else if e.JObj? {
        ObjectElementAdds(t, k, v, key, doChop, reg);
      } else {
        ScalarTypeStep(v, key, doChop, reg);
        assert !OwnsFields(e) && !OwnsFields(v);
        assert k !in KeysOf(t, v) && k !in TypeMark(t, key, v);
      }
    } else {
      assert GetJavaType(v, key, doChop, reg).value.reg == reg;
    }
  }

  lemma {:induction false} NestedArrayAdds(t: Table, k: string, v: Json, key: string, doChop: bool, reg: Registry)
    requires reg.Valid() && v.JArr? && |v.elems| > 0 && v.elems[0].JArr?
    requires GetJavaType(v, key, doChop, reg).Success?
    decreases v, 0, 0
    ensures k in Dom(GetJavaType(v, key, doChop, reg).value.reg, t) <==> k in Dom(reg, t) + TypeMark(t, key, v) + KeysOf(t, v)
  {
    var e := v.elems[0];
    NestedArrayStep(v, key, doChop, reg);
    GetJavaTypeAdds(t, k, e, key, doChop, reg);
    assert k in KeysOf(t, v) <==> k in KeysOf(t, e);
    assert OwnsFields(v) == OwnsFields(e);
  }

  lemma {:induction false} ObjectElementAdds(t: Table, k: string, v: Json, key: string, doChop: bool, reg: Registry)
    requires reg.Valid() && v.JArr? && |v.elems| > 0 && v.elems[0].JObj?
    requires GetJavaType(v, key, doChop, reg).Success?
    decreases v, 0, 0
    ensures k in Dom(GetJavaType(v, key, doChop, reg).value.reg, t) <==> k in Dom(reg, t) + TypeMark(t, key, v) + KeysOf(t, v)
  {
    var e := v.elems[0];
    ObjectElementStep(v, key, doChop, reg);
    SetupDataAdds(t, k, e, key, doChop, reg);
    assert k in KeysOf(t, v) <==> k in KeysOf(t, e);
    assert OwnsFields(v);
  }

  lemma {:induction false} ProcessArrayAdds(t: Table, k: string, arr: Json, key: string, parent: string, doChop: bool, reg: Registry)
    requires arr.JArr? && reg.Valid() && ProcessArray(arr, key, parent, doChop, reg).Success?
    decreases arr, 0, 3
    ensures k in Dom(ProcessArray(arr, key, parent, doChop, reg).value.reg, t) <==> k in Dom(reg, t) + (if t == InfoTable then {} else Mark(t, key, arr)) + KeysOf(t, arr)
  {
    var reg1 := ListRegistered(reg, key, parent);
    AddClassFrame(reg, key, parent, true);
    assert k in Dom(reg1, t) <==> k in Dom(reg, t) + (if t == ClassTable || t == ListTable then {key} else {});
    assert t != OwnerTable ==> Selects(t, arr);
    ArrayElementAdds(t, k, arr, key, parent, doChop, reg);
  }

  /** What `process_array` adds after registering the array's own key. */
  lemma {:induction false} ArrayElementAdds(t: Table, k: string, arr: Json, key: string, parent: string, doChop: bool, reg: Registry)
    requires arr.JArr? && reg.Valid() && ProcessArray(arr, key, parent, doChop, reg).Success?
    decreases arr, 0, 2
    ensures ListRegistered(reg, key, parent).Valid()
    ensures k in Dom(ProcessArray(arr, key, parent, doChop, reg).value.reg, t)
            <==> k in Dom(ListRegistered(reg, key, parent), t) + (if t == OwnerTable && OwnsFields(arr) then {key} else {}) + KeysOf(t, arr)
  {
    AddClassFrame(reg, key, parent, true);
    if |arr.elems| == 0 {
      ArrayEmptyStep(arr, key, parent, doChop, reg);
      assert k !in KeysOf(t, arr) && !OwnsFields(arr);
      assert ProcessArray(arr, key, parent, doChop, reg).value.reg == ListRegistered(reg, key, parent);
    } else if arr.elems[0].JObj? {
      ArrayObjectAdds(t, k, arr, key, parent, doChop, reg);
    } else {
      ArrayTypeAdds(t, k, arr, key, parent, doChop, reg);
    }
  }

  lemma {:induction false} ArrayObjectAdds(t: Table, k: string, arr: Json, key: string, parent: string, doChop: bool, reg: Registry)
    requires arr.JArr? && |arr.elems| > 0 && arr.elems[0].JObj? && reg.Valid()
    requires ProcessArray(arr, key, parent, doChop, reg).Success?
    decreases arr, 0, 1
    ensures k in Dom(ProcessArray(arr, key, parent, doChop, reg).value.reg, t)
            <==> k in Dom(ListRegistered(reg, key, parent), t) + (if t == OwnerTable && OwnsFields(arr) then {key} else {}) + KeysOf(t, arr)
  {
    var e := arr.elems[0];
    assert OwnsFields(arr);
    ArrayObjectStep(arr, key, parent, doChop, reg);
    assert k in KeysOf(t, arr) <==> k in KeysOf(t, e);
    SetupDataAdds(t, k, e, key, doChop, ListRegistered(reg, key, parent));
  }

  lemma {:induction false} ArrayTypeAdds(t: Table, k: string, arr: Json, key: string, parent: string, doChop: bool, reg: Registry)
    requires arr.JArr? && |arr.elems| > 0 && !arr.elems[0].JObj? && reg.Valid()
    requires ProcessArray(arr, key, parent, doChop, reg).Success?
    decreases arr, 0, 1
    ensures k in Dom(ProcessArray(arr, key, parent, doChop, reg).value.reg, t)
            <==> k in Dom(ListRegistered(reg, key, parent), t) + (if t == OwnerTable && OwnsFields(arr) then {key} else {}) + KeysOf(t, arr)
  {
    var e := arr.elems[0];
    ArrayTypeStep(arr, key, parent, doChop, reg);
    assert k in KeysOf(t, arr) <==> k in KeysOf(t, e);
    assert OwnsFields(arr) == OwnsFields(e);
    GetJavaTypeAdds(t, k, e, key, doChop, ListRegistered(reg, key, parent));
  }

  lemma {:induction false} ProcessValueAdds(t: Table, k: string, v: Json, key: string, parent: string, doChop: bool, reg: Registry)
    requires reg.Valid() && ProcessValue(v, key, parent, doChop, reg).Success?
    decreases v, 3, 0
    ensures k in Dom(ProcessValue(v, key, parent, doChop, reg).value.reg, t) <==> k in Dom(reg, t) + (if t == InfoTable then {} else Mark(t, key, v)) + KeysOf(t, v)
  {
    if v.JArr? {
      ValueArrayStep(v, key, parent, doChop, reg);
      ProcessArrayAdds(t, k, v, key, parent, doChop, reg);
    } else if v.JObj? {
      var reg1 := reg.AddClass(key, parent);
      ValueObjectStep(v, key, parent, doChop, reg);
      AddClassFrame(reg, key, parent, false);
      assert k in Dom(reg1, t) <==> k in Dom(reg, t) + (if t == ClassTable then {key} else {});
      assert OwnsFields(v) && (Selects(t, v) <==> t != ListTable);
      SetupDataAdds(t, k, v, key, doChop, reg1);
    } else {
      ValueScalarStep(v, key, parent, doChop, reg);
      assert k !in KeysOf(t, v) && !OwnsFields(v);
      assert t != InfoTable ==> !Selects(t, v);
    }
  }

  lemma {:induction false} SetupMembersAdds(t: Table, k: string, obj: Json, i: nat, parent: string, doChop: bool, reg: Registry)
    requires obj.JObj? && i <= |obj.members| && reg.Valid() && parent in reg.fields
    requires SetupMembers(obj, i, parent, doChop, reg).Success?
    decreases obj, 1, |obj.members| - i
    ensures k in Dom(SetupMembers(obj, i, parent, doChop, reg).value, t) <==> k in Dom(reg, t) + KeysOfFrom(t, obj, i)
  {
    if i < |obj.members| {
      var m := obj.members[i];
      MemberStep(obj, i, parent, doChop, reg);
      var p := ProcessValue(m.value, m.key, parent, doChop, reg).value;
      var reg' := ProcessMember(obj, i, parent, doChop, reg).value;
      ProcessValueAdds(t, k, m.value, m.key, parent, doChop, reg);
      assert k in Dom(reg', t) <==> k in Dom(p.reg, t) + (if t == InfoTable then {m.key} else {});
      SetupMembersAdds(t, k, obj, i + 1, parent, doChop, reg');
    } else {
      assert SetupMembers(obj, i, parent, doChop, reg).value == reg;
    }
  }

  lemma {:induction false} SetupDataAdds(t: Table, k: string, obj: Json, parent: string, doChop: bool, reg: Registry)
    requires obj.JObj? && reg.Valid() && SetupData(obj, parent, doChop, reg).Success?
    decreases obj, 2, 0
    ensures k in Dom(SetupData(obj, parent, doChop, reg).value, t) <==> k in Dom(reg, t) + (if t == OwnerTable then {parent} else {}) + KeysOf(t, obj)
  {
    var reg0 := reg.(fields := reg.fields[parent := []]);
    assert SetupData(obj, parent, doChop, reg) == SetupMembers(obj, 0, parent, doChop, reg0);
    assert k in KeysOf(t, obj) <==> k in KeysOfFrom(t, obj, 0);
    ResetFieldsFrame(reg, parent);
    assert k in Dom(reg0, t) <==> k in Dom(reg, t) + (if t == OwnerTable then {parent} else {});
    SetupMembersAdds(t, k, obj, 0, parent, doChop, reg0);
  }

  /** One table after a successful run of the driver. */
  lemma InferDom(t: Table, k: string, root: Json, top: string, doChop: bool)
    requires root.JObj? && Infer(root, top, doChop).Success?
    ensures k in Dom(Infer(root, top, doChop).value, t)
            <==> k in (if t == ClassTable || t == OwnerTable then {top} else {}) + KeysOf(t, root)
  {
    var reg0 := Empty.AddClass(top, TopLevelParent);
    assert k in Dom(reg0, t) <==> t == ClassTable && k == top;
    SetupDataAdds(t, k, root, top, doChop, reg0);
  }

  /** After a successful run the four tables hold exactly: the top-level
      class and every key holding an object or array (`@java_classes`);
      every key holding an array (`@java_lists`); every key the walk reached
      (`@field_info`); the top-level class and every key whose value, or
      innermost first array element, is an object (`@java_fields`). */
  lemma InferTables(k: string, root: Json, top: string, doChop: bool)
    requires root.JObj? && Infer(root, top, doChop).Success?
    ensures var reg := Infer(root, top, doChop).value;
            && (k in reg.classes <==> k == top || k in KeysOf(ClassTable, root))
            && (k in reg.lists <==> k in KeysOf(ListTable, root))
            && (k in reg.info <==> k in KeysOf(InfoTable, root))
            && (k in reg.fields <==> k == top || k in KeysOf(OwnerTable, root))
  {
    InferDom(ClassTable, k, root, top, doChop);
    InferDom(ListTable, k, root, top, doChop);
    InferDom(InfoTable, k, root, top, doChop);
    InferDom(OwnerTable, k, root, top, doChop);
  }

  // ---------------------------------------------------------------- table keys are document keys

  /** Every table holds only keys of the document, and `@field_info` holds
      all of them. */
  lemma {:induction false} KeysOfWithin(t: Table, k: string, v: Json)
    decreases v, 1
    ensures k in KeysOf(t, v) ==> k in Keys(v)
    ensures t == InfoTable ==> (k in KeysOf(t, v) <==> k in Keys(v))
  {
    match v
    case JObj(_) => KeysOfFromWithin(t, k, v, 0);
    case JArr(es) => if |es| > 0 { KeysOfWithin(t, k, es[0]); }
    case _ =>
  }

  lemma {:induction false} KeysOfFromWithin(t: Table, k: string, obj: Json, i: nat)
    requires obj.JObj?
    decreases obj, 0, |obj.members| - i
    ensures k in KeysOfFrom(t, obj, i) ==> k in MembersKeys(obj, i)
    ensures t == InfoTable ==> (k in KeysOfFrom(t, obj, i) <==> k in MembersKeys(obj, i))
  {
    if i < |obj.members| {
      KeysOfWithin(t, k, obj.members[i].value);
      KeysOfFromWithin(t, k, obj, i + 1);
    }
  }
}

=== FILE: walk_frame.dfy ===
/** What each walk function leaves alone: the tables only grow, the class
    order only grows at its end, and no entry changes outside the keys
    of the value walked (and, for field lists, the parent being filled). */
module WalkFrame {
  import opened Wrappers
  import opened Json
  import opened Registry
  import opened Walk
  import opened WalkSteps

  /** `get_java_type(v, _, key)` touches only the keys inside `v`, and the
      field list of `key`. */
  lemma {:induction false} GetJavaTypeFrame(v: Json, key: string, doChop: bool, reg: Registry)
    requires reg.Valid() && GetJavaType(v, key, doChop, reg).Success?
    decreases v, 0, 1
    ensures var out := GetJavaType(v, key, doChop, reg).value.reg;
            Extends(reg, out) && UnchangedOutside(reg, out, Keys(v), {key})
  {
    if v.JArr? {
      var e := v.elems[0];
      if e.JArr? {
        NestedArrayStep(v, key, doChop, reg);
        GetJavaTypeFrame(e, key, doChop, reg);
      } else if e.JObj? {
        ObjectElementStep(v, key, doChop, reg);
        SetupDataFrame(e, key, doChop, reg);
      } else {
        ScalarTypeStep(v, key, doChop, reg);
        UnchangedRefl(reg);
        UnchangedWeaken(reg, reg, {}, {}, Keys(v), {key});
      }
    } else {
      UnchangedRefl(reg);
      UnchangedWeaken(reg, reg, {}, {}, Keys(v), {key});
    }
  }

  /** `process_array` touches only the array's own key and the keys inside
      it; the key ends up a class and a list, owned by `parent` unless a
      nested member of the same name overwrote it. */
  lemma {:induction false} ProcessArrayFrame(arr: Json, key: string, parent: string, doChop: bool, reg: Registry)
    requires arr.JArr? && reg.Valid() && ProcessArray(arr, key, parent, doChop, reg).Success?
    decreases arr, 0, 2
    ensures var out := ProcessArray(arr, key, parent, doChop, reg).value.reg;
            && Extends(reg, out) && UnchangedOutside(reg, out, {key} + Keys(arr), {key})
            && key in out.classes && key in out.lists
            && (key !in Keys(arr) ==> out.classes[key] == parent && out.lists[key] == parent)
  {
    var reg1 := ListRegistered(reg, key, parent);
    AddClassFrame(reg, key, parent, true);
    var out := ProcessArray(arr, key, parent, doChop, reg).value.reg;
    if |arr.elems| == 0 {
      ArrayEmptyStep(arr, key, parent, doChop, reg);
      UnchangedRefl(reg1);
      ListThenElement(reg, reg1, out, key, parent, {});
    } else {
      var e := arr.elems[0];
      ArrayKeys(arr);
      if e.JObj? {
        ArrayObjectStep(arr, key, parent, doChop, reg);
        SetupDataFrame(e, key, doChop, reg1);
      } else {
        ArrayTypeStep(arr, key, parent, doChop, reg);
        GetJavaTypeFrame(e, key, doChop, reg1);
      }
      ListThenElement(reg, reg1, out, key, parent, Keys(arr));
    }
  }

  lemma ArrayKeys(arr: Json)
    requires arr.JArr? && |arr.elems| > 0
    ensures Keys(arr) == Keys(arr.elems[0])
  {}

  /** Registering a list and then walking its first element: the frames
      compose, and the list's own entries survive unless the element
      reuses its key. */
  lemma ListThenElement(reg: Registry, reg1: Registry, out: Registry, key: string, parent: string, inner: set<string>)
    requires Extends(reg, reg1) && UnchangedOutside(reg, reg1, {key}, {})
    requires key in reg1.classes && key in reg1.lists && reg1.classes[key] == parent && reg1.lists[key] == parent
    requires Extends(reg1, out) && UnchangedOutside(reg1, out, inner, {key})
    ensures Extends(reg, out) && UnchangedOutside(reg, out, {key} + inner, {key})
    ensures key in out.classes && key in out.lists
    ensures key !in inner ==> out.classes[key] == parent && out.lists[key] == parent
  {
    UnchangedTrans(reg, reg1, out, {key}, {}, inner, {key});
  }

  /** One member value touches only its key and the keys inside it. */
  lemma {:induction false} ProcessValueFrame(v: Json, key: string, parent: string, doChop: bool, reg: Registry)
    requires reg.Valid() && ProcessValue(v, key, parent, doChop, reg).Success?
    decreases v, 3, 0
    ensures var out := ProcessValue(v, key, parent, doChop, reg).value.reg;
            Extends(reg, out) && UnchangedOutside(reg, out, {key} + Keys(v), {})
  {
    var out := ProcessValue(v, key, parent, doChop, reg).value.reg;
    if v.JArr? {
      ValueArrayStep(v, key, parent, doChop, reg);
      ProcessArrayFrame(v, key, parent, doChop, reg);
      UnchangedAbsorb(reg, out, {key} + Keys(v), {key});
    } else if v.JObj? {
      var reg1 := reg.AddClass(key, parent);
      ValueObjectStep(v, key, parent, doChop, reg);
      AddClassFrame(reg, key, parent, false);
      SetupDataFrame(v, key, doChop, reg1);
      UnchangedTrans(reg, reg1, out, {key}, {}, Keys(v), {key});
      UnchangedAbsorb(reg, out, {key} + Keys(v), {} + {key});
    } else {
      ValueScalarStep(v, key, parent, doChop, reg);
      UnchangedRefl(reg);
      UnchangedWeaken(reg, reg, {}, {}, {key} + Keys(v), {});
    }
  }

  /** One iteration of the member loop touches only the member's key, the
      keys inside its value, and the field list of `parent`. */
  lemma {:induction false} ProcessMemberFrame(obj: Json, i: nat, parent: string, doChop: bool, reg: Registry)
    requires obj.JObj? && i < |obj.members| && reg.Valid() && parent in reg.fields
    requires ProcessMember(obj, i, parent, doChop, reg).Success?
    decreases obj, 0, 1
    ensures var m := obj.members[i];
            var out := ProcessMember(obj, i, parent, doChop, reg).value;
            Extends(reg, out) && UnchangedOutside(reg, out, {m.key} + Keys(m.value), {parent})
  {
    var m := obj.members[i];
    var p := ProcessValue(m.value, m.key, parent, doChop, reg).value;
    ProcessValueFrame(m.value, m.key, parent, doChop, reg);
    assert parent in p.reg.fields;
    StoreFrame(p.reg, m.key, p.details, parent);
    var out := ProcessMember(obj, i, parent, doChop, reg).value;
    UnchangedTrans(reg, p.reg, out, {m.key} + Keys(m.value), {}, {m.key}, {parent});
    UnchangedWeaken(reg, out, {m.key} + Keys(m.value) + {m.key}, {} + {parent}, {m.key} + Keys(m.value), {parent});
  }

  /** The member loop from index `i` touches only the keys of those
      members and the field list of `parent`. */
  lemma {:induction false} SetupMembersFrame(obj: Json, i: nat, parent: string, doChop: bool, reg: Registry)
    requires obj.JObj? && i <= |obj.members| && reg.Valid() && parent in reg.fields
    requires SetupMembers(obj, i, parent, doChop, reg).Success?
    decreases obj, 1, |obj.members| - i
    ensures var out := SetupMembers(obj, i, parent, doChop, reg).value;
            Extends(reg, out) && UnchangedOutside(reg, out, MembersKeys(obj, i), {parent})
  {
    var out := SetupMembers(obj, i, parent, doChop, reg).value;
    if i == |obj.members| {
      UnchangedRefl(reg);
      UnchangedWeaken(reg, reg, {}, {}, MembersKeys(obj, i), {parent});
    } else {
      var m := obj.members[i];
      MemberStep(obj, i, parent, doChop, reg);
      var reg' := ProcessMember(obj, i, parent, doChop, reg).value;
      ProcessMemberFrame(obj, i, parent, doChop, reg);
      SetupMembersFrame(obj, i + 1, parent, doChop, reg');
      UnchangedTrans(reg, reg', out, {m.key} + Keys(m.value), {parent}, MembersKeys(obj, i + 1), {parent});
    }
  }

  /** `setup_data(hash, parent)` touches only the keys inside the hash and
      the field list of `parent`. */
  lemma {:induction false} SetupDataFrame(obj: Json, parent: string, doChop: bool, reg: Registry)
    requires obj.JObj? && reg.Valid() && SetupData(obj, parent, doChop, reg).Success?
    decreases obj, 2, 0
    ensures var out := SetupData(obj, parent, doChop, reg).value;
            Extends(reg, out) && UnchangedOutside(reg, out, Keys(obj), {parent})
  {
    var reg0 := reg.(fields := reg.fields[parent := []]);
    ResetFieldsFrame(reg, parent);
    var out := SetupData(obj, parent, doChop, reg).value;
    assert out == SetupMembers(obj, 0, parent, doChop, reg0).value;
    SetupMembersFrame(obj, 0, parent, doChop, reg0);
    UnchangedTrans(reg, reg0, out, {}, {parent}, MembersKeys(obj, 0), {parent});
  }

  /** The top-level class comes first in the class order. */
  lemma InferOrder(root: Json, top: string, doChop: bool)
    requires root.JObj? && Infer(root, top, doChop).Success?
    ensures var out := Infer(root, top, doChop).value;
            |out.classOrder| > 0 && out.classOrder[0] == top
  {
    var reg0 := Empty.AddClass(top, TopLevelParent);
    AddClassFrame(Empty, top, TopLevelParent, false);
    SetupDataFrame(root, top, doChop, reg0);
    var out := Infer(root, top, doChop).value;
    assert out.classOrder[..1] == [top];
  }
}

=== FILE: walk_shape.dfy ===
/** The walk reads only the first element of every array (`value[0]` in
    `get_java_type` and `process_array`): documents that agree once every
    array is cut down to its first element infer the same registry. */
module WalkShape {
  import opened Wrappers
  import opened Json
  import opened Registry
  import opened Walk

  /** `v` with every array cut down to its first element. */
  function Trunc(v: Json): Json {
    match v
    case JArr(es) => JArr(if |es| == 0 then [] else [Trunc(es[0])])
    case JObj(ms) => JObj(seq(|ms|, i requires 0 <= i < |ms| => Member(ms[i].key, Trunc(ms[i].value))))
    case _ => v
  }

  lemma {:induction false} GetJavaTypeTrunc(v: Json, key: string, doChop: bool, reg: Registry)
    requires reg.Valid()
    decreases v, 0, 1
    ensures GetJavaType(Trunc(v), key, doChop, reg) == GetJavaType(v, key, doChop, reg)
  {
    if v.JArr? && |v.elems| > 0 {
      var e := v.elems[0];
      assert Trunc(v).elems[0] == Trunc(e);
      GetJavaTypeTrunc(e, key, doChop, reg);
      var inner := GetJavaType(e, key, doChop, reg);
      if inner.Success? && inner.value.javaType == Unknown && e.JObj? {
        SetupDataTrunc(e, key, doChop, inner.value.reg);
      }
    }
  }

  lemma {:induction false} ProcessArrayTrunc(arr: Json, key: string, parent: string, doChop: bool, reg: Registry)
    requires arr.JArr? && reg.Valid()
    decreases arr, 2, 0
    ensures ProcessArray(Trunc(arr), key, parent, doChop, reg) == ProcessArray(arr, key, parent, doChop, reg)
  {
    if |arr.elems| > 0 {
      var e := arr.elems[0];
      var reg1 := reg.AddClass(key, parent).(lists := reg.lists[key := parent]);
      AddClassFrame(reg, key, parent, true);
      assert Trunc(arr).elems[0] == Trunc(e);
      if e.JObj? {
        SetupDataTrunc(e, key, doChop, reg1);
      } else {
        GetJavaTypeTrunc(e, key, doChop, reg1);
      }
    }
  }

  lemma {:induction false} ProcessValueTrunc(v: Json, key: string, parent: string, doChop: bool, reg: Registry)
    requires reg.Valid()
    decreases v, 3, 0
    ensures ProcessValue(Trunc(v), key, parent, doChop, reg) == ProcessValue(v, key, parent, doChop, reg)
  {
    if v.JArr? {
      ProcessArrayTrunc(v, key, parent, doChop, reg);
    } else if v.JObj? {
      AddClassFrame(reg, key, parent, false);
      SetupDataTrunc(v, key, doChop, reg.AddClass(key, parent));
    }
  }

  lemma {:induction false} ProcessMemberTrunc(obj: Json, i: nat, parent: string, doChop: bool, reg: Registry)
    requires obj.JObj? && i < |obj.members| && reg.Valid() && parent in reg.fields
    decreases obj, 0, 0
    ensures |Trunc(obj).members| == |obj.members|
    ensures ProcessMember(Trunc(obj), i, parent, doChop, reg) == ProcessMember(obj, i, parent, doChop, reg)
  {
    var m := obj.members[i];
    assert Trunc(obj).members[i] == Member(m.key, Trunc(m.value));
    ProcessValueTrunc(m.value, m.key, parent, doChop, reg);
  }

  lemma {:induction false} SetupMembersTrunc(obj: Json, i: nat, parent: string, doChop: bool, reg: Registry)
    requires obj.JObj? && i <= |obj.members| && reg.Valid() && parent in reg.fields
    decreases obj, 1, |obj.members| - i
    ensures |Trunc(obj).members| == |obj.members|
    ensures SetupMembers(Trunc(obj), i, parent, doChop, reg) == SetupMembers(obj, i, parent, doChop, reg)
  {
    if i < |obj.members| {
      ProcessMemberTrunc(obj, i, parent, doChop, reg);
      var p := ProcessMember(obj, i, parent, doChop, reg);
      if p.Success? {
        SetupMembersTrunc(obj, i + 1, parent, doChop, p.value);
      }
    }
  }

  lemma {:induction false} SetupDataTrunc(obj: Json, parent: string, doChop: bool, reg: Registry)
    requires obj.JObj? && reg.Valid()
    decreases obj, 2, 0
    ensures SetupData(Trunc(obj), parent, doChop, reg) == SetupData(obj, parent, doChop, reg)
  {
    ResetFieldsFrame(reg, parent);
    SetupMembersTrunc(obj, 0, parent, doChop, reg.(fields := reg.fields[parent := []]));
  }

  /** Two documents that agree on the first element of every array give
      the same outcome: the same registry, or the same failure. */
  lemma InferIgnoresLaterElements(a: Json, b: Json, top: string, doChop: bool)
    requires a.JObj? && b.JObj? && Trunc(a) == Trunc(b)
    ensures Infer(a, top, doChop) == Infer(b, top, doChop)
  {
    var reg0 := Empty.AddClass(top, TopLevelParent);
    AddClassFrame(Empty, top, TopLevelParent, false);
    SetupDataTrunc(a, top, doChop, reg0);
    SetupDataTrunc(b, top, doChop, reg0);
  }
}

=== FILE: walk_steps.dfy ===
/** One case of a walk function at a time. Each lemma unfolds one branch;
    stated apart, each is proved without the facts of a larger proof in
    scope. */
module WalkSteps {
  import opened Wrappers
  import opened Json
  import opened Registry
  import opened Walk

  lemma ScalarTypeStep(v: Json, key: string, doChop: bool, reg: Registry)
    requires reg.Valid() && v.JArr? && |v.elems| > 0 && !v.elems[0].JArr? && !v.elems[0].JObj?
    requires GetJavaType(v, key, doChop, reg).Success?
    ensures GetJavaType(v, key, doChop, reg).value.reg == reg
  {}

  lemma NestedArrayStep(v: Json, key: string, doChop: bool, reg: Registry)
    requires reg.Valid() && v.JArr? && |v.elems| > 0 && v.elems[0].JArr?
    requires GetJavaType(v, key, doChop, reg).Success?
    ensures GetJavaType(v.elems[0], key, doChop, reg).Success?
    ensures GetJavaType(v, key, doChop, reg).value.reg == GetJavaType(v.elems[0], key, doChop, reg).value.reg
  {
    assert GetJavaType(v.elems[0], key, doChop, reg).value.javaType != Unknown;
  }

  lemma ObjectElementStep(v: Json, key: string, doChop: bool, reg: Registry)
    requires reg.Valid() && v.JArr? && |v.elems| > 0 && v.elems[0].JObj?
    requires GetJavaType(v, key, doChop, reg).Success?
    ensures SetupData(v.elems[0], key, doChop, reg).Success?
    ensures GetJavaType(v, key, doChop, reg).value.reg == SetupData(v.elems[0], key, doChop, reg).value
  {
    assert GetJavaType(v.elems[0], key, doChop, reg) == Success(Typed(Unknown, false, reg));
  }

  /** The registry after `process_array` registered the array's own key. */
  function ListRegistered(reg: Registry, key: string, parent: string): Registry
    requires reg.OrderMatches()
  {
    reg.AddClass(key, parent).(lists := reg.lists[key := parent])
  }

  lemma ArrayEmptyStep(arr: Json, key: string, parent: string, doChop: bool, reg: Registry)
    requires arr.JArr? && |arr.elems| == 0 && reg.Valid()
    ensures ProcessArray(arr, key, parent, doChop, reg).Success?
    ensures ProcessArray(arr, key, parent, doChop, reg).value.reg == ListRegistered(reg, key, parent)
  {}

  lemma ArrayObjectStep(arr: Json, key: string, parent: string, doChop: bool, reg: Registry)
    requires arr.JArr? && |arr.elems| > 0 && arr.elems[0].JObj? && reg.Valid()
    requires ProcessArray(arr, key, parent, doChop, reg).Success?
    ensures ListRegistered(reg, key, parent).Valid()
    ensures ProcessArray(arr, key, parent, doChop, reg).value.reg == SetupData(arr.elems[0], key, doChop, ListRegistered(reg, key, parent)).value
  {}

  lemma ArrayTypeStep(arr: Json, key: string, parent: string, doChop: bool, reg: Registry)
    requires arr.JArr? && |arr.elems| > 0 && !arr.elems[0].JObj? && reg.Valid()
    requires ProcessArray(arr, key, parent, doChop, reg).Success?
    ensures ListRegistered(reg, key, parent).Valid()
    ensures ProcessArray(arr, key, parent, doChop, reg).value.reg == GetJavaType(arr.elems[0], key, doChop, ListRegistered(reg, key, parent)).value.reg
  {}

  lemma ValueArrayStep(v: Json, key: string, parent: string, doChop: bool, reg: Registry)
    requires reg.Valid() && v.JArr? && ProcessValue(v, key, parent, doChop, reg).Success?
    ensures ProcessValue(v, key, parent, doChop, reg) == ProcessArray(v, key, parent, doChop, reg)
  {}

  lemma ValueObjectStep(v: Json, key: string, parent: string, doChop: bool, reg: Registry)
    requires reg.Valid() && v.JObj? && ProcessValue(v, key, parent, doChop, reg).Success?
    ensures reg.AddClass(key, parent).Valid()
    ensures ProcessValue(v, key, parent, doChop, reg).value.reg == SetupData(v, key, doChop, reg.AddClass(key, parent)).value
  {
    AddClassFrame(reg, key, parent, false);
  }

  lemma ValueScalarStep(v: Json, key: string, parent: string, doChop: bool, reg: Registry)
    requires reg.Valid() && !v.JArr? && !v.JObj?
    ensures ProcessValue(v, key, parent, doChop, reg).Success?
    ensures ProcessValue(v, key, parent, doChop, reg).value.reg == reg
  {}

  lemma MemberStep(obj: Json, i: nat, parent: string, doChop: bool, reg: Registry)
    requires obj.JObj? && i < |obj.members| && reg.Valid() && parent in reg.fields
    requires SetupMembers(obj, i, parent, doChop, reg).Success?
    ensures var m := obj.members[i];
            var p := ProcessValue(m.value, m.key, parent, doChop, reg);
            && p.Success? && ProcessMember(obj, i, parent, doChop, reg).Success?
            && parent in p.value.reg.fields
            && ProcessMember(obj, i, parent, doChop, reg).value
               == p.value.reg.(info := p.value.reg.info[m.key := p.value.details],
                               fields := p.value.reg.fields[parent := p.value.reg.fields[parent] + [m.key]])
            && SetupMembers(obj, i, parent, doChop, reg)
               == SetupMembers(obj, i + 1, parent, doChop, ProcessMember(obj, i, parent, doChop, reg).value)
  {}
}

=== FILE: wrappers.dfy ===
/** Failure-compatible Option and Result, so the walk can use `:-`. */
module Wrappers {

  datatype Option<+T> = None | Some(value: T)

  datatype Result<+R, +E> = Success(value: R) | Failure(error: E) {

    predicate IsFailure() {
      Failure?
    }

    function PropagateFailure<U>(): Result<U, E>
      requires Failure?
    {
      Failure(error)
    }

    function Extract(): R
      requires Success?
    {
      value
    }
  }
}
